=== FILE: README.md ===
# TimeTracker core in Dafny

TimeTracker is a personal time-tracking application. A FastAPI backend keeps one
row per work day (start time, end time, break minutes) in SQLite. It turns those
rows into day, week and year summaries against soft and hard daily targets,
taking holidays and personal time off into account. A React frontend shows the
running totals. This project models the time-accounting and calendar logic of
both halves as pure Dafny functions over immutable data, and proves properties
of it.

Modules, in dependency order:

- `Wrappers`: `Option`, `Result` and the error kinds the backend raises (HTTP errors and uncaught exceptions).
- `Digits`: decimal text as Python's `int()`/`str()`/`strftime` and JavaScript's `String()`/`padStart` read and write it.
- `Dates`: the proleptic Gregorian calendar of Python's `date`. It covers validity, leap years, day ordinals (0001-01-01 is day 1), the weekday with Monday = 0, and `timedelta` arithmetic. It also provides the inclusive `while d <= end` date walk used throughout the services.
- `TimeUtils`: `backend/time_utils.py`. It parses and prints dates and clock times, builds day-time instants and computes the Monday–Friday range.
- `Settings`: `backend/db.py`. It covers the settings table, the default merge, upserts and `get_targets` validation and derivation.
- `Schemas`: the numeric bounds of the request bodies in `backend/schemas.py`.
- `SettingsRouter`: `backend/routers/settings_router.py`. It covers the derived GET view, and the PATCH merge, validation and update set.
- `DayService`: `backend/services/day_service.py`. It covers `get_or_create_day` and the day summary (gross, net, running flag, soft/hard status, remainders).
- `DayRouter`: `backend/routers/day_router.py`. The handlers are transitions of the day table.
- `Sorting`, `TextOrder`: a stable sort on a key, which models the SQL `ORDER BY start_date, id` of the time-off listing, and text comparison of zero-padded ISO dates (how SQLite orders and filters date text).
- `Recurring`: `backend/services/recurring_holiday_service.py`. The recurring-holiday table is keyed by month and day.
- `TimeOff`: `backend/services/timeoff_service.py` and its router. It covers adding, listing, deleting and expanding time-off ranges.
- `OffDays`: the off-day map shared by the week and the year (personal time off overrides a recurring holiday), the row fetch, and the per-date summary loop.
- `Week`: `backend/services/week_service.py`. It covers the week bounds, ceiling division, working days, weekly targets, remaining workdays and pace.
- `Calendar`: `backend/services/calendar_service.py` and the year check of its router.
- `FrontendTime`: `frontend/src/time.js`.
- `TrackerView`: the `Progress` bar, status text, button predicates and day label of `TimeTrackerView.jsx`. `App.jsx` carries an identical copy of `Progress` (lines 41-50), which the same members model.
- `AppView`: `App.jsx`. It covers the live net of today, target fallbacks and the manual-save payload.
- `HolidaysPanel`: `getDaysInYear`, the month slices, the leading blanks and the cell classes.

## Representation choices

- A clock time is a minute of the day, 0..1439.
- The backend's "now" is a parameter: an instant counted in whole seconds from the start of 0001-01-01. A naive `datetime` has the same ordering and differences, and microseconds never change a whole-minute difference against a whole-minute start. The frontend's "now" is milliseconds since local midnight.
- "today" is a parameter wherever the source reads the clock.
- The database tables are immutable maps or sequences.
- The day table is a map from the row's date text to its record, as the `work_day.date` column is. The services read it through the ISO spelling of each date.
- The recurring-holiday table is keyed by a (month, day) pair. This follows the schema in `backend/db.py:38-47` and the lookups in `backend/services/week_service.py:64`. `backend/services/recurring_holiday_service.py` and `backend/services/calendar_service.py` speak of a single `date` column. This model reads that column as the same month/day key, and it reads `ORDER BY date` as month/day order. The calendar's "skip a record whose date does not parse" becomes "skip a record whose month/day is no real month-day".
- A failing call yields a `Result` error that names the HTTP status or exception the source produces.
- The source has several slips that would stop it before it reached the logic:
  - the misspelled table names in `end_at` (`backend/routers/day_router.py:92,95`);
  - the malformed `UPDATE` in `break_subtract` (`backend/routers/day_router.py:141`);
  - the `{day-str}` route placeholder (`backend/routers/day_router.py:101`);
  - the call `upsert_recurring(con, body.month, body.day, body.label)` (`backend/routers/recurring_holiday_router.py:17`), which passes four arguments to the three-parameter `upsert_recurring` (`backend/services/recurring_holiday_service.py:11`), a `TypeError`;
  - the calendar router, which `backend/main.py` neither imports nor passes to `include_router`, so the `/api/calendar/year/{year}` route (`backend/routers/calendar_router.py:10`) is never served;
  - the request bodies `TimeoffCreate` and `RecurringHolidayCreate`, imported by `backend/routers/timeoff_router.py:4` and `backend/routers/recurring_holiday_router.py:3` but defined nowhere in `backend/schemas.py`. `backend/main.py:10-11` imports both routers, so as written the application stops with an `ImportError` at start-up.

  The model takes the evidently intended statements: the `work_day` table, the `{day_str}` parameter, and a time-off body with the fields the router reads. Each slip that touches a modelled member is recorded under "## Left out", on a line that starts with that member's name. The logic slips that change observable behaviour are listed under "## Findings".

## Model

| member | source | states |
|---|---|---|
| Digits.IntRoundTrip | backend/routers/settings_router.py:37-43 | `int()` reads back the `str()` of every integer, which is how an updated setting is stored and later read |
| Digits.ParseInt | backend/db.py:92-97 | the model's `int()` accepts exactly a non-empty ASCII digit string with an optional `+` or `-`, and its value is the digits' decimal value with that sign |
| Digits.IntToString | backend/routers/settings_router.py:37-43 | `str()` of an integer: a `-` exactly for a negative number, then a non-empty digit string without a leading zero whose decimal value is the magnitude |
| Digits.PadStartIsFixedWidth | frontend/src/time.js:1-3 | `pad2`'s `padStart(2, "0")` gives the same two characters as the backend's `%02d` for every value below 100 |
| TimeUtils.ParseDate | backend/time_utils.py:4-8 | a parsed date always exists and has a four-digit year; every rejection is the 400 invalid-date error |
| TimeUtils.ParseHHMM | backend/time_utils.py:10-14 | every rejection of a clock text is the 400 invalid-time error |
| TimeUtils.ParseIsoText | backend/time_utils.py:4-8 | on zero-padded "YYYY-MM-DD" text, `parse_date` succeeds exactly when the date exists, and yields that date |
| TimeUtils.LeapDayParses | backend/time_utils.py:4-8 | February 29 parses exactly in leap years |
| TimeUtils.IsoRoundTrip | backend/time_utils.py:24-25 | `parse_date(iso(d))` gives back `d` for every date with a four-digit year |
| TimeUtils.IsoSpelling | backend/time_utils.py:24-25 | `iso(d)` is `%Y-%m-%d` text: ten characters, dashes at positions 4 and 7, and digit groups whose decimal values are the year, month and day |
| TimeUtils.MonthFieldOfTwoDigits | backend/time_utils.py:6 | the `%m` field accepts a zero-padded month exactly when it is 1..12 and reads its value |
| TimeUtils.DayFieldOfTwoDigits | backend/time_utils.py:6 | the `%d` field accepts a zero-padded day exactly when it is 1..31 and reads its value |
| TimeUtils.HourFieldOfTwoDigits | backend/time_utils.py:12 | the `%H` field accepts a zero-padded hour exactly when it is 0..23 |
| TimeUtils.MinuteFieldOfTwoDigits | backend/time_utils.py:12 | the `%M` field accepts a zero-padded minute exactly when it is 0..59 |
| TimeUtils.ParseClockText | backend/time_utils.py:10-14 | "HH:MM" validates exactly when the hour is 0..23 and the minute 0..59, and denotes HH * 60 + MM minutes |
| TimeUtils.ClockRoundTrip | backend/time_utils.py:16-17 | the text `now_hhmm` writes always validates and reads back as the same time of day |
| TimeUtils.FormatHHMM | backend/time_utils.py:16-17 | `%H:%M` text: five characters, a colon at position 2, and two-digit groups whose hours * 60 + minutes is the time of day, minutes below 60 |
| TimeUtils.DtFor | backend/time_utils.py:19-22 | `dt_for` succeeds exactly when the clock text validates; the instant is that many minutes after the day's midnight and lies inside that day |
| TimeUtils.InstantOf | backend/time_utils.py:19-22 | `datetime.combine`: the instant's whole days are the days before the date, and its remainder is the second of the day |
| TimeUtils.MondayOf | backend/time_utils.py:27-28 | the result is a Monday, at most six days before the given date |
| TimeUtils.WeekRangeFor | backend/time_utils.py:27-30 | Monday and Friday of the given date's week: weekdays 0 and 4, four days apart, the date at most six days after the Monday |
| TimeUtils.FourAfterMonday | backend/time_utils.py:29 | four days after a Monday is a Friday |
| TimeUtils.MondayNotBeforeDayOne | backend/time_utils.py:28 | the Monday of any week is never before 0001-01-01 |
| Settings.GetSettings | backend/db.py:70-78 | the keys read are the stored ones plus the defaults; a stored value always wins over its default |
| Settings.InsertIfAbsent | backend/db.py:61-66 | `ON CONFLICT DO NOTHING`: an existing key keeps its value, a missing one gets the given value |
| Settings.SeedDefaults | backend/db.py:60-67 | after seeding, every default key is present |
| Settings.SeedIsMerge | backend/db.py:60-78 | seeding the table and reading it gives the same mapping as reading the unseeded table with the default merge |
| Settings.GetSettingsIdempotent | backend/db.py:75-77 | merging the defaults a second time changes nothing |
| Settings.UpsertSettings | backend/db.py:80-87 | each updated key takes its new value; every other key keeps its own |
| Settings.UpsertThenRead | backend/db.py:70-87 | a value written by `upsert_settings` is the one `get_settings` reads back |
| Settings.GetTargets | backend/db.py:90-113 | each error occurs exactly in its own case, checked in source order: non-integer, then negative or zero, then soft above hard; on success the figures are the settings and the weekly targets are the daily ones times the workday count |
| Settings.DefaultsPass | backend/db.py:6-10 | with none of the three keys stored, the targets are 360 and 480 minutes a day, 5 workdays, 1800 and 2400 a week |
| Schemas.CheckMinutesBody | backend/schemas.py:4-5 | a minutes body is accepted exactly when it is 0..1440 (a 422 otherwise) |
| Schemas.CheckDayPatch | backend/schemas.py:7-11 | a day patch is refused exactly when it carries a break outside 0..1440; time texts are not checked here |
| Schemas.CheckSettingsPatch | backend/schemas.py:13-16 | a settings patch is accepted exactly when each supplied field is within its bounds (targets 0..1440, workdays 1..7) |
| SettingsRouter.GetSettingsView | backend/routers/settings_router.py:7-23 | the GET succeeds exactly when `get_targets` does, with its error otherwise; the view holds the stored settings and weekly targets equal to daily times workdays |
| SettingsRouter.UpdateSet | backend/routers/settings_router.py:37-43 | the update set has exactly the supplied fields, each stored as text that reads back as the supplied value |
| SettingsRouter.PatchPlan | backend/routers/settings_router.py:26-43 | a patch is accepted exactly when it passes the schema and the effective soft target (given or current) is at most the effective hard one |
| SettingsRouter.EffectiveAfterUpsert | backend/routers/settings_router.py:30-46 | after the update set is written, each setting reads back as the patch's effective value |
| SettingsRouter.PatchSettings | backend/routers/settings_router.py:25-50 | a refused patch writes nothing and replies with the plan's error; an accepted one writes exactly the supplied fields and replies with the GET view of the written table, which exists exactly when the effective workday count is an integer above 0 and the effective soft target is not negative, and then shows settings equal to the effective values, soft at most hard; an empty patch leaves the table unchanged |
| SettingsRouter.PatchedViewOk | backend/routers/settings_router.py:25-50 | after an accepted patch is written, the GET view exists exactly when the effective workday count is an integer above 0 and the effective soft target is not negative |
| SettingsRouter.PatchSettingsAsWritten | backend/routers/settings_router.py:25-50 | as written, the handler refuses the same patches but leaves the table unchanged whatever the body, since the upsert is never committed |
| SettingsRouter.PatchSettingsIsLost | backend/routers/settings_router.py:45-49 | a patch to 300 soft minutes is accepted, yet the next GET still shows 360; the corrected handler shows 300 |
| DayService.GetOrCreateDay | backend/services/day_service.py:8-17 | returns the stored row when there is one; otherwise inserts and returns an empty row under the key; no other row changes |
| DayService.GetOrCreateIdempotent | backend/services/day_service.py:8-17 | a second call on the same key changes nothing and returns the same row |
| DayService.Classify | backend/services/day_service.py:47-69 | over-hard exactly when net > hard, between exactly when soft < net <= hard, else under-soft; the overrun and remaining figures are non-negative, at most one of each pair is non-zero, and they differ by the target minus net |
| DayService.Span | backend/services/day_service.py:33-42 | the span starts at the start time and ends at the stored end, or at `now` while running; it fails with the invalid-time error for bad text and the end-before-start error when the end is earlier |
| DayService.Worked | backend/services/day_service.py:33-45 | no start means zero minutes and not running; otherwise gross is the span's whole minutes, floored, never negative, and for a finished day exactly end minus start |
| DayService.ComputeDaySummary | backend/services/day_service.py:19-70 | targets are read first and the date parsed second, each error passed on; with both readable, a summary exists exactly when the row's times can be measured, and otherwise the measuring error is the reply; a summary copies the row's fields and the targets, has net = max(0, gross - break) and net <= gross, and its status is the classification of net |
| DayService.FinishedDaySummarised | backend/services/day_service.py:33-45 | a day with readable start and end, the end not earlier, is summarised as finished, with gross = end - start and net = max(0, gross - break) |
| DayService.RunningNetMonotone | backend/services/day_service.py:40-45 | while a day runs, a later clock never lowers gross or net and never changes success |
| DayService.NetAntitoneInBreak | backend/services/day_service.py:45 | a longer break leaves gross unchanged and never raises net |
| DayService.FinishedIgnoresNow | backend/services/day_service.py:36-42 | a finished day's summary does not depend on the clock |
| DayService.EndBeforeStartRefused | backend/services/day_service.py:36-39 | a stored end earlier than its start is refused with the end-before-start error |
| Dates.DaysInMonth | backend/time_utils.py:6 | a month has 28 to 31 days, and 29 exactly for February of a Gregorian leap year, the calendar `strptime` validates days against |
| Dates.DaysBeforeYearClosedForm | backend/time_utils.py:28 | counting the days of all earlier years one by one agrees with the 365·y + y/4 − y/100 + y/400 formula behind Python's ordinals |
| Dates.FromOrdinalOfOrdinal | backend/time_utils.py:28-29 | turning a date into its day number and back gives the same date, so `timedelta` arithmetic on day numbers is arithmetic on dates |
| Dates.OrdinalOrder | backend/services/week_service.py:69 | comparing dates (`d <= week_end`) is comparing day numbers: strictly earlier exactly when the number is smaller, equal exactly when the numbers are equal |
| Dates.AddDays | backend/time_utils.py:28-29 | adding `timedelta(days=k)` gives a real date exactly k day numbers away |
| Dates.WeekdayShift | backend/time_utils.py:28 | moving k days moves the weekday by k modulo 7, which is why subtracting `weekday()` lands on a Monday |
| Dates.DateRange | backend/services/week_service.py:101-119 | the `while d <= end` walk visits hi − lo + 1 dates (none when hi is earlier), the i-th being lo plus i days |
| Dates.DateRangeMembers | backend/services/week_service.py:68-91 | a date is visited by the walk exactly when it is a real date between the bounds inclusive, and it sits at its distance from lo |
| Dates.DateRangeIncreasing | backend/services/week_service.py:101-119 | the walk visits dates in strictly increasing order, so no date is visited twice |
| Dates.YearDates | backend/services/calendar_service.py:72-83 | the walk from January 1 to December 31 visits 366 dates exactly in a leap year and 365 otherwise |
| Dates.YearDatesMembers | backend/services/calendar_service.py:72-83 | the year's walk visits exactly the real dates of that year |
| Dates.YearDatesPosition | backend/services/calendar_service.py:72-83 | the j-th date of the year's walk is day j + 1 of that year |
| DayRouter.NowHHMM | backend/time_utils.py:16-17 | the text `now_hhmm` produces always validates as "HH:MM" |
| DayRouter.Finish | backend/routers/day_router.py:31-35 | re-reading and summarising leaves the table unchanged; the reply is the row's summary or the summary's error |
| DayRouter.GetDay | backend/routers/day_router.py:9-15 | a bad date is refused before anything is touched; otherwise the row is created if missing and the reply is its summary or the summary's error |
| DayRouter.WriteRow | backend/routers/day_router.py:182-189 | an update changes only the given day's row, sets it to exactly the new values, and the reply is the summary of that row read back (or its error) |
| DayRouter.StartNow | backend/routers/day_router.py:17-35 | on a started day nothing changes and the stored start is reported; otherwise only the day's row changes, its start becoming the current time of day with end and break kept, and the reply is the summary of the re-read row |
| DayRouter.StartAt | backend/routers/day_router.py:37-52 | date and time are checked before any row is touched; then only the day's row changes (start set, end cleared, break kept) and the reply is the summary of the re-read row |
| DayRouter.EndNow | backend/routers/day_router.py:54-72 | a day without a start is refused (the empty row still created); otherwise only the day's end changes, to the current time of day, and the reply is the summary of the re-read row |
| DayRouter.EndAt | backend/routers/day_router.py:74-99 | date and time are checked first; a day without a start is refused; after that, a bad stored start is the invalid-time error, an end earlier than the start is refused with only the created row added, and otherwise exactly the row's end is set and the reply is the summary of the re-read row |
| DayRouter.EndAtTail | backend/routers/day_router.py:85-99 | after the guard: a bad stored start is the invalid-time error, an end before the start is refused with nothing written, and an end at or after the start sets the row's end, changes nothing else and replies with the summary of the re-read row |
| DayRouter.EndAtAsWritten | backend/routers/day_router.py:74-99 | as written, the guard tests the stored end: a day without an end is refused as not started, a day with an end but no start fails in `dt_for`, and a day with both goes on exactly as the corrected handler does after its guard |
| DayRouter.EndAtRefusesRunningDay | backend/routers/day_router.py:81-83 | a day started at 09:00 and still running cannot be ended at 17:00: the handler as written refuses it and leaves the row running |
| DayRouter.EndAtEndsRunningDay | backend/routers/day_router.py:74-99 | the corrected handler ends the same running day at 17:00 and reports 480 gross minutes |
| DayRouter.NineToFiveSummary | backend/services/day_service.py:33-45 | 09:00 to 17:00 without a break under the default settings is 480 gross minutes |
| DayRouter.ClearEnd | backend/routers/day_router.py:101-114 | only the day's end is removed, nothing else in the table changes, and the reply is the summary of the re-read row |
| DayRouter.BreakAdd | backend/routers/day_router.py:116-131 | the body is bounded first; then the break grows by exactly the minutes, nothing else changes, and the reply is the summary of the re-read row |
| DayRouter.BreakSubtract | backend/routers/day_router.py:133-148 | the break shrinks by the minutes but never below 0, nothing else changes, and the reply is the summary of the re-read row |
| DayRouter.NormaliseTimes | backend/routers/day_router.py:156-158 | an empty start or end text becomes null; every other field is kept |
| DayRouter.Assign | backend/routers/day_router.py:177-182 | a column keeps its value when its field was not sent, becomes null when null was sent, and takes the sent value otherwise |
| DayRouter.ApplyPatch | backend/routers/day_router.py:174-183 | exactly the sent fields are written; a null break violates NOT NULL (backend/db.py:26) and the update fails |
| DayRouter.PatchDay | backend/routers/day_router.py:150-189 | schema, date and times are checked before the row is touched; an empty patch only creates the row; a null break fails the NOT NULL column; otherwise exactly the sent fields change and the reply is the summary of the re-read row |
| DayRouter.HandlePreservesWellFormed | backend/routers/day_router.py:17-189 | every handler keeps all breaks non-negative and all stored times valid, whatever the request |
| DayRouter.HandleTouchesOneRow | backend/routers/day_router.py:17-189 | every handler leaves the table alone or changes only the requested day's row, leaving that row well formed |
| DayRouter.Handle | backend/routers/day_router.py:9-189 | a bad date changes nothing and is refused; any request leaves the table alone or changes only the requested day's row |
| DayRouter.TimeCommandTouchesOneRow | backend/routers/day_router.py:17-114 | the same for the start, end and clear-end handlers |
| DayRouter.OtherCommandTouchesOneRow | backend/routers/day_router.py:116-189 | the same for the get, break and patch handlers |
| Sorting.Insert | backend/services/timeoff_service.py:31 | inserting into a key-sorted sequence keeps it sorted and adds exactly the one element |
| Sorting.SortBy | backend/services/timeoff_service.py:31 | an `ORDER BY`: the result holds the same elements, as a multiset, in non-decreasing key order |
| TextOrder.DigitsOrder | backend/services/timeoff_service.py:25 | between digit strings of one length, the database's text comparison is numeric comparison |
| TextOrder.FixedWidthOrder | backend/services/week_service.py:41 | zero-padded numbers of one width have equal text exactly when they are equal, and compare as text the way they compare as numbers |
| TextOrder.IsoTextOrder | backend/services/week_service.py:41 | "YYYY-MM-DD" texts compare like (year, month, day) triples |
| TextOrder.IsoOrder | backend/services/week_service.py:37-44 | comparing two `isoformat` texts compares the dates, so a text range filter selects by date |
| TextOrder.IsoInjective | backend/services/week_service.py:47-50 | two dates with the same `isoformat` text are the same date, so keying rows by that text loses nothing |
| Recurring.Lookup | backend/services/week_service.py:64 | the row found carries the key and is in the table; nothing is found exactly when no row carries the key |
| Recurring.LookupUnique | backend/db.py:44 | because month/day is UNIQUE, a row that carries the key is the one found |
| Recurring.ListRecurring | backend/services/recurring_holiday_service.py:5-8 | every row of the table, each as often as stored, in month/day order |
| Recurring.DateKeyOrder | backend/services/recurring_holiday_service.py:7 | month/day order is calendar order within any one year |
| Recurring.UpsertRecurring | backend/services/recurring_holiday_service.py:11-21 | the table keeps its invariants; afterwards the key holds the new caption; an existing key keeps its id and the row count, a new key adds one row with the next id; rows with other keys are neither lost nor added |
| Recurring.AppendNewKey | backend/services/recurring_holiday_service.py:14-15 | inserting a key the table lacks keeps ids increasing and keys unique, and the new row is the one found under the key |
| Recurring.ReplaceCaption | backend/services/recurring_holiday_service.py:17 | `DO UPDATE SET label` on an existing key changes only that row's caption and keeps the invariants |
| Recurring.UpsertTwice | backend/services/recurring_holiday_service.py:11-21 | upserting one key twice leaves one row, the first upsert's id and the second caption |
| Recurring.DeleteRecurring | backend/services/recurring_holiday_service.py:24-27 | a row stays exactly when its id is not the deleted one, and the table keeps its invariants |
| Recurring.RemoveRecurring | backend/services/recurring_holiday_service.py:26 | the rows left are exactly those whose id differs, with ids still increasing and keys still unique |
| TimeOff.CheckRange | backend/services/timeoff_service.py:7-10 | a range is accepted exactly when both texts parse and the end is not before the start; otherwise the invalid-date or end-before-start error |
| TimeOff.AddTimeOffAsWritten | backend/services/timeoff_service.py:6-17 | as written: a refused range leaves the table alone; an accepted one appends a row holding the texts exactly as sent, with the next id, which is returned |
| TimeOff.AppendKeepsValid | backend/services/timeoff_service.py:12-17 | a row carrying the next id keeps ids increasing and below the counter |
| TimeOff.AddTimeOff | backend/services/timeoff_service.py:6-17 | corrected insert: the same acceptance and errors, one row appended with the next id, kind and caption, whose stored dates parse to the sent ones, in canonical spelling |
| TimeOff.IsoCanonical | backend/services/timeoff_service.py:42-43 | the `isoformat` spelling of a date is canonical and parses back to it |
| TimeOff.SelectRows | backend/services/timeoff_service.py:25 | a row is kept exactly when the overlap filter on its texts holds, in table order |
| TimeOff.ListTimeOff | backend/services/timeoff_service.py:19-33 | every row, or with both bounds given exactly the overlapping ones, each once, sorted by start text then id |
| TimeOff.RowKeyOrder | backend/services/timeoff_service.py:26 | the listing order compares start texts first and ids on a tie |
| TimeOff.ListedInDateOrder | backend/services/timeoff_service.py:26 | for canonically stored dates the listing is in start-date order, ties by id |
| TimeOff.KeyOrderIsDateOrder | backend/services/timeoff_service.py:31 | between canonical start texts, sort-key order is start-date order, ties by id |
| TimeOff.DeleteTimeOff | backend/services/timeoff_service.py:35-38 | a row stays exactly when its id is not the deleted one; the table keeps its invariants and canonical spelling |
| TimeOff.RemoveId | backend/services/timeoff_service.py:37 | the rows left are exactly those whose id differs, ids still increasing |
| TimeOff.ParseRow | backend/services/timeoff_service.py:57-58 | a row's two dates parse or the call fails with the invalid-date error |
| TimeOff.ParseSpans | backend/services/timeoff_service.py:56-58 | the first row whose dates do not parse ends the call; otherwise one parsed span per row, in order |
| TimeOff.ParseSelected | backend/services/timeoff_service.py:46-58 | the window query then the parses: succeeds exactly when every selected row parses, with one span per selected row, in order |
| TimeOff.SelectedParse | backend/services/timeoff_service.py:53-58 | every selected row parses exactly when every entry of the selection does |
| TimeOff.LastCovering | backend/services/timeoff_service.py:56-63 | the last row in table order whose clipped range holds the date, or none when no row's does |
| TimeOff.MaxDate | backend/services/timeoff_service.py:59 | `max(s, start)`: one of the two, and at or before a date exactly when both are |
| TimeOff.MinDate | backend/services/timeoff_service.py:60 | `min(e, end)`: one of the two, and at or after a date exactly when both are |
| TimeOff.Spread | backend/services/timeoff_service.py:61-63 | the inner loop maps exactly the days from its first to its last date, each to the row |
| TimeOff.ExpandPrefix | backend/services/timeoff_service.py:55-63 | after the first n rows, a date is mapped exactly when one of them covers it, and to the last such row |
| TimeOff.ExpandSpans | backend/services/timeoff_service.py:55-65 | a date is mapped exactly when some row's clipped range holds it, and to the last such row, since later writes overwrite earlier ones |
| TimeOff.ExpandedRowsSelected | backend/services/timeoff_service.py:46-63 | every mapped date lies in the window and maps to a row the window query returned |
| TimeOff.ExpandWindow | backend/services/timeoff_service.py:40-65 | the expansion fails exactly when a selected row does not parse; every mapped date is in the window and maps to the last selected row covering it |
| TimeOff.ExpandTimeOffDays | backend/services/timeoff_service.py:40-65 | `expand_time_off_days` with the window's `isoformat` bounds: the same failure condition and the same last-covering-row map |
| TimeOff.CanonicalSelection | backend/services/timeoff_service.py:49 | for canonical texts, the text overlap filter is exactly date-range overlap |
| TimeOff.CanonicalExpand | backend/services/timeoff_service.py:40-65 | for canonically stored dates the expansion never fails, and a date is mapped exactly when some row's range and the window both hold it |
| TimeOff.MappedIsCovered | backend/services/timeoff_service.py:59-63 | every mapped date is covered, by dates, by the row it maps to |
| TimeOff.CoveredIsMapped | backend/services/timeoff_service.py:40-65 | in a canonical table, every date a row covers inside the window is mapped |
| TimeOff.NothingSelected | backend/services/timeoff_service.py:46-65 | a window no row is selected for maps nothing |
| TimeOff.RawTextMissesRange | backend/services/timeoff_service.py:12-14 | as written, "2024-3-1".."2024-3-5" is accepted and covers March 4, yet the expansion for March 4-8 maps nothing |
| TimeOff.CanonicalTextKeepsRange | backend/services/timeoff_service.py:40-65 | with the corrected insert, the same range maps March 4 and 5 in that window, and not March 6 |
| TimeOff.SingleRowMaps | backend/services/timeoff_service.py:56-63 | a table of one canonical row maps every window date that the row covers |
| TimeOff.GetTimeOff | backend/routers/timeoff_router.py:10-18 | a supplied bound that does not parse is the invalid-date error; otherwise the listing |
| TimeOff.CreateTimeOff | backend/routers/timeoff_router.py:20-31 | refused with the range check's error exactly when that check fails, leaving the table alone; otherwise the table gains exactly one row, holding the ISO spelling of the parsed dates, the next id, the kind and the caption, and the reply is the whole new table sorted by (start date, id); the route uses this corrected insert |
| TimeOff.RemoveTimeOff | backend/routers/timeoff_router.py:33-39 | the listing after a delete holds exactly the other rows, sorted |
| OffDays.OffFor | backend/services/week_service.py:72-89 | personal time off wins over a recurring holiday on the same date; there is no entry exactly when there is neither |
| OffDays.Parsable | backend/services/calendar_service.py:35-40 | the calendar's lookup keeps exactly the records whose month/day names a day of some year |
| OffDays.SkippedNeverMatch | backend/services/calendar_service.py:35-49 | for an actual date, skipping unparsable records changes nothing: the calendar finds the same holiday as the week |
| OffDays.OffMap | backend/services/week_service.py:67-91 | a window date has an off entry exactly when it is personal time off or a recurring holiday, and the entry is the one `OffFor` gives |
| OffDays.FetchDayRows | backend/services/week_service.py:27-51 | the fetched rows are exactly the stored ones whose key text lies between the window's texts |
| OffDays.FetchFindsStored | backend/services/week_service.py:101-105 | for a date inside the window, the fetched map has its row exactly when the table does |
| OffDays.SummaryAt | backend/services/week_service.py:105-106 | a stored row is summarised as usual; a missing row fails as written (after the targets are read) and reads as an empty row when corrected |
| OffDays.Collect | backend/services/week_service.py:101-119 | the loop's summaries in order, or the first failing day's error |
| OffDays.PoliciesAgreeOnStoredRows | backend/services/week_service.py:105-106 | where every date has a stored row, the code as written and the corrected code give the same summaries |
| OffDays.SummariesOfWindow | backend/services/week_service.py:94-119 | one summary per window date, each that of the date's stored row (or of an empty row, when corrected) |
| OffDays.Summaries | backend/services/week_service.py:101-119 | the loop succeeds exactly when every date's summary does; then it holds one summary per date in order, and otherwise its error is that of some date's summary |
| OffDays.SummariesOkIff | backend/services/week_service.py:101-119 | the summaries of the fetched rows exist exactly when every window date has a stored row that can be summarised, or, when corrected, no row and an empty day that can |
| OffDays.AssembleDays | backend/services/week_service.py:101-119 | one entry per date, in order, carrying its summary, its off entry, and `is_off` exactly when there is an entry |
| OffDays.FirstMissingFails | backend/services/week_service.py:105-106 | as written, a window whose first date has no stored row fails on that date |
| OffDays.EmptyRowsSummarise | backend/services/week_service.py:101-119 | with no stored rows and readable targets, the corrected loop summarises every date |
| Week.WeekBounds | backend/services/week_service.py:14-18 | fails exactly when the date does not parse; otherwise the Monday on or before it and the Friday four days later, both representable |
| Week.FridayPrintable | backend/services/week_service.py:17 | the Friday of a week of a representable date is representable, since 9999-12-31 is a Friday |
| Week.CeilDiv | backend/services/week_service.py:21-24 | the quotient rounded up for a positive divisor, the dividend itself otherwise |
| Week.CeilDivLeast | backend/services/week_service.py:21-24 | for a non-negative dividend the rounded-up quotient is the least q with q * b >= a |
| Week.CountWorking | backend/services/week_service.py:113-114 | the number of days without an off entry, at most the number of days |
| Week.CountRemaining | backend/services/week_service.py:128-134 | the days from today on without an off entry, never more than the working days |
| Week.SumNet | backend/services/week_service.py:116 | the week's net total is never negative when no day's net is, and is 0 when every day's net is 0 |
| Week.ReadTarget | backend/services/week_service.py:59-60 | a setting is read through `int()`; an unreadable one is the non-integer error |
| Week.Pace | backend/services/week_service.py:139-140 | no pace without remaining working days; otherwise the least whole minutes per day that cover the remainder |
| Week.ComputeWeekWith | backend/services/week_service.py:54-168 | a bad date and unreadable targets are refused; a view exists exactly when the date, both targets and the week's time off are readable and every weekday's row can be summarised; it spans Monday to Friday of the date's week, one entry per weekday; off entries come from time off then holidays; summaries come from the stored rows; working days, weekly targets, net sum, remainders and paces follow |
| Week.AssembleWeek | backend/services/week_service.py:96-168 | the view built from five summaries has the window, the targets, the off entries and the weekly figures above |
| Week.Totals | backend/services/week_service.py:121-140 | working days count the days without an off entry; the weekly targets are the daily ones times that count; the remainders are never negative; paces are rounded up |
| Week.ComputeWeek | backend/services/week_service.py:54-168 | corrected: every day summary is that of its stored row or of an empty row |
| Week.ComputeWeekAsWritten | backend/services/week_service.py:105-106 | as written, a week view only exists when every weekday has a stored row |
| Week.AsWrittenHasRows | backend/services/week_service.py:105-106 | summaries built as written exist only for dates with a stored row |
| Week.MissingMondayFailsAsWritten | backend/services/week_service.py:105-106 | as written, a week whose Monday has no stored row fails, even with good settings, date and time-off rows |
| Week.EmptyStoreWeekCorrected | backend/services/week_service.py:101-119 | corrected, a week without stored rows succeeds under the same conditions, with zero net minutes on every day and for the week |
| Week.EmptyStoreNetZero | backend/services/week_service.py:116 | summaries of empty rows add up to zero net minutes |
| Week.WeekDates | backend/services/week_service.py:101-119 | the loop visits five dates, Monday to Friday, in order, each on its weekday |
| Calendar.YearText | backend/services/calendar_service.py:11-12 | `f"{year:04d}"`: four or more digits for a non-negative year, a leading '-' for a negative one |
| Calendar.YearBounds | backend/services/calendar_service.py:10-13 | the bounds parse exactly for years 1..9999 and are that year's January 1 and December 31 |
| Calendar.YearBoundsParse | backend/services/calendar_service.py:11-12 | the two bound texts parse to the year's first and last day for years 1..9999; January 1 fails for every other year |
| Calendar.FourDigitYear | backend/services/calendar_service.py:11 | a year 0..9999 spells as four digits, so the bound texts read like any ISO date text |
| Calendar.LongYearRefused | backend/services/calendar_service.py:11 | a year past 9999 has a five-digit text that `parse_date` refuses |
| Calendar.NegativeYearRefused | backend/services/calendar_service.py:11 | a negative year's text is refused |
| Calendar.ComputeYearWith | backend/services/calendar_service.py:30-90 | years outside 1..9999 are refused; a calendar exists exactly when the year is in range, the year's time off is readable and every date's row can be summarised; it lists the year's dates in order with their off entries (time off before holidays) and the summaries of their stored rows |
| Calendar.AssembleYear | backend/services/calendar_service.py:72-90 | the entries built from the summaries have the year's shape and match the off map and the stored rows |
| Calendar.YearDatesWindow | backend/services/calendar_service.py:45-47 | every date the loop visits is representable and lies between the year's first and last day |
| Calendar.ComputeYearCalendar | backend/services/calendar_service.py:30-90 | corrected: one entry per day of the year, each with the summary of its stored row or of an empty row |
| Calendar.ComputeYearCalendarAsWritten | backend/services/calendar_service.py:76-77 | as written, a calendar only exists when every day of the year has a stored row |
| Calendar.CalendarListsEveryDate | backend/services/calendar_service.py:72-83 | a date appears in the calendar exactly when it is a valid date of that year, and the dates strictly increase, so each appears once |
| Calendar.MissingNewYearFailsAsWritten | backend/services/calendar_service.py:76-77 | as written, a year whose January 1 has no stored row fails, even with good settings and time-off rows |
| Calendar.YearFailsWithSummaries | backend/services/calendar_service.py:72-83 | once the bounds and time-off ranges are read, a failing day summary fails the whole year with its error |
| Calendar.EmptyStoreYearCorrected | backend/services/calendar_service.py:72-83 | corrected, a year without stored rows succeeds under the same conditions, every day at zero net minutes |
| Calendar.EmptyYearNetZero | backend/services/calendar_service.py:77 | summaries of empty rows have zero net minutes |
| Calendar.GetCalendarYear | backend/routers/calendar_router.py:10-18 | years outside 1900..2100 are refused before anything is read; a result has one entry per day of the year |
| FrontendTime.Pad2 | frontend/src/time.js:1-3 | at least two characters; a number with two or more characters is unchanged; 0..99 gives the zero-padded two digits |
| FrontendTime.JsRem | frontend/src/time.js:12 | JavaScript's `%`: the remainder takes the sign of the dividend |
| FrontendTime.SplitMinutes | frontend/src/time.js:11-12 | for a non-negative duration, whole hours and 0..59 minutes that add back up to it |
| FrontendTime.MinutesToHHMM | frontend/src/time.js:10-16 | "Mm" under an hour, "Hh" on the hour, "Hh Mm" otherwise, with h and m the hours and minutes of the value |
| FrontendTime.HHMMRoundTrip | frontend/src/time.js:10-16 | every non-negative duration's text reads back as that duration |
| FrontendTime.HHMMInjective | frontend/src/time.js:10-16 | two non-negative durations never print the same text |
| FrontendTime.ComputeNetMinutesLive | frontend/src/time.js:18-27 | never negative; 0 without a start; otherwise at most the whole minutes elapsed since the start |
| FrontendTime.LiveNetMonotoneInNow | frontend/src/time.js:22-26 | the live net never goes down as the clock moves on |
| FrontendTime.LiveNetAntitoneInBreak | frontend/src/time.js:26 | a longer break never gives a larger live net |
| FrontendTime.NullBreakIsZero | frontend/src/time.js:26 | a null break counts as a zero break |
| FrontendTime.LiveNetMatchesBackend | frontend/src/time.js:18-27 | for a running day the browser's live net equals the backend's net at the same moment (backend/services/day_service.py:40-45) |
| TrackerView.RoundDiv | frontend/src/components/TimeTrackerView.jsx:40 | `Math.round` of a quotient: the nearest integer, halves rounded up |
| TrackerView.Percent | frontend/src/components/TimeTrackerView.jsx:40-41 | 0 without a positive hard target; otherwise 0..100 for non-negative values, 100 from the hard target on, exactly `RoundDiv(100 * value, hard)` for 0 <= value <= hard, and whenever it is below the cap the rounded percentage of any value |
| TrackerView.PercentMonotone | frontend/src/components/TimeTrackerView.jsx:40 | more minutes never shorten the progress bar |
| TrackerView.SoftMarkerUncapped | frontend/src/components/TimeTrackerView.jsx:41 | with 0 <= soft <= hard, the soft marker is the rounded percentage, never capped |
| TrackerView.RoundDivMonotone | frontend/src/components/TimeTrackerView.jsx:40 | rounding keeps the order of the numerators |
| TrackerView.Status | frontend/src/components/TimeTrackerView.jsx:43-48 | over hard exactly when value > hard, over soft exactly when soft < value <= hard, else soft remaining; each amount is positive or non-negative and adds back to the targets |
| TrackerView.StatusAgreesWithBackend | frontend/src/components/TimeTrackerView.jsx:43-48 | the view's status line and the backend's status block (backend/services/day_service.py:47-69) classify alike and show the same amounts |
| TrackerView.StatusText | frontend/src/components/TimeTrackerView.jsx:43-48 | over the hard target: "Over HARD by" and the overrun; over only the soft target: "Over soft by", the overrun and the hard target's remainder; otherwise "Soft remaining" and that remainder, each as a duration |
| TrackerView.ButtonsDisabled | frontend/src/components/TimeTrackerView.jsx:188-215 | "Start now" is disabled exactly on a started day; "End now" exactly on an unstarted one; "Start break" is enabled exactly on a started, unended day with no break running; "End break" exactly while one runs |
| TrackerView.ButtonsExclusive | frontend/src/components/TimeTrackerView.jsx:188-215 | exactly one of "Start now" and "End now" is enabled, and never both break buttons |
| TrackerView.StartPart | frontend/src/components/TimeTrackerView.jsx:155 | "Start " followed by the start time when there is one, "Not started" otherwise |
| TrackerView.LabelParts | frontend/src/components/TimeTrackerView.jsx:153-157 | the label opens with "Not started" exactly without a start, and with "Start <time> • " with one; it ends in "End <time>" with an end, in "On break…" with no end and a running break, and in "Running…" with neither |
| TrackerView.DayLabel | frontend/src/components/TimeTrackerView.jsx:153-157 | the label is the start part, " • ", and the end part, in that order |
| TrackerView.EndPart | frontend/src/components/TimeTrackerView.jsx:156 | "End <time>" with an end; without one, "On break…" exactly when the break is running, and "Running…" otherwise |
| AppView.LiveNetAfterEffect | frontend/src/App.jsx:140-157 | the ticking effect leaves the counter alone without a start, copies the stored net for a finished day, and counts a non-negative live net while the day runs |
| AppView.NetToday | frontend/src/App.jsx:167 | 0 before the start, the stored net once ended, the live counter in between |
| AppView.FinishedDayIgnoresClock | frontend/src/App.jsx:142-147 | a finished day shows the stored net whatever the clock and the previous counter say |
| AppView.NetTodayMatchesBackend | frontend/src/App.jsx:140-167 | the figure the page shows for today equals the net the backend computes for the same moment, whether the day is unstarted, running or finished |
| AppView.DailyTargets | frontend/src/App.jsx:159-160 | each daily target is the day's value when the day and that field are present, and 0 otherwise |
| AppView.FirstOf | frontend/src/App.jsx:164-165 | `a ?? b ?? 0`: the first present value, else 0 |
| AppView.WeeklyTargets | frontend/src/App.jsx:164-165 | (0, 0) without a week; each weekly target is the new top-level field when present, else the older nested field, else 0 |
| AppView.WeekNet | frontend/src/App.jsx:168 | the week's net minutes when present, 0 without a week or without that field |
| AppView.TargetsFromBackend | frontend/src/App.jsx:159-168 | the daily targets, weekly targets and week net the page shows are the ones the backend computed |
| AppView.OlderWeekShapeFallsBack | frontend/src/App.jsx:162-165 | an answer with only the older `targets` block still gives the weekly targets, and one with neither gives 0 |
| AppView.NumberField | frontend/src/App.jsx:223 | `Number(text)` carries a value exactly when the text is a decimal integer, and that value; otherwise JSON sends null |
| AppView.Payload | frontend/src/App.jsx:218-225 | an empty time is sent as null, an empty break as 0; all three fields are always sent, never the notes |
| AppView.FormRoundTrip | frontend/src/App.jsx:130-132 | a form filled from a well-formed row passes the schema and time checks and writes exactly that row back |
| AppView.SaveWithoutEditsKeepsRow | frontend/src/App.jsx:218-232 | saving a freshly loaded form leaves the table exactly as it was |
| AppView.UnreadableBreakRefused | frontend/src/App.jsx:223 | a break the number field cannot read reaches the backend as null, and the save fails without changing the row beyond creating it |
| HolidaysPanel.JsYear | frontend/src/components/HolidaysPanel.jsx:6 | `new Date(year, month, 1)` reads years 0..99 as 1900..1999 and keeps every other year |
| HolidaysPanel.NextDay | frontend/src/components/HolidaysPanel.jsx:9 | the next calendar day: one ordinal later, the next day of the month, or the 1st of another month at a month's end |
| HolidaysPanel.GetDaysInYear | frontend/src/components/HolidaysPanel.jsx:3-13 | the list is every date of the year, in order, each once |
| HolidaysPanel.AppendMonth | frontend/src/components/HolidaysPanel.jsx:7-10 | the inner loop appends exactly the month's days, keeping the list a prefix of the year's dates |
| HolidaysPanel.MonthOfPosition | frontend/src/components/HolidaysPanel.jsx:5-11 | the year's dates before a month's block lie in earlier months, those after it in later ones |
| HolidaysPanel.MonthSlice | frontend/src/components/HolidaysPanel.jsx:36 | the filter for a month gives exactly that month's dates, from the 1st on, in order |
| HolidaysPanel.InMonth | frontend/src/components/HolidaysPanel.jsx:36 | the filtered dates all lie in the month and are no more than the input |
| HolidaysPanel.JsDay | frontend/src/components/HolidaysPanel.jsx:54 | `getDay()` is 0..6 and 0 exactly on Sundays |
| HolidaysPanel.LeadingBlanks | frontend/src/components/HolidaysPanel.jsx:54-56 | 0..6 empty cells before the 1st |
| HolidaysPanel.GridColumns | frontend/src/components/HolidaysPanel.jsx:44-72 | after the blanks, every day of the month lands in its own weekday's column under "Sun".."Sat" |
| HolidaysPanel.CellClass | frontend/src/components/HolidaysPanel.jsx:58-67 | "both" exactly when the date is in both lists, "holiday" or "personal" exactly when in only that one, no class otherwise |
| HolidaysPanel.CellFor | frontend/src/components/HolidaysPanel.jsx:58-67 | the class of a date's cell is "day both", "day holiday", "day personal" or "day " exactly by whether its ISO text is in both lists, only the holidays, only the personal days, or neither |
| HolidaysPanel.CellTextsDistinct | frontend/src/components/HolidaysPanel.jsx:59-61 | two dates with the same cell text are the same date, so a listed date never colours another |

## Left out

- SQLite and HTTP plumbing is not modelled: connections, SQL text, commits, cursors, FastAPI routing and `HTTPException` objects. Tables are immutable values, and an HTTP error is a `Result` error.
- `backend/routers/week_router.py` is not modelled. It only opens a connection and calls the modelled `compute_week`.
- `backend/routers/recurring_holiday_router.py` is not modelled. Besides the missing request body, its `upsert` route calls `upsert_recurring` with one argument too many (`backend/routers/recurring_holiday_router.py:17`), so it would raise a `TypeError`.
- `backend/main.py`, `backend/middleware.py`, `backend/frontend_hosting.py`, `frontend/src/api.js` and `frontend/src/components/Header.jsx` are not modelled: application wiring, logging, static files and `fetch`.
- Clock reads are not modelled: `datetime.now()`, `date.today()`, `new Date()` and `todayISO` become the parameters `now`, `today` and `nowMs`. `now_hhmm` is modelled as the text of a given time of day.
- React state, effects and the one-second `setInterval` tick (`frontend/src/App.jsx:140-157`) are not modelled. `AppView.LiveNetAfterEffect` models the value one run of the effect stores.
- The `loadAll` requests are not modelled, and neither are JSX markup and styling, or the month titles produced by `toLocaleString`.
- TrackerView.Percent: `Math.round` of a floating-point quotient is modelled as exact rational rounding, half up. Floating-point error in the division is not modelled.
- HolidaysPanel.GetDaysInYear: `toISOString()` gives the UTC date of a local midnight. The model uses the local calendar date, as a browser at UTC or west of it sees it.
- HolidaysPanel.GetDaysInYear requires a year of at least 1. JavaScript `Date` years below 1 are not modelled.
- AppView.NumberField: `Number()` is modelled on optional-sign decimal integers. Other numeric spellings (fractions, exponents, hex, surrounding spaces) are read as NaN.
- FrontendTime.ComputeNetMinutesLive requires a start that is valid "HH:MM" text, which is all the backend stores. Other text is not modelled; on it, JavaScript's `split` and `Number` can give NaN.
- The `break_running` field read by `TimeTrackerView.jsx:156` and `:204-211` is never sent by the backend. It is modelled as an input.
- Week.ComputeWeekWith does not model the `OverflowError` that `d += timedelta(days=1)` raises after 9999-12-31, in its own walk (`backend/services/week_service.py:119`) or in the time-off expansion (`backend/services/timeoff_service.py:61-63`) of a range that reaches that date. Its walks have the same dates, and only the final step would overflow.
- Calendar.ComputeYearWith does not model that `OverflowError` either, in its walk or in the time-off expansion. For year 9999 the walks stop at December 31 in the model.
- TimeUtils.ParseDate: Python's `strptime` and `int()` also accept non-ASCII Unicode decimal digits (Arabic-Indic "٢٠٢٤-03-04", say) in `%Y`, `%m` and `%d`. The model accepts ASCII digits only and refuses such text.
- TimeUtils.ParseHHMM: the same holds for `%H` and `%M`. Clock text with non-ASCII decimal digits is refused by the model.
- Digits.ParseInt models `int()` on text: an optional sign and ASCII digits. Python's `int()` also accepts surrounding whitespace (" 360 "), underscores between digits ("3_60") and non-ASCII decimal digits. The model refuses these spellings, so a setting stored that way reads as not an integer here.
- DayRouter.EndAt and DayRouter.EndAtAsWritten read the statements at `backend/routers/day_router.py:92` and `:95` as if they named the table `work_day`. As written they misspell it (`work)daty`, and `work_dayWHERE` without a space), so SQLite would reject the UPDATE with an `OperationalError` (a 500) once the guard and the order check pass.
- DayRouter.ClearEnd models the handler at `backend/routers/day_router.py:101-114` as if its route were `/{day_str}/clear-end`. As written the path reads `{day-str}`. Starlette makes path parameters only of identifier names, so the segment is the literal text `{day-str}` and `day_str` becomes a required query parameter. `POST /api/day/<date>/clear-end` then matches no route and the handler is not reached at that URL.
- DayRouter.BreakSubtract reads the UPDATE at `backend/routers/day_router.py:141` the same way. As written it names `work)day`, so every break subtraction with a valid body and date would fail with a 500 after the row is created.
- Calendar.GetCalendarYear states only that an out-of-range year is refused and what length a successful result has. Which in-range years succeed is stated by `Calendar.ComputeYearCalendar`.
- Calendar.GetCalendarYear models a route that `backend/main.py` never registers: the calendar router is neither imported nor passed to `include_router`, so as written the application does not serve it.
- SettingsRouter.PatchSettingsAsWritten: the returned `api_get_settings` function object is modelled as an empty `()` reply. What FastAPI makes of it is not modelled.
- `backend/routers/recurring_holiday_router.py:29` returns a Python set. That router is not modelled. Its missing `RecurringHolidayCreate` body stops the whole application at import, as described above.
- TimeOff.CreateTimeOff assumes the body that `backend/routers/timeoff_router.py:21-28` reads: `start_date` and `end_date` as text, a `kind` text and an optional `label` (the row's caption), with no schema bounds. `TimeoffCreate` is not defined in `backend/schemas.py`, so as written the application stops with an `ImportError` and no time-off route is reachable. Whatever validation the missing class would add is not modelled.
- OffDays.WeekHoliday and OffDays.CalendarHoliday take the first row with a date's (month, day) key, while the dict at `backend/services/week_service.py:64` keeps the last. The two agree because the table's `UNIQUE(month, day)` (`backend/db.py:44`) allows one row per key, which `Recurring.ValidRecurring` states and `Recurring.LookupUnique` turns into "the keyed row is the one found". The week and the calendar do not require that invariant, so on a table with duplicate keys, which SQLite refuses, the model would pick the first.
- The calendar service's `date`-keyed recurring records are modelled on the (month, day) key, as described above. A stored text that is not a valid month-day is the skipped case.
- `HolidaysPanel.jsx` is given `holidays` and `personalDays` as lists of date texts. `App.jsx` passes it different props, and that wiring is not modelled.

## Findings

| source | as written | input that shows it | evidently intended | confidence | as-written member | corrected member |
|---|---|---|---|---|---|---|
| backend/routers/day_router.py:81 | `end_at` refuses a day whose `end_time` is empty, yet its message speaks of a missing start | a day started at 09:00 and still running, ended at 17:00 | refuse only a day without `start_time`, then store the end | high, not executed | DayRouter.EndAtAsWritten, DayRouter.EndAtRefusesRunningDay | DayRouter.EndAt, DayRouter.EndAtEndsRunningDay |
| backend/routers/settings_router.py:45-49 | the PATCH upserts without `con.commit()`, closes the connection (which rolls the write back) and returns the function `api_get_settings` | PATCH `{"daily_soft_minutes": 300}` on the default settings | commit the update and return the refreshed settings view | high, not executed | SettingsRouter.PatchSettingsAsWritten, SettingsRouter.PatchSettingsIsLost | SettingsRouter.PatchSettings |
| backend/services/week_service.py:105-106 | `row_map.get(ds)` is `None` for a date without a stored row, and `compute_day_summary` subscripts it | a week view of a week whose Monday was never opened | summarise a missing row as an empty day (no start, no end, break 0) | high, not executed | Week.ComputeWeekAsWritten, Week.MissingMondayFailsAsWritten | Week.ComputeWeek, Week.EmptyStoreWeekCorrected |
| backend/services/calendar_service.py:76-77 | the same `None` row reaches `compute_day_summary` for every date of the year without a stored row | the calendar of a year whose January 1 has no row | summarise a missing row as an empty day | high, not executed | Calendar.ComputeYearCalendarAsWritten, Calendar.MissingNewYearFailsAsWritten | Calendar.ComputeYearCalendar, Calendar.EmptyStoreYearCorrected |
| backend/services/timeoff_service.py:12-14 | `add_time_off` stores the client's date text, and the list and expand queries compare that text with ISO bounds | a range "2024-3-1".."2024-3-5" (accepted by `parse_date`) and the window 2024-03-04..2024-03-08 | store the ISO spelling of the parsed dates so that text order is date order | medium, not executed | TimeOff.AddTimeOffAsWritten, TimeOff.RawTextMissesRange | TimeOff.AddTimeOff, TimeOff.CanonicalTextKeepsRange |

=== FILE: app_view.dfy ===
/** frontend/src/App.jsx: what the page derives from the backend's answers (today's net
    minutes, the daily and weekly targets) and the body `saveManual` sends back. */
module AppView {
  import opened Wrappers
  import opened Digits
  import opened Dates
  import opened TimeUtils
  import opened Settings
  import opened Schemas
  import opened DayService
  import opened DayRouter
  import opened Week
  import opened FrontendTime
  import opened TrackerView

  /** The JSON of a day summary as the page reads it: the backend sends the targets under
      `targets` and never sends `break_running`. */
  function DayJsonOf(s: DaySummary): DayJson {
    DayJson(s.start, s.end, Some(s.breakMinutes), None, Some(s.net), Some(s.soft), Some(s.hard))
  }

  /** The live counter after the ticking effect ran at `nowMs` (milliseconds since local
      midnight): untouched without a start, the stored net for a finished day, and the
      browser's own count while the day runs. */
  function LiveNetAfterEffect(day: Option<DayJson>, prev: int, nowMs: int): (live: int)
    requires Started(day) && !Ended(day) ==> ParseHHMM(day.value.startTime.value).Ok?
    ensures !Started(day) ==> live == prev
    ensures Started(day) && Ended(day) ==> live == day.value.netMinutes.GetOr(0)
    ensures Started(day) && !Ended(day) ==> live >= 0
  {
    if !Started(day) then prev
    else if Ended(day) then day.value.netMinutes.GetOr(0)
    else ComputeNetMinutesLive(day.value.startTime, day.value.breakMinutes, nowMs)
  }

  /** `netToday`: 0 before the start, the stored net once ended, the live counter between. */
  function NetToday(day: Option<DayJson>, liveNet: int): (n: int)
    ensures !Started(day) ==> n == 0
    ensures Started(day) && Ended(day) ==> n == day.value.netMinutes.GetOr(0)
    ensures Started(day) && !Ended(day) ==> n == liveNet
  {
    if !Started(day) then 0
    else if Ended(day) then day.value.netMinutes.GetOr(0)
    else liveNet
  }

  /** A finished day shows the same figure whatever the clock says. */
  lemma FinishedDayIgnoresClock(day: Option<DayJson>, prev1: int, prev2: int, ms1: int, ms2: int)
    requires Started(day) && Ended(day)
    ensures NetToday(day, LiveNetAfterEffect(day, prev1, ms1)) == NetToday(day, LiveNetAfterEffect(day, prev2, ms2))
    ensures NetToday(day, LiveNetAfterEffect(day, prev1, ms1)) == day.value.netMinutes.GetOr(0)
  {
  }

  /** What the page shows for today is the net the backend computes for the same moment:
      second `s` (and `ms` milliseconds) of the day, whether the day is not started,
      running or finished. */
  lemma NetTodayMatchesBackend(stored: SettingsStore, day: Date, row: DayRecord, sum: DaySummary, prev: int, s: int, ms: int)
    requires ValidDate(day) && day.year <= 9999
    requires row.start.Some? ==> ParseHHMM(row.start.value).Ok?
    requires 0 <= s < 86400 && 0 <= ms < 1000
    requires ComputeDaySummary(stored, Iso(day), row, InstantOf(day, s)) == Ok(sum)
    ensures var j := Some(DayJsonOf(sum));
      NetToday(j, LiveNetAfterEffect(j, prev, 1000 * s + ms)) == sum.net
  {
    if Present(row.start) && !Present(row.end) {
      LiveNetMatchesBackend(stored, day, row, s, ms);
    }
  }

  /** `day?.targets?.daily_soft ?? 0` and the hard one: the day's targets, 0 when absent. */
  function DailyTargets(day: Option<DayJson>): (t: (int, int))
    ensures day.None? ==> t == (0, 0)
    ensures day.Some? && day.value.dailySoft.Some? ==> t.0 == day.value.dailySoft.value
    ensures day.Some? && day.value.dailySoft.None? ==> t.0 == 0
    ensures day.Some? && day.value.dailyHard.Some? ==> t.1 == day.value.dailyHard.value
    ensures day.Some? && day.value.dailyHard.None? ==> t.1 == 0
  {
    if day.None? then (0, 0) else (day.value.dailySoft.GetOr(0), day.value.dailyHard.GetOr(0))
  }

  /** The fields of the `week` object the page reads; the top-level weekly targets are the
      newer spelling, those under `targets` the older one. */
  datatype WeekJson = WeekJson(
    weeklySoft: Option<int>, weeklyHard: Option<int>,
    targetsWeeklySoft: Option<int>, targetsWeeklyHard: Option<int>, weekNetMinutes: Option<int>)

  /** `a ?? b ?? 0`. */
  function FirstOf(a: Option<int>, b: Option<int>): (v: int)
    ensures a.Some? ==> v == a.value
    ensures a.None? && b.Some? ==> v == b.value
    ensures a.None? && b.None? ==> v == 0
  {
    a.GetOr(b.GetOr(0))
  }

  /** `weeklySoft` and `weeklyHard`: the newer field, else the older one, else 0. */
  function WeeklyTargets(week: Option<WeekJson>): (t: (int, int))
    ensures week.None? ==> t == (0, 0)
    ensures week.Some? && week.value.weeklySoft.Some? ==> t.0 == week.value.weeklySoft.value
    ensures week.Some? && week.value.weeklySoft.None? ==> t.0 == week.value.targetsWeeklySoft.GetOr(0)
    ensures week.Some? && week.value.weeklyHard.Some? ==> t.1 == week.value.weeklyHard.value
    ensures week.Some? && week.value.weeklyHard.None? ==> t.1 == week.value.targetsWeeklyHard.GetOr(0)
  {
    if week.None? then (0, 0)
    else (FirstOf(week.value.weeklySoft, week.value.targetsWeeklySoft),
          FirstOf(week.value.weeklyHard, week.value.targetsWeeklyHard))
  }

  /** `weekNet`: the week's `week_net_minutes`, 0 when absent. */
  function WeekNet(week: Option<WeekJson>): (n: int)
    ensures week.Some? && week.value.weekNetMinutes.Some? ==> n == week.value.weekNetMinutes.value
    ensures week.None? || week.value.weekNetMinutes.None? ==> n == 0
  {
    if week.None? then 0 else week.value.weekNetMinutes.GetOr(0)
  }

  /** The JSON of a week view: both spellings of the weekly targets carry the same values. */
  function WeekJsonOf(w: WeekView): WeekJson {
    WeekJson(Some(w.weeklySoft), Some(w.weeklyHard), Some(w.weeklySoft), Some(w.weeklyHard), Some(w.weekNet))
  }

  /** The targets and totals the page shows are the ones the backend computed: the day's
      targets from the day summary, the weekly ones and the week's net from the week view. */
  lemma TargetsFromBackend(sum: DaySummary, w: WeekView)
    ensures DailyTargets(Some(DayJsonOf(sum))) == (sum.soft, sum.hard)
    ensures WeeklyTargets(Some(WeekJsonOf(w))) == (w.weeklySoft, w.weeklyHard)
    ensures WeekNet(Some(WeekJsonOf(w))) == w.weekNet
  {
  }

  /** An answer with only the older `targets` block still gives the weekly targets; one
      without either gives 0. */
  lemma OlderWeekShapeFallsBack(w: WeekJson)
    ensures w.weeklySoft.None? && w.targetsWeeklySoft.Some? ==> WeeklyTargets(Some(w)).0 == w.targetsWeeklySoft.value
    ensures w.weeklyHard.None? && w.targetsWeeklyHard.Some? ==> WeeklyTargets(Some(w)).1 == w.targetsWeeklyHard.value
    ensures w.weeklySoft.None? && w.targetsWeeklySoft.None? ==> WeeklyTargets(Some(w)).0 == 0
    ensures w.weeklyHard.None? && w.targetsWeeklyHard.None? ==> WeeklyTargets(Some(w)).1 == 0
  {
  }

  /** The three inputs of the manual-edit form, as text. */
  datatype Edits = Edits(start: string, end: string, brk: string)

  /** What `loadAll` puts into the form from a day's JSON. */
  function EditsOf(day: DayJson): Edits {
    Edits(day.startTime.GetOr(""), day.endTime.GetOr(""), IntToString(day.breakMinutes.GetOr(0)))
  }

  /** `Number(text)` for the texts a number field holds, as JSON will carry it: a signed
      decimal integer is that number; anything else is NaN, which JSON writes as null. */
  function NumberField(text: string): (f: Field<int>)
    ensures f.Value? <==> ParseInt(text).Some?
    ensures f.Value? ==> f.v == ParseInt(text).value
    ensures !f.Unset?
  {
    match ParseInt(text)
    case Some(n) => Value(n)
    case None => Null
  }

  /** The `saveManual` body: an empty time is null, an empty break is 0; the three fields
      are always sent and the notes never are. */
  function Payload(e: Edits): (p: DayPatch)
    ensures p.start == (if e.start == "" then Null else Value(e.start))
    ensures p.end == (if e.end == "" then Null else Value(e.end))
    ensures e.brk == "" ==> p.breakMinutes == Value(0)
    ensures e.brk != "" ==> p.breakMinutes == NumberField(e.brk)
    ensures p.notes.Unset? && !EmptyPatch(p)
  {
    DayPatch(if e.start == "" then Null else Value(e.start),
             if e.end == "" then Null else Value(e.end),
             if e.brk == "" then Value(0) else NumberField(e.brk),
             Unset)
  }

  /** Pressing "Save" on a freshly loaded form writes the row back unchanged: every stored
      time and break survives the trip through the form and the PATCH handler. */
  lemma SaveWithoutEditsKeepsRow(settings: SettingsStore, store: DayStore, day: string, row: DayRecord, sum: DaySummary, now0: int, now: int)
    requires day in store && store[day] == row && WellFormedRow(row) && row.breakMinutes <= MinutesPerDay
    requires ComputeDaySummary(settings, day, row, now0) == Ok(sum)
    ensures PatchDay(settings, store, day, Payload(EditsOf(DayJsonOf(sum))), now).store == store
  {
    var p := Payload(EditsOf(DayJsonOf(sum)));
    FormRoundTrip(row, sum);
    var o := PatchDay(settings, store, day, p, now);
    assert GetOrCreateDay(store, day) == (store, row);
    UnchangedRowKeepsStore(store, o.store, day);
  }

  /** The form filled from a well-formed row gives a body that passes the schema and the
      time checks and writes exactly that row back. */
  lemma FormRoundTrip(row: DayRecord, sum: DaySummary)
    requires WellFormedRow(row) && row.breakMinutes <= MinutesPerDay
    requires sum.start == row.start && sum.end == row.end && sum.breakMinutes == row.breakMinutes
    ensures var p := Payload(EditsOf(DayJsonOf(sum)));
      && CheckDayPatch(p).Ok? && TimesValid(NormaliseTimes(p)) && !p.breakMinutes.Null?
      && ApplyPatch(row, NormaliseTimes(p)) == Ok(row)
  {
    var e := EditsOf(DayJsonOf(sum));
    var p := Payload(e);
    IntRoundTrip(row.breakMinutes);
    assert p.breakMinutes == Value(row.breakMinutes);
    var q := NormaliseTimes(p);
    assert Assign(q.start, row.start) == row.start;
    assert Assign(q.end, row.end) == row.end;
  }

  /** A handler that touched only `key` and left that row as it was left the table as it was. */
  lemma UnchangedRowKeepsStore(before: DayStore, after: DayStore, key: string)
    requires key in before && OnlyRowChanged(before, after, key) && after[key] == before[key]
    ensures after == before
  {
    assert after.Keys == before.Keys;
  }

  /** A break the number field cannot read reaches the backend as null, and once the date
      and the times pass, the save fails without touching the row beyond creating it. */
  lemma UnreadableBreakRefused(settings: SettingsStore, store: DayStore, day: string, e: Edits, now: int)
    requires e.brk != "" && ParseInt(e.brk).None?
    requires ParseDate(day).Ok? && TimesValid(NormaliseTimes(Payload(e)))
    ensures PatchDay(settings, store, day, Payload(e), now) == Outcome(GetOrCreateDay(store, day).0, Err(NullBreakMinutes))
  {
  }
}

=== FILE: calendar.dfy ===
/** backend/services/calendar_service.py and backend/routers/calendar_router.py: the
    bounds of a year, and the year calendar (every date of the year with its summary
    and off entry). */
module Calendar {
  import opened Wrappers
  import opened Digits
  import opened Dates
  import opened TimeUtils
  import opened Settings
  import opened DayService
  import opened TimeOff
  import opened Recurring
  import opened OffDays

  /** `f"{year:04d}"`: the decimal year zero-padded to four characters, the sign counted
      in the width. */
  function YearText(year: int): (s: string)
    ensures year >= 0 ==> AllDigits(s) && |s| >= 4
    ensures year < 0 ==> |s| >= 1 && s[0] == '-'
  {
    if year < 0 then "-" + PadStart(NatToDecimal(-year), 3, '0') else PadStart(NatToDecimal(year), 4, '0')
  }

  /** `_year_bounds`: `parse_date` of the year's January 1 and December 31 texts. */
  function YearBounds(year: int): (r: Result<(Date, Date)>)
    ensures r.Ok? <==> 1 <= year <= 9999
    ensures r.Err? ==> r.error == InvalidDate
    ensures r.Ok? ==> r.value == (Date(year, 1, 1), Date(year, 12, 31))
  {
    YearBoundsParse(year);
    match (ParseDate(YearText(year) + "-01-01"), ParseDate(YearText(year) + "-12-31"))
    case (Ok(start), Ok(end)) => Ok((start, end))
    case (Err(e), _) => Err(e)
    case (_, Err(e)) => Err(e)
  }

  /** The year's two texts parse exactly when the year is 1..9999. */
  lemma YearBoundsParse(year: int)
    ensures 1 <= year <= 9999 ==>
      && ParseDate(YearText(year) + "-01-01") == Ok(Date(year, 1, 1))
      && ParseDate(YearText(year) + "-12-31") == Ok(Date(year, 12, 31))
    ensures !(1 <= year <= 9999) ==> ParseDate(YearText(year) + "-01-01").Err?
  {
    if 0 <= year <= 9999 {
      NewYearText(year);
      NewYearsEveText(year);
    } else if year > 9999 {
      LongYearRefused(year);
    } else {
      NegativeYearRefused(year);
    }
  }

  lemma NewYearText(year: int)
    requires 0 <= year <= 9999
    ensures ParseDate(YearText(year) + "-01-01") == if year >= 1 then Ok(Date(year, 1, 1)) else Err(InvalidDate)
  {
    assert FixedWidth(1, 2) == "01";
    assert YearText(year) + "-01-01" == YearText(year) + "-" + FixedWidth(1, 2) + "-" + FixedWidth(1, 2);
    FourDigitYear(year, 1, 1);
  }

  lemma NewYearsEveText(year: int)
    requires 0 <= year <= 9999
    ensures ParseDate(YearText(year) + "-12-31") == if year >= 1 then Ok(Date(year, 12, 31)) else Err(InvalidDate)
  {
    assert FixedWidth(12, 2) == "12" && FixedWidth(31, 2) == "31";
    assert YearText(year) + "-12-31" == YearText(year) + "-" + FixedWidth(12, 2) + "-" + FixedWidth(31, 2);
    FourDigitYear(year, 12, 31);
  }

  /** A year 0..9999 spells as four digits, and the bound texts are the ISO texts. */
  lemma FourDigitYear(year: int, m: nat, d: nat)
    requires 0 <= year <= 9999 && m < 100 && d < 100
    ensures ParseDate(YearText(year) + "-" + FixedWidth(m, 2) + "-" + FixedWidth(d, 2))
         == if ValidDate(Date(year, m, d)) then Ok(Date(year, m, d)) else Err(InvalidDate)
  {
    PadStartIsFixedWidth(year, 4);
    assert YearText(year) + "-" + FixedWidth(m, 2) + "-" + FixedWidth(d, 2) == IsoText(year, m, d);
    ParseIsoText(year, m, d);
  }

  lemma LongYearRefused(year: int)
    requires year > 9999
    ensures ParseDate(YearText(year) + "-01-01").Err?
  {
    NatToDecimalLength(year, 4);
    var t := YearText(year) + "-01-01";
    assert t[4] == NatToDecimal(year)[4];
  }

  lemma NegativeYearRefused(year: int)
    requires year < 0
    ensures ParseDate(YearText(year) + "-01-01").Err?
  {
    var t := YearText(year) + "-01-01";
    assert t[0] == '-' && !IsDigit(t[0]);
    assert !AllDigits(t[..4]) by {
      assert t[..4][0] == t[0];
    }
  }

  /** What `compute_year_calendar` returns. */
  datatype YearView = YearView(year: int, startDate: Date, endDate: Date, days: seq<DayEntry>)

  /** The calendar lists the dates of `year` in order, one entry each. */
  predicate YearShape(year: int, v: YearView)
    requires 1 <= year <= 9999
  {
    && v.year == year && v.startDate == Date(year, 1, 1) && v.endDate == Date(year, 12, 31)
    && |v.days| == DaysInYear(year)
    && forall i :: 0 <= i < |v.days| ==> v.days[i].date == YearDates(year)[i]
  }

  /** Every entry carries its day-off marker and the summary of its stored (or empty) row. */
  predicate YearEntriesMatch(policy: RowPolicy, stored: SettingsStore, store: DayStore, rec: RecurringTable,
                             timeoff: TimeOffTable, year: int, now: int, v: YearView)
    requires 1 <= year <= 9999
  {
    && ExpandTimeOffDays(timeoff, Date(year, 1, 1), Date(year, 12, 31)).Ok?
    && forall i :: 0 <= i < |v.days| ==>
      var d := v.days[i].date;
      && Printable(d)
      && v.days[i].off == OffFor(ExpandTimeOffDays(timeoff, Date(year, 1, 1), Date(year, 12, 31)).value,
                                 CalendarHoliday(rec.rows, d), d)
      && v.days[i].isOff == v.days[i].off.Some?
      && StoredOrEmpty(policy, stored, store, d, v.days[i].summary, now)
  }

  /** `compute_year_calendar`, with the treatment of dates without a stored row as a parameter. */
  function ComputeYearWith(policy: RowPolicy, stored: SettingsStore, store: DayStore, rec: RecurringTable,
                           timeoff: TimeOffTable, year: int, now: int): (r: Result<YearView>)
    ensures !(1 <= year <= 9999) ==> r == Err(InvalidDate)
    ensures r.Ok? ==> 1 <= year <= 9999 && GetTargets(stored).Ok?
    ensures r.Ok? <==>
      && 1 <= year <= 9999
      && ExpandTimeOffDays(timeoff, Date(year, 1, 1), Date(year, 12, 31)).Ok?
      && (YearDatesWindow(year); WindowSummarises(policy, stored, store, YearDates(year), now))
    ensures r.Ok? ==> YearShape(year, r.value) && YearEntriesMatch(policy, stored, store, rec, timeoff, year, now, r.value)
  {
    match YearBounds(year)
    case Err(e) => Err(e)
    case Ok((start, end)) =>
      match ExpandTimeOffDays(timeoff, start, end)
      case Err(e) => Err(e)
      case Ok(_) => YearFromRows(policy, stored, store, rec, timeoff, year, now)
  }

  /** The summary loop and assembly of `compute_year_calendar`, once the year and its
      time off have been read. */
  function YearFromRows(policy: RowPolicy, stored: SettingsStore, store: DayStore, rec: RecurringTable,
                        timeoff: TimeOffTable, year: int, now: int): (r: Result<YearView>)
    requires 1 <= year <= 9999
    requires ExpandTimeOffDays(timeoff, Date(year, 1, 1), Date(year, 12, 31)).Ok?
    ensures r.Ok? ==> GetTargets(stored).Ok?
    ensures r.Ok? <==> (YearDatesWindow(year); WindowSummarises(policy, stored, store, YearDates(year), now))
    ensures r.Ok? ==> YearShape(year, r.value) && YearEntriesMatch(policy, stored, store, rec, timeoff, year, now, r.value)
  {
    var (start, end) := (Date(year, 1, 1), Date(year, 12, 31));
    var dates := YearDates(year);
    YearDatesWindow(year);
    SummariesOkIff(policy, stored, store, start, end, dates, now);
    match Summaries(policy, stored, FetchDayRows(store, start, end), dates, now)
    case Err(e) => Err(e)
    case Ok(summaries) =>
      SummariesOfWindow(policy, stored, store, start, end, dates, summaries, now);
      Ok(AssembleYear(policy, stored, store, rec, timeoff, year, summaries, now))
  }

  /** The calendar of `year` from the summaries of its dates. */
  function AssembleYear(policy: RowPolicy, stored: SettingsStore, store: DayStore, rec: RecurringTable,
                        timeoff: TimeOffTable, year: int, summaries: seq<DaySummary>, now: int): (v: YearView)
    requires 1 <= year <= 9999
    requires ExpandTimeOffDays(timeoff, Date(year, 1, 1), Date(year, 12, 31)).Ok?
    requires |summaries| == |YearDates(year)|
    requires forall i :: 0 <= i < |YearDates(year)| ==>
      Printable(YearDates(year)[i]) && StoredOrEmpty(policy, stored, store, YearDates(year)[i], summaries[i], now)
    ensures YearShape(year, v) && YearEntriesMatch(policy, stored, store, rec, timeoff, year, now, v)
  {
    var personal := ExpandTimeOffDays(timeoff, Date(year, 1, 1), Date(year, 12, 31)).value;
    var days := AssembleDays(policy, stored, store, YearDates(year), summaries, personal, d => CalendarHoliday(rec.rows, d), now);
    YearView(year, Date(year, 1, 1), Date(year, 12, 31), days)
  }

  /** Every date of a representable year is representable and lies between its first and
      last day. */
  lemma YearDatesWindow(year: int)
    requires 1 <= year <= 9999
    ensures forall i :: 0 <= i < |YearDates(year)| ==>
      var d := YearDates(year)[i];
      Printable(d) && AtOrBefore(Date(year, 1, 1), d) && AtOrBefore(d, Date(year, 12, 31))
  {
    forall i | 0 <= i < |YearDates(year)|
      ensures Printable(YearDates(year)[i])
      ensures AtOrBefore(Date(year, 1, 1), YearDates(year)[i]) && AtOrBefore(YearDates(year)[i], Date(year, 12, 31))
    {
      YearDatesMembers(year, YearDates(year)[i]);
    }
  }

  /** `compute_year_calendar` corrected: a date without a stored row reads as an empty day. */
  function ComputeYearCalendar(stored: SettingsStore, store: DayStore, rec: RecurringTable, timeoff: TimeOffTable,
                               year: int, now: int): (r: Result<YearView>)
    ensures r.Ok? ==> forall i :: 0 <= i < |r.value.days| ==>
      Printable(r.value.days[i].date)
      && StoredOrEmpty(MissingIsEmpty, stored, store, r.value.days[i].date, r.value.days[i].summary, now)
    ensures r.Ok? ==> |r.value.days| == DaysInYear(year)
  {
    ComputeYearWith(MissingIsEmpty, stored, store, rec, timeoff, year, now)
  }

  /** `compute_year_calendar` as written: a date without a stored row gets a `None` row. */
  function ComputeYearCalendarAsWritten(stored: SettingsStore, store: DayStore, rec: RecurringTable,
                                        timeoff: TimeOffTable, year: int, now: int): (r: Result<YearView>)
    ensures r.Ok? ==> forall i :: 0 <= i < |r.value.days| ==>
      Printable(r.value.days[i].date) && Iso(r.value.days[i].date) in store
  {
    ComputeYearWith(AsWritten, stored, store, rec, timeoff, year, now)
  }

  /** Every date of the year appears in the calendar, exactly once, in increasing order. */
  lemma CalendarListsEveryDate(r: Result<YearView>, policy: RowPolicy, stored: SettingsStore, store: DayStore,
                               rec: RecurringTable, timeoff: TimeOffTable, year: int, now: int, d: Date)
    requires r == ComputeYearWith(policy, stored, store, rec, timeoff, year, now) && r.Ok?
    ensures (exists i :: 0 <= i < |r.value.days| && r.value.days[i].date == d) <==> ValidDate(d) && d.year == year
    ensures forall i, j :: 0 <= i < j < |r.value.days| ==> Before(r.value.days[i].date, r.value.days[j].date)
  {
    var days := r.value.days;
    YearDatesMembers(year, d);
    if ValidDate(d) && d.year == year {
      var k :| 0 <= k < |YearDates(year)| && YearDates(year)[k] == d;
      assert days[k].date == d;
    }
    forall i, j | 0 <= i < j < |days|
      ensures Before(days[i].date, days[j].date)
    {
      YearDatesIncreasing(year, i, j);
    }
  }

  /** As written, a year whose January 1 has no stored row fails once the settings and the
      time-off rows are fine. */
  lemma MissingNewYearFailsAsWritten(stored: SettingsStore, store: DayStore, rec: RecurringTable,
                                     timeoff: TimeOffTable, year: int, now: int)
    requires 1 <= year <= 9999 && GetTargets(stored).Ok?
    requires ExpandTimeOffDays(timeoff, Date(year, 1, 1), Date(year, 12, 31)).Ok?
    requires Iso(Date(year, 1, 1)) !in store
    ensures ComputeYearCalendarAsWritten(stored, store, rec, timeoff, year, now) == Err(MissingDayRow)
  {
    NewYearSummaryFails(stored, store, year, now);
    YearFailsWithSummaries(AsWritten, stored, store, rec, timeoff, year, now);
  }

  /** As written, the summary loop of a year whose January 1 has no stored row fails on
      that first date. */
  lemma NewYearSummaryFails(stored: SettingsStore, store: DayStore, year: int, now: int)
    requires 1 <= year <= 9999 && GetTargets(stored).Ok?
    requires Iso(Date(year, 1, 1)) !in store
    ensures forall i :: 0 <= i < |YearDates(year)| ==> Printable(YearDates(year)[i])
    ensures Summaries(AsWritten, stored, FetchDayRows(store, Date(year, 1, 1), Date(year, 12, 31)), YearDates(year), now)
            == Err(MissingDayRow)
  {
    YearStartsOnNewYear(year);
    YearDatesWindow(year);
    FirstMissingFails(stored, store, Date(year, 1, 1), Date(year, 12, 31), YearDates(year), now);
  }

  /** The first date of a year's list is its January 1. */
  lemma YearStartsOnNewYear(year: int)
    requires 1 <= year <= 9999
    ensures |YearDates(year)| > 0 && YearDates(year)[0] == Date(year, 1, 1)
  {
    var lo, hi := Date(year, 1, 1), Date(year, 12, 31);
    assert YearDates(year) == DateRange(lo, hi);
    DateRangeMembers(lo, hi, lo);
  }

  /** Once the bounds and the time-off ranges are read, a failing summary fails the year. */
  lemma YearFailsWithSummaries(policy: RowPolicy, stored: SettingsStore, store: DayStore, rec: RecurringTable,
                               timeoff: TimeOffTable, year: int, now: int)
    requires 1 <= year <= 9999
    requires forall i :: 0 <= i < |YearDates(year)| ==> Printable(YearDates(year)[i])
    requires ExpandTimeOffDays(timeoff, Date(year, 1, 1), Date(year, 12, 31)).Ok?
    requires Summaries(policy, stored, FetchDayRows(store, Date(year, 1, 1), Date(year, 12, 31)), YearDates(year), now).Err?
    ensures ComputeYearWith(policy, stored, store, rec, timeoff, year, now)
            == Err(Summaries(policy, stored, FetchDayRows(store, Date(year, 1, 1), Date(year, 12, 31)), YearDates(year), now).error)
  {
    assert YearBounds(year) == Ok((Date(year, 1, 1), Date(year, 12, 31)));
  }

  /** Corrected, a year without any stored row succeeds under the same conditions. */
  lemma EmptyStoreYearCorrected(stored: SettingsStore, rec: RecurringTable, timeoff: TimeOffTable, year: int, now: int)
    requires 1 <= year <= 9999 && GetTargets(stored).Ok?
    requires ExpandTimeOffDays(timeoff, Date(year, 1, 1), Date(year, 12, 31)).Ok?
    ensures ComputeYearCalendar(stored, map[], rec, timeoff, year, now).Ok?
    ensures forall i :: 0 <= i < |ComputeYearCalendar(stored, map[], rec, timeoff, year, now).value.days| ==>
      ComputeYearCalendar(stored, map[], rec, timeoff, year, now).value.days[i].summary.net == 0
  {
    EmptyStoreYearOk(stored, rec, timeoff, year, now);
    EmptyYearNetZero(ComputeYearCalendar(stored, map[], rec, timeoff, year, now).value, stored, now);
  }

  /** A calendar whose summaries come from empty rows has zero net minutes throughout. */
  lemma EmptyYearNetZero(v: YearView, stored: SettingsStore, now: int)
    requires forall i :: 0 <= i < |v.days| ==>
      Printable(v.days[i].date) && StoredOrEmpty(MissingIsEmpty, stored, map[], v.days[i].date, v.days[i].summary, now)
    ensures forall i :: 0 <= i < |v.days| ==> v.days[i].summary.net == 0
  {
    forall i | 0 <= i < |v.days|
      ensures v.days[i].summary.net == 0
    {
      assert StoredOrEmpty(MissingIsEmpty, stored, map[], v.days[i].date, v.days[i].summary, now);
    }
  }

  lemma EmptyStoreYearOk(stored: SettingsStore, rec: RecurringTable, timeoff: TimeOffTable, year: int, now: int)
    requires 1 <= year <= 9999 && GetTargets(stored).Ok?
    requires ExpandTimeOffDays(timeoff, Date(year, 1, 1), Date(year, 12, 31)).Ok?
    ensures ComputeYearWith(MissingIsEmpty, stored, map[], rec, timeoff, year, now).Ok?
  {
    YearDatesWindow(year);
    EmptyRowsSummarise(stored, Date(year, 1, 1), Date(year, 12, 31), YearDates(year), now);
  }

  /** `get_calendar_year`: years outside 1900..2100 are refused before anything is read. */
  function GetCalendarYear(stored: SettingsStore, store: DayStore, rec: RecurringTable, timeoff: TimeOffTable,
                           year: int, now: int): (r: Result<YearView>)
    ensures year < 1900 || year > 2100 ==> r == Err(YearOutOfRange)
    ensures r.Ok? ==> |r.value.days| == DaysInYear(year) && 1900 <= year <= 2100
  {
    if year < 1900 || year > 2100 then Err(YearOutOfRange)
    else ComputeYearCalendar(stored, store, rec, timeoff, year, now)
  }
}

=== FILE: dates.dfy ===
/** The proleptic Gregorian calendar of Python's `datetime.date`: validity, leap
    years, the day ordinal (`toordinal`, 0001-01-01 is day 1), its inverse,
    weekday with Monday = 0, day arithmetic and runs of consecutive dates. */
module Dates {

  datatype Date = Date(year: int, month: int, day: int)

  predicate IsLeapYear(y: int) {
    y % 4 == 0 && (y % 100 != 0 || y % 400 == 0)
  }

  function DaysInMonth(y: int, m: int): (n: int)
    requires 1 <= m <= 12
    ensures 28 <= n <= 31
    ensures n == 29 <==> m == 2 && IsLeapYear(y)
  {
    if m == 2 then (if IsLeapYear(y) then 29 else 28)
    else if m == 4 || m == 6 || m == 9 || m == 11 then 30
    else 31
  }

  function DaysInYear(y: int): int {
    if IsLeapYear(y) then 366 else 365
  }

  /** A calendar date Python's `date` accepts, without its 9999 upper year bound. */
  predicate ValidDate(d: Date) {
    d.year >= 1 && 1 <= d.month <= 12 && 1 <= d.day <= DaysInMonth(d.year, d.month)
  }

  /** Days of the year before the first of month `m` (month 13 stands for the year's end),
      Python's `_days_before_month` table. */
  function DaysBeforeMonth(y: int, m: int): int
    requires 1 <= m <= 13
  {
    var leapDay := if m > 2 && IsLeapYear(y) then 1 else 0;
    leapDay +
      (if m == 1 then 0 else if m == 2 then 31 else if m == 3 then 59
       else if m == 4 then 90 else if m == 5 then 120 else if m == 6 then 151
       else if m == 7 then 181 else if m == 8 then 212 else if m == 9 then 243
       else if m == 10 then 273 else if m == 11 then 304 else if m == 12 then 334
       else 365)
  }

  /** Days before January 1 of year `y`: the lengths of years 1 .. y - 1 added up.
      DaysBeforeYearClosedForm shows it equals Python's `_days_before_year`. */
  function DaysBeforeYear(y: int): nat
    requires y >= 1
  {
    if y == 1 then 0 else DaysBeforeYear(y - 1) + DaysInYear(y - 1)
  }

  /** Python's `date.toordinal()`. */
  function Ordinal(d: Date): (n: int)
    requires ValidDate(d)
    ensures n >= 1
  {
    DaysBeforeYear(d.year) + DaysBeforeMonth(d.year, d.month) + d.day
  }

  /** Python's `date.weekday()`: Monday is 0, Sunday is 6. */
  function Weekday(d: Date): (w: int)
    requires ValidDate(d)
    ensures 0 <= w < 7
  {
    (Ordinal(d) + 6) % 7
  }

  /** Python's date ordering: `(year, month, day)` compared lexicographically. */
  predicate Before(a: Date, b: Date) {
    a.year < b.year || (a.year == b.year && (a.month < b.month || (a.month == b.month && a.day < b.day)))
  }

  predicate AtOrBefore(a: Date, b: Date) {
    a == b || Before(a, b)
  }

  /** Advancing by one crosses a multiple of 4, 100 or 400 exactly when the new value is one. */
  lemma QuotientSteps(p: int)
    requires p >= 0
    ensures (p + 1) / 4 == p / 4 + (if (p + 1) % 4 == 0 then 1 else 0)
    ensures (p + 1) / 100 == p / 100 + (if (p + 1) % 100 == 0 then 1 else 0)
    ensures (p + 1) / 400 == p / 400 + (if (p + 1) % 400 == 0 then 1 else 0)
  {
  }

  lemma DaysBeforeYearStep(y: int)
    requires y >= 1
    ensures DaysBeforeYear(y + 1) == DaysBeforeYear(y) + DaysInYear(y)
  {
  }

  /** Python's `_days_before_year` formula, for `p = y - 1` whole years. */
  function GregorianDays(p: int): int {
    p * 365 + p / 4 - p / 100 + p / 400
  }

  /** One more year adds that year's length to the formula. */
  lemma GregorianDaysStep(p: int)
    requires p >= 0
    ensures GregorianDays(p + 1) == GregorianDays(p) + DaysInYear(p + 1)
  {
    QuotientSteps(p);
    if (p + 1) % 400 == 0 {
      assert (p + 1) % 100 == 0 && (p + 1) % 4 == 0;
    } else if (p + 1) % 100 == 0 {
      assert (p + 1) % 4 == 0;
    }
  }

  /** Python's `_days_before_year(y)`: `p*365 + p//4 - p//100 + p//400` with `p = y - 1`. */
  lemma {:induction false} DaysBeforeYearClosedForm(y: int)
    requires y >= 1
    ensures DaysBeforeYear(y) == GregorianDays(y - 1)
    decreases y
  {
    if y > 1 {
      DaysBeforeYearClosedForm(y - 1);
      GregorianDaysStep(y - 2);
    }
  }

  lemma DaysBeforeMonthStep(y: int, m: int)
    requires 1 <= m <= 12
    ensures DaysBeforeMonth(y, m + 1) == DaysBeforeMonth(y, m) + DaysInMonth(y, m)
  {
  }

  lemma YearIsTwelveMonths(y: int)
    ensures DaysBeforeMonth(y, 1) == 0
    ensures DaysBeforeMonth(y, 13) == DaysInYear(y)
  {
  }

  lemma {:induction false} DaysBeforeYearMonotone(a: int, b: int)
    requires 1 <= a < b
    ensures DaysBeforeYear(a) + DaysInYear(a) <= DaysBeforeYear(b)
    decreases b - a
  {
    DaysBeforeYearStep(a);
    if a + 1 < b {
      DaysBeforeYearMonotone(a + 1, b);
    }
  }

  lemma {:induction false} DaysBeforeMonthMonotone(y: int, a: int, b: int)
    requires 1 <= a < b <= 13
    ensures DaysBeforeMonth(y, a) + DaysInMonth(y, a) <= DaysBeforeMonth(y, b)
    decreases b - a
  {
    DaysBeforeMonthStep(y, a);
    if a + 1 < b {
      DaysBeforeMonthMonotone(y, a + 1, b);
    }
  }

  /** The day-of-year of a valid date lies in 1..DaysInYear. */
  lemma DayOfYearInRange(d: Date)
    requires ValidDate(d)
    ensures 1 <= DaysBeforeMonth(d.year, d.month) + d.day <= DaysInYear(d.year)
  {
    DaysBeforeMonthStep(d.year, d.month);
    if d.month < 12 {
      DaysBeforeMonthMonotone(d.year, d.month + 1, 13);
    }
    YearIsTwelveMonths(d.year);
  }

  /** Splits a day count `n`, counted from January 1 of year `y`, into a year and a day-of-year. */
  function LocateYear(n: int, y: int): (r: (int, int))
    requires y >= 1 && n >= 1
    ensures r.0 >= y && 1 <= r.1 <= DaysInYear(r.0)
    ensures DaysBeforeYear(r.0) + r.1 == DaysBeforeYear(y) + n
    decreases n
  {
    DaysBeforeYearStep(y);
    if n <= DaysInYear(y) then (y, n) else LocateYear(n - DaysInYear(y), y + 1)
  }

  /** Splits a day-of-year `k`, counted from the first of month `m`, into a month and a day. */
  function LocateMonth(y: int, k: int, m: int): (r: (int, int))
    requires 1 <= m <= 12 && k >= 1 && DaysBeforeMonth(y, m) + k <= DaysInYear(y)
    ensures m <= r.0 <= 12 && 1 <= r.1 <= DaysInMonth(y, r.0)
    ensures DaysBeforeMonth(y, r.0) + r.1 == DaysBeforeMonth(y, m) + k
    decreases 12 - m
  {
    DaysBeforeMonthStep(y, m);
    YearIsTwelveMonths(y);
    if k <= DaysInMonth(y, m) then (m, k) else LocateMonth(y, k - DaysInMonth(y, m), m + 1)
  }

  /** Python's `date.fromordinal(n)`: the date whose ordinal is `n`. */
  function FromOrdinal(n: int): (d: Date)
    requires n >= 1
    ensures ValidDate(d) && Ordinal(d) == n
  {
    var (y, k) := LocateYear(n, 1);
    YearIsTwelveMonths(y);
    var (m, dd) := LocateMonth(y, k, 1);
    Date(y, m, dd)
  }

  /** The ordinal is strictly increasing in Python's date order. */
  lemma OrdinalMonotone(a: Date, b: Date)
    requires ValidDate(a) && ValidDate(b) && Before(a, b)
    ensures Ordinal(a) < Ordinal(b)
  {
    DayOfYearInRange(a);
    DayOfYearInRange(b);
    if a.year < b.year {
      DaysBeforeYearMonotone(a.year, b.year);
    } else if a.month < b.month {
      DaysBeforeMonthMonotone(a.year, a.month, b.month);
    }
  }

  /** Comparing dates is comparing ordinals, in both directions. */
  lemma OrdinalOrder(a: Date, b: Date)
    requires ValidDate(a) && ValidDate(b)
    ensures Before(a, b) <==> Ordinal(a) < Ordinal(b)
    ensures a == b <==> Ordinal(a) == Ordinal(b)
  {
    if Before(a, b) {
      OrdinalMonotone(a, b);
    } else if Before(b, a) {
      OrdinalMonotone(b, a);
    }
  }

  /** `fromordinal(toordinal(d)) == d`. */
  lemma FromOrdinalOfOrdinal(d: Date)
    requires ValidDate(d)
    ensures FromOrdinal(Ordinal(d)) == d
  {
    OrdinalOrder(d, FromOrdinal(Ordinal(d)));
  }

  /** `d + timedelta(days=k)` (for a result no earlier than 0001-01-01). */
  function AddDays(d: Date, k: int): (r: Date)
    requires ValidDate(d) && Ordinal(d) + k >= 1
    ensures ValidDate(r) && Ordinal(r) == Ordinal(d) + k
  {
    FromOrdinal(Ordinal(d) + k)
  }

  lemma ShiftModSeven(a: int, k: int)
    ensures (a + k) % 7 == (a % 7 + k) % 7
  {
  }

  /** A date `k` days after `d` falls `k` weekdays later, modulo 7. */
  lemma WeekdayShift(d: Date, e: Date, k: int)
    requires ValidDate(d) && ValidDate(e) && Ordinal(e) == Ordinal(d) + k
    ensures Weekday(e) == (Weekday(d) + k) % 7
  {
    ShiftModSeven(Ordinal(d) + 6, k);
  }

  /** The consecutive dates `lo, lo + 1, ..., hi` that the source's
      `d = lo; while d <= hi: ...; d += timedelta(days=1)` loops visit. */
  function DateRange(lo: Date, hi: Date): (r: seq<Date>)
    requires ValidDate(lo) && ValidDate(hi)
    ensures |r| == if Ordinal(hi) < Ordinal(lo) then 0 else Ordinal(hi) - Ordinal(lo) + 1
    ensures forall i :: 0 <= i < |r| ==> ValidDate(r[i]) && Ordinal(r[i]) == Ordinal(lo) + i
  {
    var n := if Ordinal(hi) < Ordinal(lo) then 0 else Ordinal(hi) - Ordinal(lo) + 1;
    seq(n, i requires 0 <= i < n => AddDays(lo, i))
  }

  /** A date is in the range exactly when it lies between the bounds, and it sits at the
      index given by its distance from `lo`. */
  lemma DateRangeMembers(lo: Date, hi: Date, d: Date)
    requires ValidDate(lo) && ValidDate(hi)
    ensures d in DateRange(lo, hi) <==> ValidDate(d) && AtOrBefore(lo, d) && AtOrBefore(d, hi)
    ensures d in DateRange(lo, hi) ==> DateRange(lo, hi)[Ordinal(d) - Ordinal(lo)] == d
  {
    var r := DateRange(lo, hi);
    if d in r {
      var i :| 0 <= i < |r| && r[i] == d;
      OrdinalOrder(lo, d);
      OrdinalOrder(d, hi);
    }
    if ValidDate(d) && AtOrBefore(lo, d) && AtOrBefore(d, hi) {
      OrdinalOrder(lo, d);
      OrdinalOrder(d, hi);
      var i := Ordinal(d) - Ordinal(lo);
      OrdinalOrder(r[i], d);
      assert r[i] == d;
    }
  }

  /** Entries of a date range are strictly increasing, hence pairwise distinct. */
  lemma DateRangeIncreasing(lo: Date, hi: Date, i: int, j: int)
    requires ValidDate(lo) && ValidDate(hi)
    requires 0 <= i < j < |DateRange(lo, hi)|
    ensures Before(DateRange(lo, hi)[i], DateRange(lo, hi)[j])
  {
    var r := DateRange(lo, hi);
    OrdinalOrder(r[i], r[j]);
  }

  /** Every date of year `y`, January 1 to December 31. */
  function YearDates(y: int): (r: seq<Date>)
    requires y >= 1
    ensures |r| == DaysInYear(y)
    ensures |r| == 366 <==> IsLeapYear(y)
  {
    var lo := Date(y, 1, 1);
    var hi := Date(y, 12, 31);
    YearIsTwelveMonths(y);
    DaysBeforeYearStep(y);
    DateRange(lo, hi)
  }

  /** The dates of month `m` of year `y`, from the 1st to the last day. */
  function MonthDates(y: int, m: int): (r: seq<Date>)
    requires y >= 1 && 1 <= m <= 12
    ensures |r| == DaysInMonth(y, m)
    ensures forall i :: 0 <= i < |r| ==> r[i] == Date(y, m, i + 1) && ValidDate(r[i])
  {
    seq(DaysInMonth(y, m), i requires 0 <= i < DaysInMonth(y, m) => Date(y, m, i + 1))
  }

  /** The dates of `YearDates(y)` are exactly the valid dates of year `y`. */
  lemma YearDatesMembers(y: int, d: Date)
    requires y >= 1
    ensures d in YearDates(y) <==> ValidDate(d) && d.year == y
  {
    var lo := Date(y, 1, 1);
    var hi := Date(y, 12, 31);
    DateRangeMembers(lo, hi, d);
    assert YearDates(y) == DateRange(lo, hi);
  }

  /** The date at position `j` of a year's list is its (j + 1)-th day. */
  lemma YearDatesPosition(y: int, j: int)
    requires y >= 1 && 0 <= j < |YearDates(y)|
    ensures ValidDate(YearDates(y)[j]) && YearDates(y)[j].year == y
    ensures Ordinal(YearDates(y)[j]) == DaysBeforeYear(y) + 1 + j
  {
    var lo := Date(y, 1, 1);
    var hi := Date(y, 12, 31);
    var r := YearDates(y);
    assert r == DateRange(lo, hi);
    var d := r[j];
    assert ValidDate(d) && Ordinal(d) == Ordinal(lo) + j;
    OrdinalOrder(lo, d);
    OrdinalOrder(d, hi);
    YearIsTwelveMonths(y);
  }
  /** `YearDates(y)` is in strictly increasing order, so no date occurs twice. */
  lemma YearDatesIncreasing(y: int, i: int, j: int)
    requires y >= 1 && 0 <= i < j < |YearDates(y)|
    ensures Before(YearDates(y)[i], YearDates(y)[j])
  {
    DateRangeIncreasing(Date(y, 1, 1), Date(y, 12, 31), i, j);
  }
}

=== FILE: day_router.dfy ===
/** backend/routers/day_router.py: the handlers of `/api/day/{day_str}` as transitions
    of the `work_day` table. Each takes the settings table, the day table, the path
    text and the request, plus the wall clock `now` (an instant in whole seconds),
    and gives the new day table with the reply. Every handler parses the date first,
    and every write re-reads the row and replies with its summary. */
module DayRouter {
  import opened Wrappers
  import opened Dates
  import opened TimeUtils
  import opened Settings
  import opened Schemas
  import opened DayService

  /** A handler's reply: a day summary, the short "Already started" answer, or `{"ok": True}`. */
  datatype Reply = Summary(summary: DaySummary) | AlreadyStarted(start: string) | Acknowledged

  /** The day table after the handler, with its reply. */
  datatype Outcome = Outcome(store: DayStore, reply: Result<Reply>)

  /** `now_hhmm()` at instant `now`. */
  function NowHHMM(now: int): (s: string)
    ensures ParseHHMM(s).Ok?
  {
    var t := (now % 86400) / 60;
    ClockRoundTrip(t);
    FormatHHMM(t)
  }

  /** The table after a handler touched only the row under `key` (creating it if needed). */
  predicate OnlyRowChanged(before: DayStore, after: DayStore, key: string) {
    && key in after
    && after.Keys == before.Keys + {key}
    && forall k :: k in before && k != key ==> after[k] == before[k]
  }

  /** The closing step of every writing handler: re-read the row and summarise it. */
  function Finish(settings: SettingsStore, store: DayStore, key: string, now: int): (o: Outcome)
    requires key in store
    ensures o.store == store
    ensures o.reply.Ok? <==> ComputeDaySummary(settings, key, store[key], now).Ok?
    ensures o.reply.Ok? ==> o.reply.value == Summary(ComputeDaySummary(settings, key, store[key], now).value)
    ensures o.reply.Err? ==> o.reply.error == ComputeDaySummary(settings, key, store[key], now).error
  {
    match ComputeDaySummary(settings, key, store[key], now)
    case Ok(s) => Outcome(store, Ok(Summary(s)))
    case Err(e) => Outcome(store, Err(e))
  }

  /** A writing handler's last steps: the row under `key` (created if needed) is replaced
      by `row`, then re-read and summarised. Only that row changes. */
  function WriteRow(settings: SettingsStore, store: DayStore, key: string, row: DayRecord, now: int): (o: Outcome)
    ensures OnlyRowChanged(store, o.store, key)
    ensures o.store == GetOrCreateDay(store, key).0[key := row] && o.store[key] == row
    ensures o.reply == Finish(settings, o.store, key, now).reply
  {
    Finish(settings, GetOrCreateDay(store, key).0[key := row], key, now)
  }

  /** `GET /{day_str}`: the day's summary, creating an empty row on first sight. */
  function GetDay(settings: SettingsStore, store: DayStore, day: string, now: int): (o: Outcome)
    ensures ParseDate(day).Err? ==> o == Outcome(store, Err(InvalidDate))
    ensures ParseDate(day).Ok? ==> o.store == GetOrCreateDay(store, day).0
    ensures ParseDate(day).Ok? ==>
      var c := ComputeDaySummary(settings, day, GetOrCreateDay(store, day).1, now);
      o.reply == if c.Ok? then Ok(Summary(c.value)) else Err(c.error)
  {
    if ParseDate(day).Err? then Outcome(store, Err(InvalidDate))
    else
      var (s1, _) := GetOrCreateDay(store, day);
      Finish(settings, s1, day, now)
  }

  /** `POST /{day_str}/start-now`: on a started day nothing changes and the stored start is
      reported; otherwise the start becomes the current time of day, end and break untouched. */
  function StartNow(settings: SettingsStore, store: DayStore, day: string, now: int): (o: Outcome)
    ensures ParseDate(day).Err? ==> o == Outcome(store, Err(InvalidDate))
    ensures ParseDate(day).Ok? && day in store && Present(store[day].start) ==>
      o == Outcome(store, Ok(AlreadyStarted(store[day].start.value)))
    ensures ParseDate(day).Ok? ==> OnlyRowChanged(store, o.store, day)
    ensures ParseDate(day).Ok? && !(day in store && Present(store[day].start)) ==>
      var before := GetOrCreateDay(store, day).1;
      o.store[day] == before.(start := Some(NowHHMM(now)))
    ensures ParseDate(day).Ok? && !(day in store && Present(store[day].start)) ==>
      day in o.store && o.reply == Finish(settings, o.store, day, now).reply
  {
    if ParseDate(day).Err? then Outcome(store, Err(InvalidDate))
    else
      var (s1, row) := GetOrCreateDay(store, day);
      if Present(row.start) then Outcome(s1, Ok(AlreadyStarted(row.start.value)))
      else WriteRow(settings, store, day, row.(start := Some(NowHHMM(now))), now)
  }

  /** `POST /{day_str}/start-at`: the time is checked before the row is touched; then the
      start is set and the end cleared. */
  function StartAt(settings: SettingsStore, store: DayStore, day: string, startTime: string, now: int): (o: Outcome)
    ensures ParseDate(day).Err? ==> o == Outcome(store, Err(InvalidDate))
    ensures ParseDate(day).Ok? && ParseHHMM(startTime).Err? ==> o == Outcome(store, Err(InvalidTime))
    ensures ParseDate(day).Ok? && ParseHHMM(startTime).Ok? ==>
      && OnlyRowChanged(store, o.store, day)
      && o.store[day] == GetOrCreateDay(store, day).1.(start := Some(startTime), end := None)
    ensures ParseDate(day).Ok? && ParseHHMM(startTime).Ok? ==>
      day in o.store && o.reply == Finish(settings, o.store, day, now).reply
  {
    if ParseDate(day).Err? then Outcome(store, Err(InvalidDate))
    else if ParseHHMM(startTime).Err? then Outcome(store, Err(InvalidTime))
    else
      var (s1, row) := GetOrCreateDay(store, day);
      WriteRow(settings, store, day, row.(start := Some(startTime), end := None), now)
  }

  /** `POST /{day_str}/end-now`: refused on a day without a start (the row is still
      created); otherwise the end becomes the current time of day. */
  function EndNow(settings: SettingsStore, store: DayStore, day: string, now: int): (o: Outcome)
    ensures ParseDate(day).Err? ==> o == Outcome(store, Err(InvalidDate))
    ensures ParseDate(day).Ok? ==> OnlyRowChanged(store, o.store, day)
    ensures ParseDate(day).Ok? && !Present(GetOrCreateDay(store, day).1.start) ==>
      o == Outcome(GetOrCreateDay(store, day).0, Err(NotStarted))
    ensures ParseDate(day).Ok? && Present(GetOrCreateDay(store, day).1.start) ==>
      o.store[day] == GetOrCreateDay(store, day).1.(end := Some(NowHHMM(now)))
    ensures ParseDate(day).Ok? && Present(GetOrCreateDay(store, day).1.start) ==>
      day in o.store && o.reply == Finish(settings, o.store, day, now).reply
  {
    if ParseDate(day).Err? then Outcome(store, Err(InvalidDate))
    else
      var (s1, row) := GetOrCreateDay(store, day);
      if !Present(row.start) then Outcome(s1, Err(NotStarted))
      else WriteRow(settings, store, day, row.(end := Some(NowHHMM(now))), now)
  }

  /** What `end_at` does once its guard lets a day with a stored start through: an
      unreadable start is InvalidTime, an end earlier than the start is EndBeforeStart
      (the table only gains the created row), and otherwise the end is written and the
      row re-read and summarised. */
  predicate AfterGuard(settings: SettingsStore, store: DayStore, day: string, endTime: string, now: int, o: Outcome)
    requires ParseHHMM(endTime).Ok?
    requires GetOrCreateDay(store, day).1.start.Some?
  {
    var s1 := GetOrCreateDay(store, day).0;
    var row := GetOrCreateDay(store, day).1;
    var start := ParseHHMM(row.start.value);
    var ended := s1[day := row.(end := Some(endTime))];
    if start.Err? then o == Outcome(s1, Err(InvalidTime))
    else if ParseHHMM(endTime).value < start.value then o == Outcome(s1, Err(EndBeforeStart))
    else o.store == ended && o.reply == Finish(settings, ended, day, now).reply
  }

  /** `POST /{day_str}/end-at` as the message of its guard says it should behave: refused
      on a day without a start, refused when the new end is earlier than the start, and
      otherwise the end is set. */
  function EndAt(settings: SettingsStore, store: DayStore, day: string, endTime: string, now: int): (o: Outcome)
    ensures ParseDate(day).Err? ==> o == Outcome(store, Err(InvalidDate))
    ensures ParseDate(day).Ok? && ParseHHMM(endTime).Err? ==> o == Outcome(store, Err(InvalidTime))
    ensures ParseDate(day).Ok? && ParseHHMM(endTime).Ok? ==> OnlyRowChanged(store, o.store, day)
    ensures ParseDate(day).Ok? && ParseHHMM(endTime).Ok? && !Present(GetOrCreateDay(store, day).1.start) ==>
      o == Outcome(GetOrCreateDay(store, day).0, Err(NotStarted))
    ensures o.store != GetOrCreateDay(store, day).0 && o.store != store ==>
      var row := GetOrCreateDay(store, day).1;
      && Present(row.start) && ParseHHMM(row.start.value).Ok?
      && ParseHHMM(row.start.value).value <= ParseHHMM(endTime).value
      && o.store[day] == row.(end := Some(endTime))
    ensures ParseDate(day).Ok? && ParseHHMM(endTime).Ok? && Present(GetOrCreateDay(store, day).1.start) ==>
      AfterGuard(settings, store, day, endTime, now, o)
  {
    if ParseDate(day).Err? then Outcome(store, Err(InvalidDate))
    else if ParseHHMM(endTime).Err? then Outcome(store, Err(InvalidTime))
    else
      var (s1, row) := GetOrCreateDay(store, day);
      if !Present(row.start) then Outcome(s1, Err(NotStarted))
      else EndAtTail(settings, s1, day, row, endTime, now)
  }

  /** The part of `end_at` after its guard: both times on the day, the order check, the write. */
  function EndAtTail(settings: SettingsStore, s1: DayStore, day: string, row: DayRecord, endTime: string, now: int): (o: Outcome)
    requires ParseDate(day).Ok? && ParseHHMM(endTime).Ok? && day in s1 && s1[day] == row && row.start.Some?
    ensures OnlyRowChanged(s1, o.store, day)
    ensures o.store != s1 ==>
      && ParseHHMM(row.start.value).Ok? && ParseHHMM(row.start.value).value <= ParseHHMM(endTime).value
      && o.store == s1[day := row.(end := Some(endTime))]
    ensures ParseHHMM(row.start.value).Err? ==> o == Outcome(s1, Err(InvalidTime))
    ensures ParseHHMM(row.start.value).Ok? && ParseHHMM(endTime).value < ParseHHMM(row.start.value).value ==>
      o == Outcome(s1, Err(EndBeforeStart))
    ensures ParseHHMM(row.start.value).Ok? && ParseHHMM(row.start.value).value <= ParseHHMM(endTime).value ==>
      && o.store == s1[day := row.(end := Some(endTime))]
      && o.reply == Finish(settings, s1[day := row.(end := Some(endTime))], day, now).reply
  {
    var d := ParseDate(day).value;
    match (DtFor(d, row.start.value), DtFor(d, endTime))
    case (Ok(startDt), Ok(endDt)) =>
      if endDt < startDt then Outcome(s1, Err(EndBeforeStart))
      else Finish(settings, s1[day := row.(end := Some(endTime))], day, now)
    case _ => Outcome(s1, Err(InvalidTime))
  }

  /** `end_at` with the guard as the source writes it: it tests the stored END time, so a
      running day (started, not ended) is refused as "not started", and a day with an end
      but no start reaches `dt_for(day, None)`, a TypeError. The misspelled table names of
      the statements after the guard are read as `work_day`. */
  function EndAtAsWritten(settings: SettingsStore, store: DayStore, day: string, endTime: string, now: int): (o: Outcome)
    ensures ParseDate(day).Err? ==> o == Outcome(store, Err(InvalidDate))
    ensures ParseDate(day).Ok? && ParseHHMM(endTime).Err? ==> o == Outcome(store, Err(InvalidTime))
    ensures ParseDate(day).Ok? && ParseHHMM(endTime).Ok? && !Present(GetOrCreateDay(store, day).1.end) ==>
      o == Outcome(GetOrCreateDay(store, day).0, Err(NotStarted))
    ensures ParseDate(day).Ok? && ParseHHMM(endTime).Ok? && Present(GetOrCreateDay(store, day).1.end)
            && GetOrCreateDay(store, day).1.start.None? ==>
      o == Outcome(GetOrCreateDay(store, day).0, Err(MissingStartTime))
    ensures ParseDate(day).Ok? && ParseHHMM(endTime).Ok? && Present(GetOrCreateDay(store, day).1.end)
            && GetOrCreateDay(store, day).1.start.Some? ==>
      AfterGuard(settings, store, day, endTime, now, o)
  {
    if ParseDate(day).Err? then Outcome(store, Err(InvalidDate))
    else if ParseHHMM(endTime).Err? then Outcome(store, Err(InvalidTime))
    else
      var (s1, row) := GetOrCreateDay(store, day);
      if !Present(row.end) then Outcome(s1, Err(NotStarted))
      else if row.start.None? then Outcome(s1, Err(MissingStartTime))
      else EndAtTail(settings, s1, day, row, endTime, now)
  }

  /** `POST /{day-str}/clear-end`: the end is removed, nothing else changes. */
  function ClearEnd(settings: SettingsStore, store: DayStore, day: string, now: int): (o: Outcome)
    ensures ParseDate(day).Err? ==> o == Outcome(store, Err(InvalidDate))
    ensures ParseDate(day).Ok? ==>
      && OnlyRowChanged(store, o.store, day)
      && o.store[day] == GetOrCreateDay(store, day).1.(end := None)
    ensures ParseDate(day).Ok? ==>
      day in o.store && o.reply == Finish(settings, o.store, day, now).reply
  {
    if ParseDate(day).Err? then Outcome(store, Err(InvalidDate))
    else
      var (s1, row) := GetOrCreateDay(store, day);
      WriteRow(settings, store, day, row.(end := None), now)
  }

  /** `POST /{day_str}/break/add`: the body is checked first (0 .. 1440 minutes); the
      break grows by exactly that much. */
  function BreakAdd(settings: SettingsStore, store: DayStore, day: string, minutes: int, now: int): (o: Outcome)
    ensures CheckMinutesBody(minutes).Err? ==> o == Outcome(store, Err(SchemaViolation))
    ensures CheckMinutesBody(minutes).Ok? && ParseDate(day).Err? ==> o == Outcome(store, Err(InvalidDate))
    ensures CheckMinutesBody(minutes).Ok? && ParseDate(day).Ok? ==>
      && OnlyRowChanged(store, o.store, day)
      && var before := GetOrCreateDay(store, day).1;
         o.store[day] == before.(breakMinutes := before.breakMinutes + minutes)
    ensures CheckMinutesBody(minutes).Ok? && ParseDate(day).Ok? ==>
      day in o.store && o.reply == Finish(settings, o.store, day, now).reply
  {
    if CheckMinutesBody(minutes).Err? then Outcome(store, Err(SchemaViolation))
    else if ParseDate(day).Err? then Outcome(store, Err(InvalidDate))
    else
      var (s1, row) := GetOrCreateDay(store, day);
      WriteRow(settings, store, day, row.(breakMinutes := row.breakMinutes + minutes), now)
  }

  /** `POST /{day_str}/break/subtract`: the break shrinks by the minutes but never below 0.
      The misspelled table name of the UPDATE is read as `work_day`. */
  function BreakSubtract(settings: SettingsStore, store: DayStore, day: string, minutes: int, now: int): (o: Outcome)
    ensures CheckMinutesBody(minutes).Err? ==> o == Outcome(store, Err(SchemaViolation))
    ensures CheckMinutesBody(minutes).Ok? && ParseDate(day).Err? ==> o == Outcome(store, Err(InvalidDate))
    ensures CheckMinutesBody(minutes).Ok? && ParseDate(day).Ok? ==>
      && OnlyRowChanged(store, o.store, day)
      && var before := GetOrCreateDay(store, day).1;
         && o.store[day].breakMinutes >= 0
         && (before.breakMinutes >= minutes ==> o.store[day].breakMinutes == before.breakMinutes - minutes)
         && (before.breakMinutes < minutes ==> o.store[day].breakMinutes == 0)
         && o.store[day] == before.(breakMinutes := o.store[day].breakMinutes)
    ensures CheckMinutesBody(minutes).Ok? && ParseDate(day).Ok? ==>
      day in o.store && o.reply == Finish(settings, o.store, day, now).reply
  {
    if CheckMinutesBody(minutes).Err? then Outcome(store, Err(SchemaViolation))
    else if ParseDate(day).Err? then Outcome(store, Err(InvalidDate))
    else
      var (s1, row) := GetOrCreateDay(store, day);
      WriteRow(settings, store, day, row.(breakMinutes := Max0(row.breakMinutes - minutes)), now)
  }

  /** The first step of `patch_day`: an empty start or end text stands for null. */
  function NormaliseTimes(p: DayPatch): (q: DayPatch)
    ensures q.breakMinutes == p.breakMinutes && q.notes == p.notes
    ensures p.start == Value("") ==> q.start == Null
    ensures p.start != Value("") ==> q.start == p.start
    ensures p.end == Value("") ==> q.end == Null
    ensures p.end != Value("") ==> q.end == p.end
    ensures q.start != Value("") && q.end != Value("")
  {
    p.(start := if p.start == Value("") then Null else p.start,
       end := if p.end == Value("") then Null else p.end)
  }

  /** Every time the patch carries is a valid "HH:MM". */
  predicate TimesValid(p: DayPatch) {
    && (p.start.Value? ==> ParseHHMM(p.start.v).Ok?)
    && (p.end.Value? ==> ParseHHMM(p.end.v).Ok?)
  }

  /** Nothing was sent: `model_dump(exclude_unset=True)` is empty. */
  predicate EmptyPatch(p: DayPatch) {
    p.start.Unset? && p.end.Unset? && p.breakMinutes.Unset? && p.notes.Unset?
  }

  /** A nullable column after `SET column = ?`: unchanged when the field was not sent. */
  function Assign<T>(f: Field<T>, current: Option<T>): (r: Option<T>)
    ensures f.Unset? ==> r == current
    ensures f.Null? ==> r == None
    ensures f.Value? ==> r == Some(f.v)
  {
    match f
    case Unset => current
    case Null => None
    case Value(v) => Some(v)
  }

  /** The single UPDATE of `patch_day`: every sent field is written, the others keep their
      value; a null `break_minutes` violates the column's NOT NULL and the UPDATE fails. */
  function ApplyPatch(row: DayRecord, p: DayPatch): (r: Result<DayRecord>)
    ensures r.Err? <==> p.breakMinutes.Null?
    ensures r.Err? ==> r.error == NullBreakMinutes
    ensures r.Ok? ==>
      && r.value.start == Assign(p.start, row.start)
      && r.value.end == Assign(p.end, row.end)
      && r.value.notes == Assign(p.notes, row.notes)
      && r.value.breakMinutes == (if p.breakMinutes.Value? then p.breakMinutes.v else row.breakMinutes)
  {
    var written := DayRecord(Assign(p.start, row.start), Assign(p.end, row.end), row.breakMinutes, Assign(p.notes, row.notes));
    match p.breakMinutes
    case Null => Err(NullBreakMinutes)
    case Unset => Ok(written)
    case Value(b) => Ok(written.(breakMinutes := b))
  }

  /** `PATCH /{day_str}`: schema bounds, the date, empty times to null, the times checked,
      all before the row is touched; an empty patch only creates the row; otherwise
      exactly the sent fields are written in one statement. */
  function PatchDay(settings: SettingsStore, store: DayStore, day: string, body: DayPatch, now: int): (o: Outcome)
    ensures CheckDayPatch(body).Err? ==> o == Outcome(store, Err(SchemaViolation))
    ensures CheckDayPatch(body).Ok? && ParseDate(day).Err? ==> o == Outcome(store, Err(InvalidDate))
    ensures CheckDayPatch(body).Ok? && ParseDate(day).Ok? && !TimesValid(NormaliseTimes(body)) ==>
      o == Outcome(store, Err(InvalidTime))
    ensures CheckDayPatch(body).Ok? && ParseDate(day).Ok? && TimesValid(NormaliseTimes(body)) ==>
      && OnlyRowChanged(store, o.store, day)
      && (EmptyPatch(body) ==> o == Outcome(GetOrCreateDay(store, day).0, Ok(Acknowledged)))
      && (!EmptyPatch(body) && body.breakMinutes.Null? ==> o == Outcome(GetOrCreateDay(store, day).0, Err(NullBreakMinutes)))
      && (!EmptyPatch(body) && !body.breakMinutes.Null? ==>
            o.store[day] == ApplyPatch(GetOrCreateDay(store, day).1, NormaliseTimes(body)).value)
    ensures CheckDayPatch(body).Ok? && ParseDate(day).Ok? && TimesValid(NormaliseTimes(body))
            && !EmptyPatch(body) && !body.breakMinutes.Null? ==>
      day in o.store && o.reply == Finish(settings, o.store, day, now).reply
  {
    if CheckDayPatch(body).Err? then Outcome(store, Err(SchemaViolation))
    else if ParseDate(day).Err? then Outcome(store, Err(InvalidDate))
    else
      var data := NormaliseTimes(body);
      if !TimesValid(data) then Outcome(store, Err(InvalidTime))
      else
        var (s1, row) := GetOrCreateDay(store, day);
        if EmptyPatch(data) then Outcome(s1, Ok(Acknowledged))
        else
          match ApplyPatch(row, data)
          case Err(e) => Outcome(s1, Err(e))
          case Ok(row2) => WriteRow(settings, store, day, row2, now)
  }

  /** A row every handler can leave behind: a non-negative break and times that parse. */
  predicate WellFormedRow(r: DayRecord) {
    && r.breakMinutes >= 0
    && (r.start.Some? ==> ParseHHMM(r.start.value).Ok?)
    && (r.end.Some? ==> ParseHHMM(r.end.value).Ok?)
  }

  predicate WellFormedStore(store: DayStore) {
    forall k :: k in store ==> WellFormedRow(store[k])
  }

  /** One request to the day router. */
  datatype Command =
    | Get
    | StartNowCmd
    | StartAtCmd(startTime: string)
    | EndNowCmd
    | EndAtCmd(endTime: string)
    | ClearEndCmd
    | BreakAddCmd(addMinutes: int)
    | BreakSubtractCmd(subtractMinutes: int)
    | PatchCmd(patch: DayPatch)

  /** The router: one handler per command. A path that is no date is refused and leaves
      the table alone; otherwise the table is left alone or only the day's row changes. */
  function Handle(settings: SettingsStore, store: DayStore, day: string, cmd: Command, now: int): (o: Outcome)
    ensures ParseDate(day).Err? ==> o.store == store && o.reply.Err?
    ensures o.store == store || OnlyRowChanged(store, o.store, day)
  {
    match cmd
    case Get => GetDay(settings, store, day, now)
    case StartNowCmd => StartNow(settings, store, day, now)
    case StartAtCmd(t) => StartAt(settings, store, day, t, now)
    case EndNowCmd => EndNow(settings, store, day, now)
    case EndAtCmd(t) => EndAt(settings, store, day, t, now)
    case ClearEndCmd => ClearEnd(settings, store, day, now)
    case BreakAddCmd(m) => BreakAdd(settings, store, day, m, now)
    case BreakSubtractCmd(m) => BreakSubtract(settings, store, day, m, now)
    case PatchCmd(p) => PatchDay(settings, store, day, body := p, now := now)
  }

  /** Every handler keeps the table well formed: breaks never go negative and only
      times that parse are ever stored, whatever the request. */
  lemma HandlePreservesWellFormed(settings: SettingsStore, store: DayStore, day: string, cmd: Command, now: int)
    requires WellFormedStore(store)
    ensures WellFormedStore(Handle(settings, store, day, cmd, now).store)
  {
    var o := Handle(settings, store, day, cmd, now);
    HandleTouchesOneRow(settings, store, day, cmd, now);
    if o.store != store {
      forall k | k in o.store
        ensures WellFormedRow(o.store[k])
      {
        if k != day {
          assert k in store;
        }
      }
    }
  }

  /** A handler leaves the table alone, or changes only the day's row and leaves it well formed. */
  lemma HandleTouchesOneRow(settings: SettingsStore, store: DayStore, day: string, cmd: Command, now: int)
    requires WellFormedStore(store)
    ensures var o := Handle(settings, store, day, cmd, now);
      || o.store == store
      || (OnlyRowChanged(store, o.store, day) && WellFormedRow(o.store[day]))
  {
    if cmd.StartNowCmd? || cmd.StartAtCmd? || cmd.EndNowCmd? || cmd.EndAtCmd? || cmd.ClearEndCmd? {
      TimeCommandTouchesOneRow(settings, store, day, cmd, now);
    } else {
      OtherCommandTouchesOneRow(settings, store, day, cmd, now);
    }
  }

  lemma TimeCommandTouchesOneRow(settings: SettingsStore, store: DayStore, day: string, cmd: Command, now: int)
    requires WellFormedStore(store)
    requires cmd.StartNowCmd? || cmd.StartAtCmd? || cmd.EndNowCmd? || cmd.EndAtCmd? || cmd.ClearEndCmd?
    ensures var o := Handle(settings, store, day, cmd, now);
      || o.store == store
      || (OnlyRowChanged(store, o.store, day) && WellFormedRow(o.store[day]))
  {
    if ParseDate(day).Ok? {
      assert WellFormedRow(GetOrCreateDay(store, day).1);
    }
  }

  lemma OtherCommandTouchesOneRow(settings: SettingsStore, store: DayStore, day: string, cmd: Command, now: int)
    requires WellFormedStore(store)
    requires cmd.Get? || cmd.BreakAddCmd? || cmd.BreakSubtractCmd? || cmd.PatchCmd?
    ensures var o := Handle(settings, store, day, cmd, now);
      || o.store == store
      || (OnlyRowChanged(store, o.store, day) && WellFormedRow(o.store[day]))
  {
    if cmd.Get? || cmd.BreakAddCmd? {
      ReadOrAddTouchesOneRow(settings, store, day, cmd, now);
    } else if cmd.BreakSubtractCmd? {
      SubtractTouchesOneRow(settings, store, day, cmd, now);
    } else {
      PatchTouchesOneRow(settings, store, day, cmd, now);
    }
  }

  lemma ReadOrAddTouchesOneRow(settings: SettingsStore, store: DayStore, day: string, cmd: Command, now: int)
    requires WellFormedStore(store)
    requires cmd.Get? || cmd.BreakAddCmd?
    ensures var o := Handle(settings, store, day, cmd, now);
      || o.store == store
      || (OnlyRowChanged(store, o.store, day) && WellFormedRow(o.store[day]))
  {
    if ParseDate(day).Ok? {
      assert WellFormedRow(GetOrCreateDay(store, day).1);
    }
  }

  lemma SubtractTouchesOneRow(settings: SettingsStore, store: DayStore, day: string, cmd: Command, now: int)
    requires WellFormedStore(store)
    requires cmd.BreakSubtractCmd?
    ensures var o := Handle(settings, store, day, cmd, now);
      || o.store == store
      || (OnlyRowChanged(store, o.store, day) && WellFormedRow(o.store[day]))
  {
    if ParseDate(day).Ok? {
      assert WellFormedRow(GetOrCreateDay(store, day).1);
    }
  }

  lemma PatchTouchesOneRow(settings: SettingsStore, store: DayStore, day: string, cmd: Command, now: int)
    requires WellFormedStore(store)
    requires cmd.PatchCmd?
    ensures var o := Handle(settings, store, day, cmd, now);
      || o.store == store
      || (OnlyRowChanged(store, o.store, day) && WellFormedRow(o.store[day]))
  {
    if ParseDate(day).Ok? {
      assert WellFormedRow(GetOrCreateDay(store, day).1);
    }
  }


  /** A day started at 09:00 and still running, ended at 17:00 through `end-at`: the guard
      as written refuses it as "not started" and leaves the row running. The texts are
      parameters fixed by the precondition. */
  lemma EndAtRefusesRunningDay(day: string, start: string, end: string)
    requires day == IsoText(2024, 3, 4) && start == FormatHHMM(540) && end == FormatHHMM(1020)
    ensures
      var store := map[day := DayRecord(Some(start), None, 0, None)];
      EndAtAsWritten(map[], store, day, end, 0) == Outcome(store, Err(NotStarted))
  {
    ParseIsoText(2024, 3, 4);
    ClockRoundTrip(1020);
  }

  /** The same request to the corrected handler records the end and reports 480 gross minutes. */
  lemma EndAtEndsRunningDay(day: string, start: string, end: string)
    requires day == IsoText(2024, 3, 4) && start == FormatHHMM(540) && end == FormatHHMM(1020)
    ensures
      var store := map[day := DayRecord(Some(start), None, 0, None)];
      && day in EndAt(map[], store, day, end, 0).store
      && EndAt(map[], store, day, end, 0).store[day].end == Some(end)
      && EndAt(map[], store, day, end, 0).reply.Ok?
      && EndAt(map[], store, day, end, 0).reply.value.summary.gross == 480
  {
    ParseIsoText(2024, 3, 4);
    ClockRoundTrip(540);
    ClockRoundTrip(1020);
    var store := map[day := DayRecord(Some(start), None, 0, None)];
    var ended := DayRecord(Some(start), Some(end), 0, None);
    NineToFiveSummary(day, start, end);
    assert EndAt(map[], store, day, end, 0) == Finish(map[], store[day := ended], day, 0);
  }

  /** The summary of 09:00 to 17:00 without a break under the default settings: 480 minutes. */
  lemma NineToFiveSummary(day: string, start: string, end: string)
    requires day == IsoText(2024, 3, 4) && start == FormatHHMM(540) && end == FormatHHMM(1020)
    ensures
      var r := ComputeDaySummary(map[], day, DayRecord(Some(start), Some(end), 0, None), 0);
      r.Ok? && r.value.gross == 480
  {
    ParseIsoText(2024, 3, 4);
    ClockRoundTrip(540);
    ClockRoundTrip(1020);
    DefaultsPass(map[]);
    var ended := DayRecord(Some(start), Some(end), 0, None);
    assert Span(Date(2024, 3, 4), ended, 0).Ok?;
  }

}

=== FILE: day_service.dfy ===
/** backend/services/day_service.py: `get_or_create_day` over the `work_day` table
    and `compute_day_summary`, the gross/net accounting of one day against the daily
    targets. The wall clock is the parameter `now`, an instant in whole seconds. */
module DayService {
  import opened Wrappers
  import opened Dates
  import opened TimeUtils
  import opened Settings

  /** A `work_day` row: start and end are stored as the text the client sent (or
      `now_hhmm` wrote), `break_minutes` is NOT NULL with default 0. */
  datatype DayRecord = DayRecord(start: Option<string>, end: Option<string>, breakMinutes: int, notes: Option<string>)

  /** The row `INSERT INTO work_day(date) VALUES (?)` creates. */
  const EmptyDay: DayRecord := DayRecord(None, None, 0, None)

  /** The `work_day` table, keyed by its `date` text. */
  type DayStore = map<string, DayRecord>

  /** Python truthiness of a nullable text column: present and not empty. */
  predicate Present(t: Option<string>) {
    t.Some? && t.value != ""
  }

  /** `get_or_create_day`: the stored row, or a fresh empty row inserted under the key. */
  function GetOrCreateDay(store: DayStore, key: string): (r: (DayStore, DayRecord))
    ensures key in r.0 && r.0[key] == r.1
    ensures key in store ==> r.0 == store && r.1 == store[key]
    ensures key !in store ==> r.1 == EmptyDay && r.0.Keys == store.Keys + {key}
    ensures forall k :: k in store ==> k in r.0 && r.0[k] == store[k]
  {
    if key in store then (store, store[key]) else (store[key := EmptyDay], EmptyDay)
  }

  /** The three daily statuses. */
  datatype DailyStatus = UnderSoft | BetweenSoftAndHard | OverHard

  /** The `status` block of a summary. */
  datatype StatusFigures = StatusFigures(
    daily: DailyStatus, overSoftBy: int, overHardBy: int, softRemaining: int, hardRemaining: int)

  /** The status block for `net` minutes against the daily targets. */
  function Classify(net: int, soft: int, hard: int): (f: StatusFigures)
    ensures f.daily == OverHard <==> net > hard
    ensures f.daily == BetweenSoftAndHard <==> soft < net <= hard
    ensures f.daily == UnderSoft <==> net <= soft && net <= hard
    ensures f.overSoftBy >= 0 && f.overHardBy >= 0 && f.softRemaining >= 0 && f.hardRemaining >= 0
    ensures f.softRemaining - f.overSoftBy == soft - net
    ensures f.hardRemaining - f.overHardBy == hard - net
    ensures f.softRemaining == 0 || f.overSoftBy == 0
    ensures f.hardRemaining == 0 || f.overHardBy == 0
    ensures f.overHardBy > 0 <==> f.daily == OverHard
  {
    var daily := if net > hard then OverHard else if net > soft then BetweenSoftAndHard else UnderSoft;
    StatusFigures(daily, Max0(net - soft), Max0(net - hard), Max0(soft - net), Max0(hard - net))
  }

  function Max0(x: int): (r: int)
    ensures r >= 0 && r >= x && (r == 0 || r == x)
  {
    if x > 0 then x else 0
  }

  /** What `compute_day_summary` returns. */
  datatype DaySummary = DaySummary(
    date: string, start: Option<string>, end: Option<string>, breakMinutes: int,
    gross: int, net: int, running: bool, soft: int, hard: int, status: StatusFigures)

  /** The worked span of a row on `day`, as (start instant, end instant, running):
      the end is the stored end time, or `now` while the day is running. */
  function Span(day: Date, row: DayRecord, now: int): (r: Result<(int, int, bool)>)
    requires ValidDate(day) && Present(row.start)
    ensures r.Ok? <==>
      ParseHHMM(row.start.value).Ok?
      && (Present(row.end) ==> ParseHHMM(row.end.value).Ok? && ParseHHMM(row.start.value).value <= ParseHHMM(row.end.value).value)
    ensures r.Err? ==> r.error == (if ParseHHMM(row.start.value).Ok? && Present(row.end) && ParseHHMM(row.end.value).Ok? then EndBeforeStart else InvalidTime)
    ensures r.Ok? ==> r.value.0 == InstantOf(day, 60 * ParseHHMM(row.start.value).value)
    ensures r.Ok? ==> r.value.2 == !Present(row.end)
    ensures r.Ok? && Present(row.end) ==> r.value.1 == InstantOf(day, 60 * ParseHHMM(row.end.value).value)
    ensures r.Ok? && !Present(row.end) ==> r.value.1 == now
  {
    var startDt :- DtFor(day, row.start.value);
    if Present(row.end) then
      var endDt :- DtFor(day, row.end.value);
      if endDt < startDt then Err(EndBeforeStart) else Ok((startDt, endDt, false))
    else Ok((startDt, now, true))
  }

  /** Gross minutes and the running flag: whole minutes of the span, floored and never
      negative; nothing at all without a start. */
  function Worked(day: Date, row: DayRecord, now: int): (r: Result<(int, bool)>)
    requires ValidDate(day)
    ensures !Present(row.start) ==> r == Ok((0, false))
    ensures Present(row.start) ==> r.Ok? == Span(day, row, now).Ok?
    ensures Present(row.start) && r.Err? ==> r.error == Span(day, row, now).error
    ensures r.Ok? && Present(row.start) ==>
      var span := Span(day, row, now).value;
      r.value.1 == span.2 && r.value.0 >= 0
      && (span.1 - span.0 >= 0 ==> r.value.0 * 60 <= span.1 - span.0 < r.value.0 * 60 + 60)
      && (span.1 - span.0 < 60 ==> r.value.0 == 0)
    ensures r.Ok? && Present(row.start) && Present(row.end) ==>
      r.value.0 == ParseHHMM(row.end.value).value - ParseHHMM(row.start.value).value
  {
    if Present(row.start) then
      var span :- Span(day, row, now);
      Ok((Max0((span.1 - span.0) / 60), span.2))
    else Ok((0, false))
  }

  /** What a successful summary says about the stored row: the targets in force, the
      row's own fields, the gross minutes and running flag of its span, net = gross less
      the break (never negative), and the status those figures give. */
  predicate SummaryOf(stored: SettingsStore, dayText: string, row: DayRecord, now: int, s: DaySummary) {
    && GetTargets(stored).Ok? && ParseDate(dayText).Ok?
    && s.soft == GetTargets(stored).value.dailySoft && s.hard == GetTargets(stored).value.dailyHard
    && s.date == dayText && s.start == row.start && s.end == row.end
    && s.breakMinutes == row.breakMinutes
    && (!Present(row.start) ==> s.gross == 0 && s.net == 0 && !s.running)
    && (Present(row.start) ==> s.running == !Present(row.end))
    && 0 <= s.net && 0 <= s.gross
    && (row.breakMinutes >= 0 ==> s.net <= s.gross)
    && (Present(row.start) ==> s.net == Max0(s.gross - row.breakMinutes))
    && Worked(ParseDate(dayText).value, row, now) == Ok((s.gross, s.running))
    && s.status == Classify(s.net, s.soft, s.hard)
  }

  /** `compute_day_summary`: targets first, then the date, then the stored times.
      Without a start nothing is worked; with a start and no end the day runs until
      `now`; gross is whole minutes of the span (never negative) and net is gross less
      the break (never negative). */
  function ComputeDaySummary(stored: SettingsStore, dayText: string, row: DayRecord, now: int): (r: Result<DaySummary>)
    ensures GetTargets(stored).Err? ==> r == Err(GetTargets(stored).error)
    ensures GetTargets(stored).Ok? && ParseDate(dayText).Err? ==> r == Err(InvalidDate)
    ensures GetTargets(stored).Ok? && ParseDate(dayText).Ok? ==>
      (r.Ok? <==> Worked(ParseDate(dayText).value, row, now).Ok?)
    ensures GetTargets(stored).Ok? && ParseDate(dayText).Ok? && Worked(ParseDate(dayText).value, row, now).Err? ==>
      r == Err(Worked(ParseDate(dayText).value, row, now).error)
    ensures r.Ok? ==> SummaryOf(stored, dayText, row, now, r.value)
  {
    match GetTargets(stored)
    case Err(e) => Err(e)
    case Ok(t) =>
      match ParseDate(dayText)
      case Err(e) => Err(e)
      case Ok(day) =>
        match Worked(day, row, now)
        case Err(e) => Err(e)
        case Ok((gross, running)) =>
          var net := if Present(row.start) then Max0(gross - row.breakMinutes) else 0;
          Ok(DaySummary(dayText, row.start, row.end, row.breakMinutes, gross, net, running,
                        t.dailySoft, t.dailyHard, Classify(net, t.dailySoft, t.dailyHard)))
  }

  /** A finished day whose times read and are in order is always summarised: gross is
      the minutes from start to end, it is not running, and net is gross less the break. */
  lemma FinishedDaySummarised(stored: SettingsStore, dayText: string, row: DayRecord, now: int)
    requires GetTargets(stored).Ok? && ParseDate(dayText).Ok?
    requires Present(row.start) && Present(row.end)
    requires ParseHHMM(row.start.value).Ok? && ParseHHMM(row.end.value).Ok?
    requires ParseHHMM(row.start.value).value <= ParseHHMM(row.end.value).value
    ensures var r := ComputeDaySummary(stored, dayText, row, now);
      && r.Ok? && !r.value.running
      && r.value.gross == ParseHHMM(row.end.value).value - ParseHHMM(row.start.value).value
      && r.value.net == Max0(r.value.gross - row.breakMinutes)
  {
  }

  /** A second `get_or_create_day` on the same key changes nothing and returns the same row. */
  lemma GetOrCreateIdempotent(store: DayStore, key: string)
    ensures GetOrCreateDay(GetOrCreateDay(store, key).0, key) == GetOrCreateDay(store, key)
  {
  }

  /** While a day runs, the clock only adds: a later `now` gives at least as many gross
      and net minutes, and the same verdict on errors. */
  lemma RunningNetMonotone(stored: SettingsStore, dayText: string, row: DayRecord, now1: int, now2: int)
    requires now1 <= now2 && !Present(row.end)
    ensures ComputeDaySummary(stored, dayText, row, now1).Ok? == ComputeDaySummary(stored, dayText, row, now2).Ok?
    ensures ComputeDaySummary(stored, dayText, row, now1).Ok? ==>
      && ComputeDaySummary(stored, dayText, row, now1).value.gross <= ComputeDaySummary(stored, dayText, row, now2).value.gross
      && ComputeDaySummary(stored, dayText, row, now1).value.net <= ComputeDaySummary(stored, dayText, row, now2).value.net
  {
    if ComputeDaySummary(stored, dayText, row, now1).Ok? && Present(row.start) {
      var day := ParseDate(dayText).value;
      var s1 := Span(day, row, now1).value;
      var s2 := Span(day, row, now2).value;
      assert s1.0 == s2.0;
      DivMonotone(s1.1 - s1.0, s2.1 - s2.0);
    }
  }

  lemma DivMonotone(a: int, b: int)
    requires a <= b
    ensures a / 60 <= b / 60
  {
  }

  /** A longer break never raises the net minutes, and changes nothing else about success. */
  lemma NetAntitoneInBreak(stored: SettingsStore, dayText: string, row: DayRecord, more: int, now: int)
    requires row.breakMinutes <= more
    ensures ComputeDaySummary(stored, dayText, row, now).Ok? == ComputeDaySummary(stored, dayText, row.(breakMinutes := more), now).Ok?
    ensures ComputeDaySummary(stored, dayText, row, now).Ok? ==>
      && ComputeDaySummary(stored, dayText, row.(breakMinutes := more), now).value.gross == ComputeDaySummary(stored, dayText, row, now).value.gross
      && ComputeDaySummary(stored, dayText, row.(breakMinutes := more), now).value.net <= ComputeDaySummary(stored, dayText, row, now).value.net
  {
    if ComputeDaySummary(stored, dayText, row, now).Ok? && Present(row.start) {
      var day := ParseDate(dayText).value;
      assert Span(day, row, now) == Span(day, row.(breakMinutes := more), now);
    }
  }

  /** A finished day's summary does not depend on the clock. */
  lemma FinishedIgnoresNow(stored: SettingsStore, dayText: string, row: DayRecord, now1: int, now2: int)
    requires Present(row.end)
    ensures ComputeDaySummary(stored, dayText, row, now1) == ComputeDaySummary(stored, dayText, row, now2)
  {
    if GetTargets(stored).Ok? && ParseDate(dayText).Ok? {
      var day := ParseDate(dayText).value;
      WorkedIgnoresNow(day, row, now1, now2);
      var r1, r2 := ComputeDaySummary(stored, dayText, row, now1), ComputeDaySummary(stored, dayText, row, now2);
      if Worked(day, row, now1).Ok? {
        assert r1.Ok? && r2.Ok?;
        assert r1.value == r2.value;
      } else {
        assert r1 == Err(Worked(day, row, now1).error);
      }
    }
  }

  lemma WorkedIgnoresNow(day: Date, row: DayRecord, now1: int, now2: int)
    requires ValidDate(day) && Present(row.end)
    ensures Worked(day, row, now1) == Worked(day, row, now2)
  {
    if Present(row.start) {
      assert Span(day, row, now1) == Span(day, row, now2);
    }
  }

  /** A stored end earlier than the stored start is refused once the targets and the date are good. */
  lemma EndBeforeStartRefused(stored: SettingsStore, dayText: string, row: DayRecord, now: int)
    requires GetTargets(stored).Ok? && ParseDate(dayText).Ok?
    requires Present(row.start) && Present(row.end)
    requires ParseHHMM(row.start.value).Ok? && ParseHHMM(row.end.value).Ok?
    requires ParseHHMM(row.end.value).value < ParseHHMM(row.start.value).value
    ensures ComputeDaySummary(stored, dayText, row, now) == Err(EndBeforeStart)
  {
  }
}

=== FILE: digits.dfy ===
/** Decimal text: the digit strings that Python's int()/str()/strftime and
    JavaScript's String()/padStart produce and read. ASCII digits only. */
module Digits {
  import opened Wrappers

  predicate IsDigit(c: char) {
    '0' <= c <= '9'
  }

  predicate AllDigits(s: string) {
    forall i :: 0 <= i < |s| ==> IsDigit(s[i])
  }

  function DigitValue(c: char): nat
    requires IsDigit(c)
  {
    (c as int) - ('0' as int)
  }

  function DigitChar(k: int): (c: char)
    requires 0 <= k <= 9
    ensures IsDigit(c) && DigitValue(c) == k
  {
    (('0' as int) + k) as char
  }

  function Pow10(w: nat): (p: nat)
    ensures p >= 1
  {
    if w == 0 then 1 else 10 * Pow10(w - 1)
  }

  /** The number a digit string denotes; leading zeros are allowed, "" denotes 0. */
  function DecimalValue(s: string): nat
    requires AllDigits(s)
  {
    if |s| == 0 then 0 else DecimalValue(s[..|s| - 1]) * 10 + DigitValue(s[|s| - 1])
  }

  /** Shortest decimal spelling of a natural number (`str(n)`, `String(n)`). */
  function NatToDecimal(n: nat): (s: string)
    ensures AllDigits(s) && |s| >= 1
    ensures |s| > 1 ==> s[0] != '0'
  {
    if n < 10 then [DigitChar(n)] else NatToDecimal(n / 10) + [DigitChar(n % 10)]
  }

  /** The last `w` decimal digits of `n`, zero-padded (`%02d`, `%04d` for small enough `n`). */
  function FixedWidth(n: nat, w: nat): (s: string)
    ensures |s| == w && AllDigits(s)
  {
    if w == 0 then [] else FixedWidth(n / 10, w - 1) + [DigitChar(n % 10)]
  }

  /** `s.padStart(width, c)` in JavaScript (and `%0Nd` padding in Python). */
  function PadStart(s: string, width: nat, c: char): (r: string)
    ensures |r| == if |s| >= width then |s| else width
    ensures r[|r| - |s|..] == s
    ensures forall i :: 0 <= i < |r| - |s| ==> r[i] == c
  {
    if |s| >= width then s else seq(width - |s|, _ => c) + s
  }

  /** Decimal text of an integer with a leading '-' when negative (`str(n)`, `String(n)`). */
  function IntToString(n: int): (s: string)
    ensures |s| >= 1 && (s[0] == '-' <==> n < 0)
    ensures var digits := if n < 0 then s[1..] else s;
      && |digits| >= 1 && AllDigits(digits) && (|digits| > 1 ==> digits[0] != '0')
      && DecimalValue(digits) == if n < 0 then -n else n
  {
    NatToDecimalRoundTrip(if n < 0 then -n else n);
    if n < 0 then "-" + NatToDecimal(-n) else NatToDecimal(n)
  }

  /** Python's int() on text: an optional sign followed by at least one digit.
      Surrounding whitespace and digit-group underscores, which int() also accepts,
      never occur in the values this model stores. */
  function ParseInt(s: string): (r: Option<int>)
    ensures r.Some? ==> |s| >= 1
    ensures r.Some? <==> (|s| >= 1 && AllDigits(s)) || (|s| >= 2 && (s[0] == '-' || s[0] == '+') && AllDigits(s[1..]))
    ensures |s| >= 1 && AllDigits(s) ==> r == Some(DecimalValue(s) as int)
    ensures |s| >= 2 && s[0] == '+' && AllDigits(s[1..]) ==> r == Some(DecimalValue(s[1..]) as int)
    ensures |s| >= 2 && s[0] == '-' && AllDigits(s[1..]) ==> r == Some(0 - DecimalValue(s[1..]) as int)
  {
    if |s| >= 2 && (s[0] == '-' || s[0] == '+') && AllDigits(s[1..]) then
      Some(if s[0] == '-' then 0 - DecimalValue(s[1..]) as int else DecimalValue(s[1..]) as int)
    else if |s| >= 1 && AllDigits(s) then Some(DecimalValue(s))
    else None
  }

  lemma {:induction false} DecimalValueBound(s: string)
    requires AllDigits(s)
    ensures DecimalValue(s) < Pow10(|s|)
    decreases |s|
  {
    if |s| > 0 {
      DecimalValueBound(s[..|s| - 1]);
    }
  }

  /** Reading back the shortest spelling gives the number. */
  lemma {:induction false} NatToDecimalRoundTrip(n: nat)
    ensures DecimalValue(NatToDecimal(n)) == n
    decreases n
  {
    if n >= 10 {
      var s := NatToDecimal(n);
      NatToDecimalRoundTrip(n / 10);
      assert s[..|s| - 1] == NatToDecimal(n / 10);
    }
  }

  /** Reading back a zero-padded spelling gives the number when it fits the width. */
  lemma {:induction false} FixedWidthRoundTrip(n: nat, w: nat)
    requires n < Pow10(w)
    ensures DecimalValue(FixedWidth(n, w)) == n
    decreases w
  {
    if w > 0 {
      var s := FixedWidth(n, w);
      assert s[..|s| - 1] == FixedWidth(n / 10, w - 1);
      FixedWidthRoundTrip(n / 10, w - 1);
    }
  }

  /** Two digit strings of one length that denote the same number are the same string. */
  lemma {:induction false} DigitStringsInjective(a: string, b: string)
    requires AllDigits(a) && AllDigits(b) && |a| == |b|
    requires DecimalValue(a) == DecimalValue(b)
    ensures a == b
    decreases |a|
  {
    if |a| > 0 {
      var n := |a| - 1;
      assert DigitValue(a[n]) == DecimalValue(a) % 10;
      assert DigitValue(b[n]) == DecimalValue(b) % 10;
      DigitStringsInjective(a[..n], b[..n]);
      assert a == a[..n] + [a[n]];
      assert b == b[..n] + [b[n]];
    }
  }

  /** Leading zeros do not change the value. */
  lemma {:induction false} LeadingZerosValue(z: nat, s: string)
    requires AllDigits(s)
    ensures AllDigits(seq(z, _ => '0') + s)
    ensures DecimalValue(seq(z, _ => '0') + s) == DecimalValue(s)
    decreases |s|
  {
    var t := seq(z, _ => '0') + s;
    if |s| == 0 {
      ZerosValue(z);
      assert t == seq(z, _ => '0');
    } else {
      var n := |s| - 1;
      assert t[..|t| - 1] == seq(z, _ => '0') + s[..n];
      LeadingZerosValue(z, s[..n]);
    }
  }

  lemma {:induction false} ZerosValue(z: nat)
    ensures AllDigits(seq(z, _ => '0'))
    ensures DecimalValue(seq(z, _ => '0')) == 0
    decreases z
  {
    if z > 0 {
      assert seq(z, _ => '0')[..z - 1] == seq(z - 1, _ => '0');
      ZerosValue(z - 1);
    }
  }

  /** The shortest spelling is never longer than the width needed for the number. */
  lemma {:induction false} NatToDecimalLength(n: nat, w: nat)
    ensures n < Pow10(w) ==> |NatToDecimal(n)| <= if w == 0 then 1 else w
    ensures n >= Pow10(w) ==> |NatToDecimal(n)| > w
    decreases n
  {
    if n >= 10 && w > 0 {
      NatToDecimalLength(n / 10, w - 1);
    }
  }

  /** Zero-padding the shortest spelling gives the fixed-width spelling (`padStart` == `%0wd`). */
  lemma PadStartIsFixedWidth(n: nat, w: nat)
    requires n < Pow10(w) && w >= 1
    ensures PadStart(NatToDecimal(n), w, '0') == FixedWidth(n, w)
  {
    var s := NatToDecimal(n);
    NatToDecimalLength(n, w);
    var p := PadStart(s, w, '0');
    assert p == seq(w - |s|, _ => '0') + s;
    LeadingZerosValue(w - |s|, s);
    NatToDecimalRoundTrip(n);
    FixedWidthRoundTrip(n, w);
    DigitStringsInjective(p, FixedWidth(n, w));
  }

  /** Python's int() reads back str(n) for every integer. */
  lemma IntRoundTrip(n: int)
    ensures ParseInt(IntToString(n)) == Some(n)
  {
    var s := IntToString(n);
    if n < 0 {
      var t := NatToDecimal(-n);
      assert s[1..] == t && s[0] == '-' && |s| >= 2;
      NatToDecimalRoundTrip(-n);
      assert ParseInt(s) == Some(0 - DecimalValue(t) as int);
    } else {
      assert IsDigit(s[0]) && AllDigits(s);
      NatToDecimalRoundTrip(n);
      assert ParseInt(s) == Some(DecimalValue(s) as int);
    }
  }
}

=== FILE: frontend_time.dfy ===
/** frontend/src/time.js: `pad2`, the "Hh Mm" duration text, and the live net minutes
    of a running day. The browser clock is a parameter: milliseconds since local midnight. */
module FrontendTime {
  import opened Wrappers
  import opened Digits
  import opened Dates
  import opened TimeUtils
  import opened Settings
  import opened DayService

  /** `pad2(n)`: String(n).padStart(2, "0"). */
  function Pad2(n: int): (s: string)
    ensures |s| >= 2
    ensures |IntToString(n)| >= 2 ==> s == IntToString(n)
    ensures 0 <= n < 100 ==> s == FixedWidth(n, 2)
  {
    if 0 <= n < 100 then
      PadStartIsFixedWidth(n, 2);
      PadStart(IntToString(n), 2, '0')
    else PadStart(IntToString(n), 2, '0')
  }

  /** JavaScript's `%`: the remainder takes the sign of the dividend. */
  function JsRem(a: int, b: int): (r: int)
    requires b > 0
    ensures a >= 0 ==> r == a % b
    ensures a < 0 ==> -b < r <= 0 && a == b * -((-a) / b) + r
  {
    if a >= 0 then a % b
    else
      var q, rr := (-a) / b, (-a) % b;
      assert -a == b * q + rr;
      -rr
  }

  /** Hours and minutes of a duration: Math.floor(mins / 60) and mins % 60. */
  function SplitMinutes(mins: int): (hm: (int, int))
    ensures mins >= 0 ==> hm.0 >= 0 && 0 <= hm.1 < 60 && hm.0 * 60 + hm.1 == mins
  {
    (mins / 60, JsRem(mins, 60))
  }

  /** `minutesToHHMM`: "Mm" under an hour, "Hh" on the hour, "Hh Mm" otherwise. A
      negative duration prints a negative hour and a negative minute part. */
  function MinutesToHHMM(mins: int): (s: string)
    ensures SplitMinutes(mins).0 == 0 ==> s == IntToString(SplitMinutes(mins).1) + "m"
    ensures SplitMinutes(mins).0 != 0 && SplitMinutes(mins).1 == 0 ==> s == IntToString(SplitMinutes(mins).0) + "h"
    ensures SplitMinutes(mins).0 != 0 && SplitMinutes(mins).1 != 0 ==>
      s == IntToString(SplitMinutes(mins).0) + "h " + IntToString(SplitMinutes(mins).1) + "m"
  {
    var (h, m) := SplitMinutes(mins);
    if h == 0 then IntToString(m) + "m"
    else if m == 0 then IntToString(h) + "h"
    else IntToString(h) + "h " + IntToString(m) + "m"
  }

  /** The first index of `c` in `s`, or |s| when it does not occur. */
  function IndexOf(s: string, c: char): (k: nat)
    ensures k <= |s|
    ensures forall i :: 0 <= i < k ==> s[i] != c
    ensures k < |s| ==> s[k] == c
  {
    if |s| == 0 then 0 else if s[0] == c then 0 else 1 + IndexOf(s[1..], c)
  }

  /** Reads a duration text back: the inverse of `MinutesToHHMM` on non-negative durations. */
  function ReadHHMM(s: string): (r: Option<int>)
  {
    if |s| >= 2 && s[|s| - 1] == 'h' then
      match ParseInt(s[..|s| - 1])
      case Some(h) => Some(h * 60)
      case None => None
    else if |s| >= 2 && s[|s| - 1] == 'm' then
      var body := s[..|s| - 1];
      var k := IndexOf(body, 'h');
      if k == |body| then ParseInt(body)
      else if k + 1 < |body| && body[k + 1] == ' ' then
        match (ParseInt(body[..k]), ParseInt(body[k + 2..]))
        case (Some(h), Some(m)) => Some(h * 60 + m)
        case _ => None
      else None
    else None
  }

  /** Decimal text holds neither 'h' nor 'm' nor ' '. */
  lemma IntTextHasNoUnit(n: int)
    ensures forall i :: 0 <= i < |IntToString(n)| ==> IntToString(n)[i] !in {'h', 'm', ' '}
    ensures |IntToString(n)| >= 1
  {
    var s := IntToString(n);
    if n < 0 {
      forall i | 0 <= i < |s|
        ensures s[i] !in {'h', 'm', ' '}
      {
        if i > 0 {
          assert s[i] == NatToDecimal(-n)[i - 1];
        }
      }
    }
  }

  /** The duration text of a non-negative duration reads back as that duration. */
  lemma HHMMRoundTrip(mins: int)
    requires mins >= 0
    ensures ReadHHMM(MinutesToHHMM(mins)) == Some(mins)
  {
    var (h, m) := SplitMinutes(mins);
    IntTextHasNoUnit(h);
    IntTextHasNoUnit(m);
    IntRoundTrip(h);
    IntRoundTrip(m);
    var hs, ms := IntToString(h), IntToString(m);
    if h == 0 {
      ReadMinutesText(ms, m);
    } else if m == 0 {
      ReadHoursText(hs, h);
    } else {
      ReadBothText(hs, ms, h, m);
      assert MinutesToHHMM(mins) == hs + "h " + ms + "m";
    }
  }

  /** Text with no unit letters and no space, which int() reads as `n`. */
  predicate UnitFree(s: string, n: int) {
    && |s| >= 1
    && ParseInt(s) == Some(n)
    && forall i :: 0 <= i < |s| ==> s[i] !in {'h', 'm', ' '}
  }

  lemma ReadMinutesText(ms: string, m: int)
    requires UnitFree(ms, m)
    ensures ReadHHMM(ms + "m") == Some(m)
  {
    var s := ms + "m";
    assert s[..|s| - 1] == ms;
    NoIndex(ms, 'h');
  }

  lemma ReadHoursText(hs: string, h: int)
    requires UnitFree(hs, h)
    ensures ReadHHMM(hs + "h") == Some(h * 60)
  {
    var s := hs + "h";
    assert s[..|s| - 1] == hs;
  }

  lemma ReadBothText(hs: string, ms: string, h: int, m: int)
    requires UnitFree(hs, h) && UnitFree(ms, m)
    ensures ReadHHMM(hs + "h " + ms + "m") == Some(h * 60 + m)
  {
    var body := hs + "h " + ms;
    var s := body + "m";
    assert hs + "h " + ms + "m" == s;
    assert s[..|s| - 1] == body;
    assert body == hs + ("h " + ms);
    FirstIndex(hs, "h " + ms, 'h');
    assert body[..|hs|] == hs;
    assert body[|hs| + 2..] == ms;
    assert body[|hs| + 1] == ' ' && |hs| + 1 < |body|;
  }

  lemma {:induction false} NoIndex(s: string, c: char)
    requires forall i :: 0 <= i < |s| ==> s[i] != c
    ensures IndexOf(s, c) == |s|
    decreases |s|
  {
    if |s| > 0 {
      NoIndex(s[1..], c);
    }
  }

  lemma {:induction false} FirstIndex(a: string, b: string, c: char)
    requires forall i :: 0 <= i < |a| ==> a[i] != c
    requires |b| > 0 && b[0] == c
    ensures IndexOf(a + b, c) == |a|
    decreases |a|
  {
    if |a| > 0 {
      assert (a + b)[1..] == a[1..] + b;
      FirstIndex(a[1..], b, c);
    }
  }

  /** Two non-negative durations never print the same. */
  lemma HHMMInjective(a: int, b: int)
    requires a >= 0 && b >= 0 && MinutesToHHMM(a) == MinutesToHHMM(b)
    ensures a == b
  {
    HHMMRoundTrip(a);
    HHMMRoundTrip(b);
  }

  /** `computeNetMinutesLive(startHHMM, breakMinutes)` at `nowMs` milliseconds after local
      midnight: no start gives 0; otherwise whole minutes since the start today, never
      negative, less the break (a null break counts as 0), never negative. */
  function ComputeNetMinutesLive(start: Option<string>, breakMinutes: Option<int>, nowMs: int): (r: int)
    requires Present(start) ==> ParseHHMM(start.value).Ok?
    ensures r >= 0
    ensures !Present(start) ==> r == 0
    ensures Present(start) && breakMinutes.GetOr(0) >= 0 && nowMs >= ParseHHMM(start.value).value * 60000 ==>
      r * 60000 <= nowMs - ParseHHMM(start.value).value * 60000
  {
    if !Present(start) then 0
    else
      var startMs := ParseHHMM(start.value).value * 60000;
      var q := (nowMs - startMs) / 60000;
      assert nowMs - startMs >= 0 ==> q * 60000 <= nowMs - startMs;
      var gross := Max0(q);
      Max0(gross - breakMinutes.GetOr(0))
  }

  /** The live net never goes down as the clock moves on. */
  lemma LiveNetMonotoneInNow(start: Option<string>, breakMinutes: Option<int>, now1: int, now2: int)
    requires Present(start) ==> ParseHHMM(start.value).Ok?
    requires now1 <= now2
    ensures ComputeNetMinutesLive(start, breakMinutes, now1) <= ComputeNetMinutesLive(start, breakMinutes, now2)
  {
    if Present(start) {
      var startMs := ParseHHMM(start.value).value * 60000;
      MillisDivMonotone(now1 - startMs, now2 - startMs);
    }
  }

  lemma MillisDivMonotone(a: int, b: int)
    requires a <= b
    ensures a / 60000 <= b / 60000
  {
  }

  /** A longer break never gives a larger live net. */
  lemma LiveNetAntitoneInBreak(start: Option<string>, b1: int, b2: int, nowMs: int)
    requires Present(start) ==> ParseHHMM(start.value).Ok?
    requires b1 <= b2
    ensures ComputeNetMinutesLive(start, Some(b2), nowMs) <= ComputeNetMinutesLive(start, Some(b1), nowMs)
  {
  }

  /** A null break and a zero break give the same live net. */
  lemma NullBreakIsZero(start: Option<string>, nowMs: int)
    requires Present(start) ==> ParseHHMM(start.value).Ok?
    ensures ComputeNetMinutesLive(start, None, nowMs) == ComputeNetMinutesLive(start, Some(0), nowMs)
  {
  }

  /** The browser's live net agrees with the net the backend reports for the same running
      day at the same moment: second `s` (and `ms` milliseconds) of that day. */
  lemma LiveNetMatchesBackend(stored: SettingsStore, day: Date, row: DayRecord, s: int, ms: int)
    requires GetTargets(stored).Ok? && ValidDate(day) && day.year <= 9999
    requires Present(row.start) && ParseHHMM(row.start.value).Ok? && !Present(row.end)
    requires 0 <= s < 86400 && 0 <= ms < 1000
    ensures ComputeDaySummary(stored, Iso(day), row, InstantOf(day, s)).Ok?
    ensures ComputeDaySummary(stored, Iso(day), row, InstantOf(day, s)).value.net
         == ComputeNetMinutesLive(row.start, Some(row.breakMinutes), 1000 * s + ms)
  {
    IsoRoundTrip(day);
    var t: int := ParseHHMM(row.start.value).value;
    var diff: int := s - 60 * t;
    var r := ComputeDaySummary(stored, Iso(day), row, InstantOf(day, s));
    assert Worked(day, row, InstantOf(day, s)).Ok?;
    assert r.value.gross == Max0(diff / 60) by {
      assert Span(day, row, InstantOf(day, s)).value.1 - Span(day, row, InstantOf(day, s)).value.0 == diff;
    }
    MillisFloor(diff, ms);
  }

  /** Milliseconds below one second never change the whole minutes. */
  lemma MillisFloor(diff: int, ms: int)
    requires 0 <= ms < 1000
    ensures (1000 * diff + ms) / 60000 == diff / 60
  {
    var q := diff / 60;
    var rem := diff % 60;
    assert diff == 60 * q + rem && 0 <= rem < 60;
    assert 1000 * diff + ms == 60000 * q + (1000 * rem + ms);
    assert 0 <= 1000 * rem + ms < 60000;
  }
}

=== FILE: holidays_panel.dfy ===
/** frontend/src/components/HolidaysPanel.jsx: the year grid. Every date of the year is
    listed in order, split by month, each month's first cell placed under its weekday,
    and each cell coloured by the lists of official and personal holidays. */
module HolidaysPanel {
  import opened Dates
  import opened TimeUtils

  /** The year `new Date(year, month, 1)` lands in: JavaScript reads 0 .. 99 as 1900 .. 1999. */
  function JsYear(year: int): (y: int)
    ensures 0 <= year <= 99 ==> y == 1900 + year
    ensures !(0 <= year <= 99) ==> y == year
  {
    if 0 <= year <= 99 then 1900 + year else year
  }

  /** `date.setDate(date.getDate() + 1)`: the next calendar day, across month and year ends. */
  function NextDay(d: Date): (e: Date)
    requires ValidDate(d)
    ensures ValidDate(e) && Ordinal(e) == Ordinal(d) + 1
    ensures d.day < DaysInMonth(d.year, d.month) ==> e == Date(d.year, d.month, d.day + 1)
    ensures d.day == DaysInMonth(d.year, d.month) ==> e.day == 1 && e.month != d.month
  {
    if d.day < DaysInMonth(d.year, d.month) then Date(d.year, d.month, d.day + 1)
    else if d.month < 12 then
      DaysBeforeMonthStep(d.year, d.month);
      Date(d.year, d.month + 1, 1)
    else
      DaysBeforeYearStep(d.year);
      YearIsTwelveMonths(d.year);
      Date(d.year + 1, 1, 1)
  }

  /** Day `d` of month `m` sits at position `DaysBeforeMonth + d - 1` of the year's dates. */
  lemma YearDateAt(y: int, m: int, d: int)
    requires ValidDate(Date(y, m, d))
    ensures 0 <= DaysBeforeMonth(y, m) + d - 1 < |YearDates(y)|
    ensures YearDates(y)[DaysBeforeMonth(y, m) + d - 1] == Date(y, m, d)
  {
    DayOfYearInRange(Date(y, m, d));
    var k := DaysBeforeMonth(y, m) + d - 1;
    var r := YearDates(y);
    YearIsTwelveMonths(y);
    assert r == DateRange(Date(y, 1, 1), Date(y, 12, 31));
    assert Ordinal(r[k]) == Ordinal(Date(y, 1, 1)) + k;
    OrdinalOrder(r[k], Date(y, m, d));
  }

  /** `getDaysInYear(year)`: for each month, from its 1st, step a day at a time while the
      month stays the same. The result is every date of the year, in order. */
  method GetDaysInYear(year: int) returns (days: seq<Date>)
    requires JsYear(year) >= 1
    ensures days == YearDates(JsYear(year))
  {
    var y := JsYear(year);
    days := [];
    YearIsTwelveMonths(y);
    var month := 0;
    while month < 12
      invariant 0 <= month <= 12
      invariant |days| == DaysBeforeMonth(y, month + 1) <= |YearDates(y)|
      invariant days == YearDates(y)[..|days|]
    {
      days := AppendMonth(y, month + 1, days);
      month := month + 1;
    }
  }

  /** The inner loop of `getDaysInYear`: the dates of month `m`, appended one by one. */
  method AppendMonth(y: int, m: int, before: seq<Date>) returns (days: seq<Date>)
    requires y >= 1 && 1 <= m <= 12
    requires |before| == DaysBeforeMonth(y, m) && before == YearDates(y)[..|before|]
    ensures |days| == DaysBeforeMonth(y, m + 1) <= |YearDates(y)|
    ensures days == YearDates(y)[..|days|]
  {
    days := before;
    var date := Date(y, m, 1);
    ghost var k := 0;
    while date.month == m
      invariant 0 <= k <= DaysInMonth(y, m)
      invariant date.month == m ==> date == Date(y, m, k + 1)
      invariant date.month != m ==> k == DaysInMonth(y, m)
      invariant ValidDate(date)
      invariant |days| == DaysBeforeMonth(y, m) + k
      invariant days == YearDates(y)[..|days|]
      decreases DaysInMonth(y, m) - k
    {
      AppendStep(y, m, k, days);
      days := days + [date];
      date := NextDay(date);
      k := k + 1;
    }
    DaysBeforeMonthStep(y, m);
    DaysBeforeMonthMonotone(y, m, 13);
    YearIsTwelveMonths(y);
  }

  lemma PrefixStep<T>(s: seq<T>, n: int)
    requires 0 <= n < |s|
    ensures s[..n] + [s[n]] == s[..n + 1]
  {
  }

  /** One turn of the inner loop keeps the list a prefix of the year's dates. */
  lemma AppendStep(y: int, m: int, k: int, days: seq<Date>)
    requires y >= 1 && 1 <= m <= 12 && 0 <= k < DaysInMonth(y, m)
    requires |days| == DaysBeforeMonth(y, m) + k && days == YearDates(y)[..|days|]
    ensures |days| < |YearDates(y)|
    ensures days + [Date(y, m, k + 1)] == YearDates(y)[..|days| + 1]
  {
    var r := YearDates(y);
    var n := |days|;
    YearDateAt(y, m, k + 1);
    assert r[n] == Date(y, m, k + 1);
    PrefixStep(r, n);
  }

  /** `days.filter(d => d.getMonth() === month)`, with months numbered from 1. */
  function InMonth(s: seq<Date>, m: int): (r: seq<Date>)
    ensures |r| <= |s|
    ensures forall i :: 0 <= i < |r| ==> r[i].month == m
  {
    if |s| == 0 then []
    else (if s[0].month == m then [s[0]] else []) + InMonth(s[1..], m)
  }

  lemma {:induction false} InMonthAppend(a: seq<Date>, b: seq<Date>, m: int)
    ensures InMonth(a + b, m) == InMonth(a, m) + InMonth(b, m)
    decreases |a|
  {
    if |a| > 0 {
      assert (a + b)[1..] == a[1..] + b;
      InMonthAppend(a[1..], b, m);
    } else {
      assert a + b == b;
    }
  }

  lemma {:induction false} InMonthAll(s: seq<Date>, m: int)
    requires forall i :: 0 <= i < |s| ==> s[i].month == m
    ensures InMonth(s, m) == s
    decreases |s|
  {
    if |s| > 0 {
      InMonthAll(s[1..], m);
    }
  }

  lemma {:induction false} InMonthNone(s: seq<Date>, m: int)
    requires forall i :: 0 <= i < |s| ==> s[i].month != m
    ensures InMonth(s, m) == []
    decreases |s|
  {
    if |s| > 0 {
      InMonthNone(s[1..], m);
    }
  }

  /** The dates of the year before month `m` lie in earlier months, those after it in later ones. */
  lemma MonthOfPosition(y: int, m: int, j: int)
    requires y >= 1 && 1 <= m <= 12 && 0 <= j < |YearDates(y)|
    ensures j < DaysBeforeMonth(y, m) ==> YearDates(y)[j].month < m
    ensures j >= DaysBeforeMonth(y, m + 1) ==> YearDates(y)[j].month > m
  {
    YearDatesPosition(y, j);
    MonthOfOrdinal(YearDates(y)[j], m, j);
  }

  /** A date that is day j + 1 of its year lies before month `m` when j is below the days
      before `m`, and after it when j reaches the days before m + 1. */
  lemma MonthOfOrdinal(d: Date, m: int, j: int)
    requires ValidDate(d) && d.year >= 1 && 1 <= m <= 12
    requires Ordinal(d) == DaysBeforeYear(d.year) + 1 + j
    ensures j < DaysBeforeMonth(d.year, m) ==> d.month < m
    ensures j >= DaysBeforeMonth(d.year, m + 1) ==> d.month > m
  {
    var y := d.year;
    if j < DaysBeforeMonth(y, m) && d.month >= m {
      if d.month > m {
        DaysBeforeMonthMonotone(y, m, d.month);
      }
    }
    if j >= DaysBeforeMonth(y, m + 1) && d.month <= m {
      if d.month < m {
        DaysBeforeMonthMonotone(y, d.month, m);
      }
      DaysBeforeMonthStep(y, m);
    }
  }


  /** Each month's slice of the year (`monthDays`) is exactly that month's dates, 1st first. */
  lemma MonthSlice(y: int, m: int)
    requires y >= 1 && 1 <= m <= 12
    ensures InMonth(YearDates(y), m) == MonthDates(y, m)
  {
    MonthBounds(y, m);
    OutsideMonth(y, m);
    MonthBlock(y, m);
    InMonthOfBlock(YearDates(y), DaysBeforeMonth(y, m), DaysBeforeMonth(y, m + 1), MonthDates(y, m), m);
  }

  /** Filtering a list whose only days of month `m` form the block `lo .. hi` gives that block. */
  lemma InMonthOfBlock(r: seq<Date>, lo: int, hi: int, block: seq<Date>, m: int)
    requires 0 <= lo <= hi <= |r| && r[lo..hi] == block
    requires InMonth(r[..lo], m) == [] && InMonth(r[hi..], m) == []
    requires forall i :: 0 <= i < |block| ==> block[i].month == m
    ensures InMonth(r, m) == block
  {
    var a, c := r[..lo], r[hi..];
    assert r == a + block + c;
    InMonthAppend(a + block, c, m);
    InMonthAppend(a, block, m);
    InMonthAll(block, m);
  }

  lemma MonthBounds(y: int, m: int)
    requires y >= 1 && 1 <= m <= 12
    ensures 0 <= DaysBeforeMonth(y, m) <= DaysBeforeMonth(y, m + 1) <= |YearDates(y)|
    ensures DaysBeforeMonth(y, m + 1) - DaysBeforeMonth(y, m) == DaysInMonth(y, m)
  {
    YearIsTwelveMonths(y);
    DaysBeforeMonthStep(y, m);
    DaysBeforeMonthMonotone(y, m, 13);
    if m > 1 {
      DaysBeforeMonthMonotone(y, 1, m);
    }
  }

  /** The dates before and after month `m`'s block hold none of its days. */
  lemma OutsideMonth(y: int, m: int)
    requires y >= 1 && 1 <= m <= 12
    requires 0 <= DaysBeforeMonth(y, m) <= DaysBeforeMonth(y, m + 1) <= |YearDates(y)|
    ensures InMonth(YearDates(y)[..DaysBeforeMonth(y, m)], m) == []
    ensures InMonth(YearDates(y)[DaysBeforeMonth(y, m + 1)..], m) == []
  {
    var r := YearDates(y);
    var a, c := r[..DaysBeforeMonth(y, m)], r[DaysBeforeMonth(y, m + 1)..];
    forall i | 0 <= i < |a| ensures a[i].month != m {
      MonthOfPosition(y, m, i);
    }
    forall i | 0 <= i < |c| ensures c[i].month != m {
      MonthOfPosition(y, m, DaysBeforeMonth(y, m + 1) + i);
    }
    InMonthNone(a, m);
    InMonthNone(c, m);
  }

  /** Month `m`'s block of the year's dates is that month's dates. */
  lemma MonthBlock(y: int, m: int)
    requires y >= 1 && 1 <= m <= 12
    requires 0 <= DaysBeforeMonth(y, m) <= DaysBeforeMonth(y, m + 1) <= |YearDates(y)|
    requires DaysBeforeMonth(y, m + 1) - DaysBeforeMonth(y, m) == DaysInMonth(y, m)
    ensures YearDates(y)[DaysBeforeMonth(y, m)..DaysBeforeMonth(y, m + 1)] == MonthDates(y, m)
  {
    var b := YearDates(y)[DaysBeforeMonth(y, m)..DaysBeforeMonth(y, m + 1)];
    forall i | 0 <= i < |b| ensures b[i] == MonthDates(y, m)[i] {
      YearDateAt(y, m, i + 1);
    }
  }

  /** `getDay()`: the weekday with Sunday = 0. */
  function JsDay(d: Date): (w: int)
    requires ValidDate(d)
    ensures 0 <= w < 7
    ensures w == 0 <==> Weekday(d) == 6
  {
    (Weekday(d) + 1) % 7
  }

  /** The empty cells before the 1st: `monthDays[0].getDay()`. */
  function LeadingBlanks(y: int, m: int): (n: int)
    requires y >= 1 && 1 <= m <= 12
    ensures 0 <= n < 7
  {
    var monthDays := MonthDates(y, m);
    JsDay(monthDays[0])
  }

  /** With the blanks in front, day `k` of the month lands in the column of its own weekday
      under the "Sun" .. "Sat" headers. */
  lemma GridColumns(y: int, m: int, k: int)
    requires ValidDate(Date(y, m, k))
    ensures (LeadingBlanks(y, m) + k - 1) % 7 == JsDay(Date(y, m, k))
  {
    var first := Date(y, m, 1);
    assert MonthDates(y, m)[0] == first;
    WeekdayShift(first, Date(y, m, k), k - 1);
    var w := Weekday(first);
    ShiftModSeven(w + 1, k - 1);
    ShiftModSeven(w + k - 1, 1);
  }

  /** The class of a day cell. */
  function CellClass(iso: string, holidays: seq<string>, personalDays: seq<string>): (c: string)
    ensures c == "day both" <==> iso in holidays && iso in personalDays
    ensures c == "day holiday" <==> iso in holidays && iso !in personalDays
    ensures c == "day personal" <==> iso !in holidays && iso in personalDays
    ensures c == "day " <==> iso !in holidays && iso !in personalDays
  {
    var isHoliday := iso in holidays;
    var isPersonal := iso in personalDays;
    var isBoth := isHoliday && isPersonal;
    "day " + (if isBoth then "both" else if isHoliday then "holiday" else if isPersonal then "personal" else "")
  }

  /** The cell of date `d`, looked up by its "YYYY-MM-DD" text. */
  function CellFor(d: Date, holidays: seq<string>, personalDays: seq<string>): (c: string)
    requires ValidDate(d) && d.year <= 9999
    ensures c == "day both" <==> Iso(d) in holidays && Iso(d) in personalDays
    ensures c == "day holiday" <==> Iso(d) in holidays && Iso(d) !in personalDays
    ensures c == "day personal" <==> Iso(d) !in holidays && Iso(d) in personalDays
    ensures c == "day " <==> Iso(d) !in holidays && Iso(d) !in personalDays
  {
    CellClass(Iso(d), holidays, personalDays)
  }

  /** Two dates with the same cell text are the same date, so a holiday listed for one date
      never colours another. */
  lemma CellTextsDistinct(d: Date, e: Date)
    requires ValidDate(d) && d.year <= 9999 && ValidDate(e) && e.year <= 9999
    requires Iso(d) == Iso(e)
    ensures d == e
  {
    IsoRoundTrip(d);
    IsoRoundTrip(e);
  }
}

=== FILE: off_days.dfy ===
/** What backend/services/week_service.py and backend/services/calendar_service.py share:
    the off-day map (a recurring holiday, overridden by personal time off), the one-query
    fetch of stored day rows for a window, and the per-day summaries. */
module OffDays {
  import opened Wrappers
  import opened Dates
  import opened TimeUtils
  import opened Sorting
  import opened TextOrder
  import opened Settings
  import opened DayService
  import opened TimeOff
  import opened Recurring

  /** A date this side of year 10000, the range of Python's `date`. */
  predicate Printable(d: Date) {
    ValidDate(d) && d.year <= 9999
  }

  /** An `off_map` entry: the recurring holiday (label and id) or the personal range
      (kind, label, id and the stored start/end texts). */
  datatype OffEntry = RecurringOff(holiday: RecurringHoliday) | PersonalOff(range: TimeOffRow)

  /** The entry for one date: personal time off when the expansion maps the date,
      otherwise the recurring holiday found for it, otherwise none. */
  function OffFor(personal: map<Date, TimeOffRow>, holiday: Option<RecurringHoliday>, d: Date): (r: Option<OffEntry>)
    ensures d in personal ==> r == Some(PersonalOff(personal[d]))
    ensures d !in personal && holiday.Some? ==> r == Some(RecurringOff(holiday.value))
    ensures r.None? <==> d !in personal && holiday.None?
  {
    if d in personal then Some(PersonalOff(personal[d]))
    else if holiday.Some? then Some(RecurringOff(holiday.value))
    else None
  }

  /** `rec_lookup.get((d.month, d.day))` of the week: keyed straight by month and day. */
  function WeekHoliday(rows: seq<RecurringHoliday>, d: Date): Option<RecurringHoliday> {
    Lookup(rows, d.month, d.day)
  }

  /** A month/day pair that names a day of some year (February 29 included): the records
      the calendar's `parse_date` accepts. */
  predicate ValidMonthDay(month: int, day: int) {
    1 <= month <= 12 && 1 <= day <= DaysInMonth(4, month)
  }

  /** The calendar's lookup table: records whose key does not name a day are skipped. */
  function Parsable(rows: seq<RecurringHoliday>): (r: seq<RecurringHoliday>)
    ensures forall x :: x in r <==> x in rows && ValidMonthDay(x.month, x.day)
  {
    if |rows| == 0 then []
    else (if ValidMonthDay(rows[0].month, rows[0].day) then [rows[0]] else []) + Parsable(rows[1..])
  }

  /** `rec_lookup.get((d.month, d.day))` of the calendar. */
  function CalendarHoliday(rows: seq<RecurringHoliday>, d: Date): Option<RecurringHoliday> {
    Lookup(Parsable(rows), d.month, d.day)
  }

  /** For an actual date, skipping the unparsable records loses nothing: the calendar
      and the week find the same holiday. */
  lemma {:induction false} SkippedNeverMatch(rows: seq<RecurringHoliday>, d: Date)
    requires ValidDate(d)
    ensures CalendarHoliday(rows, d) == WeekHoliday(rows, d)
    decreases |rows|
  {
    if |rows| > 0 {
      SkippedNeverMatch(rows[1..], d);
      var head := rows[0];
      var tail := Parsable(rows[1..]);
      if ValidMonthDay(head.month, head.day) {
        assert Parsable(rows) == [head] + tail;
        assert ([head] + tail)[1..] == tail;
      } else {
        assert Parsable(rows) == tail;
        DateHasValidMonthDay(d);
        assert !HasKey(head, d.month, d.day);
      }
    }
  }

  lemma DateHasValidMonthDay(d: Date)
    requires ValidDate(d)
    ensures ValidMonthDay(d.month, d.day)
  {
    assert IsLeapYear(4);
  }

  /** `off_map` for the dates of a window. */
  function OffMap(dates: seq<Date>, personal: map<Date, TimeOffRow>, lookup: Date -> Option<RecurringHoliday>)
    : (m: map<Date, OffEntry>)
    ensures forall d :: d in m <==> d in dates && OffFor(personal, lookup(d), d).Some?
    ensures forall d :: d in m ==> m[d] == OffFor(personal, lookup(d), d).value
  {
    map d | d in dates && OffFor(personal, lookup(d), d).Some? :: OffFor(personal, lookup(d), d).value
  }

  /** `_fetch_day_rows_for_range`: the stored rows whose key text lies between the
      canonical texts of `start` and `end`, keyed by that text. */
  function FetchDayRows(store: DayStore, start: Date, end: Date): (rows: map<string, DayRecord>)
    requires Printable(start) && Printable(end)
    ensures forall k :: k in rows <==> k in store && TextLe(Iso(start), k) && TextLe(k, Iso(end))
    ensures forall k :: k in rows ==> rows[k] == store[k]
  {
    map k | k in store && TextLe(Iso(start), k) && TextLe(k, Iso(end)) :: store[k]
  }

  /** `row_map.get(iso(d))` for a date of the window finds exactly the stored row. */
  lemma FetchFindsStored(store: DayStore, start: Date, end: Date, d: Date)
    requires Printable(start) && Printable(end) && Printable(d)
    requires AtOrBefore(start, d) && AtOrBefore(d, end)
    ensures Iso(d) in FetchDayRows(store, start, end) <==> Iso(d) in store
  {
    IsoOrder(start, d);
    IsoOrder(d, end);
  }

  /** How a summary treats a date without a stored row: as written the row is `None`
      and `row["start_time"]` raises; corrected, it reads as an empty row. */
  datatype RowPolicy = AsWritten | MissingIsEmpty

  /** `compute_day_summary(con, iso(d), row_map.get(iso(d)))`. */
  function SummaryAt(policy: RowPolicy, stored: SettingsStore, rows: map<string, DayRecord>, d: Date, now: int)
    : (r: Result<DaySummary>)
    requires Printable(d)
    ensures Iso(d) in rows ==> r == ComputeDaySummary(stored, Iso(d), rows[Iso(d)], now)
    ensures Iso(d) !in rows && policy == MissingIsEmpty ==> r == ComputeDaySummary(stored, Iso(d), EmptyDay, now)
    ensures Iso(d) !in rows && policy == AsWritten ==>
      r == if GetTargets(stored).Err? then Err(GetTargets(stored).error) else Err(MissingDayRow)
  {
    if Iso(d) in rows then ComputeDaySummary(stored, Iso(d), rows[Iso(d)], now)
    else if policy == MissingIsEmpty then ComputeDaySummary(stored, Iso(d), EmptyDay, now)
    else if GetTargets(stored).Err? then Err(GetTargets(stored).error)
    else Err(MissingDayRow)
  }

  /** The values of a run of results, in order, or the first error among them. */
  function Collect<T>(rs: seq<Result<T>>): (r: Result<seq<T>>)
    ensures r.Ok? <==> forall i :: 0 <= i < |rs| ==> rs[i].Ok?
    ensures r.Ok? ==> |r.value| == |rs| && forall i :: 0 <= i < |rs| ==> r.value[i] == rs[i].value
    ensures r.Err? ==> exists i :: 0 <= i < |rs| && rs[i].Err? && r.error == rs[i].error
                          && forall j :: 0 <= j < i ==> rs[j].Ok?
  {
    if |rs| == 0 then Ok([])
    else if rs[0].Err? then Err(rs[0].error)
    else
      var rest := Collect(rs[1..]);
      assert forall i :: 1 <= i < |rs| ==> rs[1..][i - 1] == rs[i];
      if rest.Err? then
        var k :| 0 <= k < |rs[1..]| && rs[1..][k].Err? && rest.error == rs[1..][k].error
                 && forall j :: 0 <= j < k ==> rs[1..][j].Ok?;
        assert rs[k + 1].Err? && forall j :: 0 <= j < k + 1 ==> rs[j].Ok?;
        Err(rest.error)
      else Ok([rs[0].value] + rest.value)
  }

  /** The summaries of a run of dates, in order; the first failing day ends the call. */
  function Summaries(policy: RowPolicy, stored: SettingsStore, rows: map<string, DayRecord>, dates: seq<Date>, now: int)
    : (r: Result<seq<DaySummary>>)
    requires forall i :: 0 <= i < |dates| ==> Printable(dates[i])
    ensures r.Ok? <==> forall i :: 0 <= i < |dates| ==> SummaryAt(policy, stored, rows, dates[i], now).Ok?
    ensures r.Ok? ==> |r.value| == |dates|
    ensures r.Ok? ==> forall i :: 0 <= i < |dates| ==> r.value[i] == SummaryAt(policy, stored, rows, dates[i], now).value
    ensures r.Err? ==> exists i :: 0 <= i < |dates| && SummaryAt(policy, stored, rows, dates[i], now) == Err(r.error)
  {
    Collect(SummaryRun(policy, stored, rows, dates, now))
  }

  /** `compute_day_summary` applied to each date of a run, in order. */
  function SummaryRun(policy: RowPolicy, stored: SettingsStore, rows: map<string, DayRecord>, dates: seq<Date>, now: int)
    : (rs: seq<Result<DaySummary>>)
    requires forall i :: 0 <= i < |dates| ==> Printable(dates[i])
    ensures |rs| == |dates|
    ensures forall i :: 0 <= i < |dates| ==> rs[i] == SummaryAt(policy, stored, rows, dates[i], now)
  {
    seq(|dates|, i requires 0 <= i < |dates| => SummaryAt(policy, stored, rows, dates[i], now))
  }

  /** Where every date has a stored row the two policies agree. */
  lemma PoliciesAgreeOnStoredRows(stored: SettingsStore, rows: map<string, DayRecord>, dates: seq<Date>, now: int)
    requires forall i :: 0 <= i < |dates| ==> Printable(dates[i]) && Iso(dates[i]) in rows
    ensures Summaries(AsWritten, stored, rows, dates, now) == Summaries(MissingIsEmpty, stored, rows, dates, now)
  {
    var a := seq(|dates|, i requires 0 <= i < |dates| => SummaryAt(AsWritten, stored, rows, dates[i], now));
    var b := seq(|dates|, i requires 0 <= i < |dates| => SummaryAt(MissingIsEmpty, stored, rows, dates[i], now));
    assert a == b;
  }

  /** One entry of `days`: the date, its summary, `is_off`, and the off entry. */
  datatype DayEntry = DayEntry(date: Date, summary: DaySummary, isOff: bool, off: Option<OffEntry>)

  /** The summary of a date is that of its stored row, or (only when missing rows read
      as empty) that of an empty row. */
  predicate StoredOrEmpty(policy: RowPolicy, stored: SettingsStore, store: DayStore, d: Date, summary: DaySummary, now: int)
    requires Printable(d)
  {
    var key := Iso(d);
    && (key in store ==> Ok(summary) == ComputeDaySummary(stored, key, store[key], now))
    && (key !in store ==> policy == MissingIsEmpty && Ok(summary) == ComputeDaySummary(stored, key, EmptyDay, now))
  }

  /** A date of a window can be summarised: its stored row summarises, or it has none
      and missing rows read as an empty day that summarises. */
  predicate DaySummarises(policy: RowPolicy, stored: SettingsStore, store: DayStore, d: Date, now: int)
    requires Printable(d)
  {
    if Iso(d) in store then ComputeDaySummary(stored, Iso(d), store[Iso(d)], now).Ok?
    else policy == MissingIsEmpty && ComputeDaySummary(stored, Iso(d), EmptyDay, now).Ok?
  }

  predicate WindowSummarises(policy: RowPolicy, stored: SettingsStore, store: DayStore, dates: seq<Date>, now: int)
    requires forall i :: 0 <= i < |dates| ==> Printable(dates[i])
  {
    forall i :: 0 <= i < |dates| ==> DaySummarises(policy, stored, store, dates[i], now)
  }

  /** The summaries of a window's dates exist exactly when every date can be summarised. */
  lemma SummariesOkIff(policy: RowPolicy, stored: SettingsStore, store: DayStore, start: Date, end: Date,
                       dates: seq<Date>, now: int)
    requires Printable(start) && Printable(end)
    requires forall i :: 0 <= i < |dates| ==>
      Printable(dates[i]) && AtOrBefore(start, dates[i]) && AtOrBefore(dates[i], end)
    ensures Summaries(policy, stored, FetchDayRows(store, start, end), dates, now).Ok? <==>
      WindowSummarises(policy, stored, store, dates, now)
  {
    var rows := FetchDayRows(store, start, end);
    forall i | 0 <= i < |dates|
      ensures SummaryAt(policy, stored, rows, dates[i], now).Ok? <==> DaySummarises(policy, stored, store, dates[i], now)
    {
      FetchFindsStored(store, start, end, dates[i]);
    }
  }

  /** What the one-query fetch and the summaries give for the dates of a window. */
  lemma SummariesOfWindow(policy: RowPolicy, stored: SettingsStore, store: DayStore, start: Date, end: Date,
                          dates: seq<Date>, summaries: seq<DaySummary>, now: int)
    requires Printable(start) && Printable(end)
    requires forall i :: 0 <= i < |dates| ==>
      Printable(dates[i]) && AtOrBefore(start, dates[i]) && AtOrBefore(dates[i], end)
    requires Summaries(policy, stored, FetchDayRows(store, start, end), dates, now) == Ok(summaries)
    ensures |summaries| == |dates|
    ensures |dates| > 0 ==> GetTargets(stored).Ok?
    ensures forall i :: 0 <= i < |dates| ==> StoredOrEmpty(policy, stored, store, dates[i], summaries[i], now)
  {
    var rows := FetchDayRows(store, start, end);
    var rs := seq(|dates|, i requires 0 <= i < |dates| => SummaryAt(policy, stored, rows, dates[i], now));
    assert Collect(rs) == Ok(summaries);
    forall i | 0 <= i < |dates|
      ensures StoredOrEmpty(policy, stored, store, dates[i], summaries[i], now)
      ensures GetTargets(stored).Ok?
    {
      FetchFindsStored(store, start, end, dates[i]);
      assert rs[i].Ok? && summaries[i] == rs[i].value;
    }
  }

  /** The day entries of a window, built from the off map of its dates. */
  function AssembleDays(policy: RowPolicy, stored: SettingsStore, store: DayStore, dates: seq<Date>,
                        summaries: seq<DaySummary>, personal: map<Date, TimeOffRow>,
                        lookup: Date -> Option<RecurringHoliday>, now: int)
    : (days: seq<DayEntry>)
    requires |summaries| == |dates|
    requires forall i :: 0 <= i < |dates| ==>
      Printable(dates[i]) && StoredOrEmpty(policy, stored, store, dates[i], summaries[i], now)
    ensures |days| == |dates|
    ensures forall i :: 0 <= i < |dates| ==>
      && days[i].date == dates[i]
      && days[i].off == OffFor(personal, lookup(dates[i]), dates[i])
      && days[i].isOff == days[i].off.Some?
      && StoredOrEmpty(policy, stored, store, dates[i], days[i].summary, now)
  {
    var off := OffMap(dates, personal, lookup);
    var days := seq(|dates|, i requires 0 <= i < |dates| =>
      var entry := if dates[i] in off then Some(off[dates[i]]) else None;
      DayEntry(dates[i], summaries[i], entry.Some?, entry));
    forall i | 0 <= i < |dates|
      ensures days[i].off == OffFor(personal, lookup(dates[i]), dates[i])
    {
      var d := dates[i];
      assert d in off <==> OffFor(personal, lookup(d), d).Some?;
    }
    days
  }

  /** As written, a window whose first date has no stored row fails on that date once
      the targets read. */
  lemma FirstMissingFails(stored: SettingsStore, store: DayStore, start: Date, end: Date, dates: seq<Date>, now: int)
    requires GetTargets(stored).Ok? && Printable(start) && Printable(end)
    requires forall i :: 0 <= i < |dates| ==> Printable(dates[i])
    requires |dates| > 0 && Printable(dates[0]) && AtOrBefore(start, dates[0]) && AtOrBefore(dates[0], end)
    requires Iso(dates[0]) !in store
    ensures Summaries(AsWritten, stored, FetchDayRows(store, start, end), dates, now) == Err(MissingDayRow)
  {
    var rows := FetchDayRows(store, start, end);
    FetchFindsStored(store, start, end, dates[0]);
    var rs := seq(|dates|, i requires 0 <= i < |dates| => SummaryAt(AsWritten, stored, rows, dates[i], now));
    assert rs[0] == Err(MissingDayRow);
  }

  /** With no stored rows, every date of the window summarises as an empty day. */
  lemma EmptyRowsSummarise(stored: SettingsStore, monday: Date, friday: Date, dates: seq<Date>, now: int)
    requires GetTargets(stored).Ok? && Printable(monday) && Printable(friday)
    requires forall i :: 0 <= i < |dates| ==> Printable(dates[i])
    ensures Summaries(MissingIsEmpty, stored, FetchDayRows(map[], monday, friday), dates, now).Ok?
  {
    var rows := FetchDayRows(map[], monday, friday);
    assert rows == map[];
    var rs := seq(|dates|, i requires 0 <= i < |dates| => SummaryAt(MissingIsEmpty, stored, rows, dates[i], now));
    forall i | 0 <= i < |dates|
      ensures rs[i].Ok?
    {
      IsoRoundTrip(dates[i]);
    }
  }
}

=== FILE: recurring.dfy ===
/** The `recurring_holiday` table and backend/services/recurring_holiday_service.py:
    holidays that fall on the same month and day every year, with an upsert keyed by
    that month/day pair (the `UNIQUE(month, day)` constraint of the table) and a delete
    by id. */
module Recurring {
  import opened Wrappers
  import opened Dates
  import opened Sorting

  /** A `recurring_holiday` row. `caption` is the nullable `label` column. */
  datatype RecurringHoliday = RecurringHoliday(id: int, month: int, day: int, caption: Option<string>)

  /** The table: rows in rowid order, and the next AUTOINCREMENT id. */
  datatype RecurringTable = RecurringTable(rows: seq<RecurringHoliday>, nextId: int)

  /** Ids are positive, strictly increasing in row order and below the counter; no two
      rows share a month/day key. */
  predicate ValidRecurring(t: RecurringTable) {
    && t.nextId >= 1
    && (forall i :: 0 <= i < |t.rows| ==> 1 <= t.rows[i].id < t.nextId)
    && (forall i, j :: 0 <= i < j < |t.rows| ==> t.rows[i].id < t.rows[j].id)
    && (forall i, j :: 0 <= i < j < |t.rows| ==> !SameKey(t.rows[i], t.rows[j]))
  }

  predicate SameKey(a: RecurringHoliday, b: RecurringHoliday) {
    a.month == b.month && a.day == b.day
  }

  predicate HasKey(r: RecurringHoliday, month: int, day: int) {
    r.month == month && r.day == day
  }

  const EmptyRecurring := RecurringTable([], 1)

  /** The row stored under a month/day key, if any. */
  function Lookup(rows: seq<RecurringHoliday>, month: int, day: int): (r: Option<RecurringHoliday>)
    ensures r.None? <==> forall i :: 0 <= i < |rows| ==> !HasKey(rows[i], month, day)
    ensures r.Some? ==> r.value in rows && HasKey(r.value, month, day)
  {
    if |rows| == 0 then None
    else if HasKey(rows[0], month, day) then Some(rows[0])
    else
      var r := Lookup(rows[1..], month, day);
      assert forall i :: 1 <= i < |rows| ==> rows[1..][i - 1] == rows[i];
      r
  }

  /** With unique keys, the row found is the only one with that key. */
  lemma LookupUnique(t: RecurringTable, month: int, day: int, i: int)
    requires ValidRecurring(t)
    requires 0 <= i < |t.rows| && HasKey(t.rows[i], month, day)
    ensures Lookup(t.rows, month, day) == Some(t.rows[i])
  {
    var r := Lookup(t.rows, month, day).value;
    var j :| 0 <= j < |t.rows| && t.rows[j] == r;
    if j != i {
      assert SameKey(t.rows[i], t.rows[j]);
      assert false;
    }
  }

  /** `ORDER BY month, day`: the sort key of a row. */
  function DateKey(r: RecurringHoliday): seq<int> {
    [r.month, r.day]
  }

  /** `list_recurring`: every row, in month/day order. */
  function ListRecurring(t: RecurringTable): (r: seq<RecurringHoliday>)
    ensures SortedBy(r, DateKey)
    ensures multiset(r) == multiset(t.rows)
  {
    SortBy(t.rows, DateKey)
  }

  /** Month/day order is the calendar order of those days within one year. */
  lemma DateKeyOrder(a: RecurringHoliday, b: RecurringHoliday, year: int)
    ensures LexLe(DateKey(a), DateKey(b)) <==> AtOrBefore(Date(year, a.month, a.day), Date(year, b.month, b.day))
  {
    var ka, kb := DateKey(a), DateKey(b);
    assert ka[1..] == [a.day] && kb[1..] == [b.day];
    assert [a.day][1..] == [] && [b.day][1..] == [];
    assert LexLe(ka, kb) == (a.month < b.month || (a.month == b.month && LexLe([a.day], [b.day])));
    assert LexLe([a.day], [b.day]) == (a.day < b.day || (a.day == b.day && LexLe([], [])));
  }

  /** `upsert_recurring`: under an existing key only the caption changes (the id is kept);
      a new key adds one row with the next id. */
  function UpsertRecurring(t: RecurringTable, month: int, day: int, caption: Option<string>): (r: RecurringTable)
    requires ValidRecurring(t)
    ensures ValidRecurring(r)
    ensures Lookup(r.rows, month, day).Some?
    ensures Lookup(r.rows, month, day).value.caption == caption
    ensures Lookup(t.rows, month, day).Some? ==>
      && |r.rows| == |t.rows| && r.nextId == t.nextId
      && Lookup(r.rows, month, day).value.id == Lookup(t.rows, month, day).value.id
    ensures Lookup(t.rows, month, day).None? ==>
      r == RecurringTable(t.rows + [RecurringHoliday(t.nextId, month, day, caption)], t.nextId + 1)
    ensures forall x :: x in t.rows && !HasKey(x, month, day) ==> x in r.rows
    ensures forall x :: x in r.rows && !HasKey(x, month, day) ==> x in t.rows
  {
    match Lookup(t.rows, month, day)
    case None =>
      var r := RecurringTable(t.rows + [RecurringHoliday(t.nextId, month, day, caption)], t.nextId + 1);
      AppendNewKey(t, month, day, caption);
      r
    case Some(prev) =>
      var i :| 0 <= i < |t.rows| && t.rows[i] == prev;
      var r := RecurringTable(t.rows[i := prev.(caption := caption)], t.nextId);
      ReplaceCaption(t, i, month, day, caption);
      r
  }

  lemma AppendNewKey(t: RecurringTable, month: int, day: int, caption: Option<string>)
    requires ValidRecurring(t) && Lookup(t.rows, month, day).None?
    ensures var r := RecurringTable(t.rows + [RecurringHoliday(t.nextId, month, day, caption)], t.nextId + 1);
      && ValidRecurring(r)
      && Lookup(r.rows, month, day) == Some(RecurringHoliday(t.nextId, month, day, caption))
      && (forall x :: x in t.rows ==> x in r.rows)
      && (forall x :: x in r.rows && !HasKey(x, month, day) ==> x in t.rows)
  {
    var row := RecurringHoliday(t.nextId, month, day, caption);
    var r := RecurringTable(t.rows + [row], t.nextId + 1);
    assert r.rows[|t.rows|] == row;
    assert forall j :: 0 <= j < |t.rows| ==> r.rows[j] == t.rows[j];
    assert ValidRecurring(r) by {
      forall j, k | 0 <= j < k < |r.rows|
        ensures r.rows[j].id < r.rows[k].id && !SameKey(r.rows[j], r.rows[k])
      {
        if k == |t.rows| {
          assert !HasKey(t.rows[j], month, day);
        }
      }
    }
    LookupUnique(r, month, day, |t.rows|);
    assert forall x :: x in r.rows <==> x in t.rows || x == row;
  }

  lemma ReplaceCaption(t: RecurringTable, i: int, month: int, day: int, caption: Option<string>)
    requires ValidRecurring(t) && 0 <= i < |t.rows| && HasKey(t.rows[i], month, day)
    ensures var r := RecurringTable(t.rows[i := t.rows[i].(caption := caption)], t.nextId);
      && ValidRecurring(r)
      && |r.rows| == |t.rows|
      && Lookup(r.rows, month, day) == Some(t.rows[i].(caption := caption))
      && Lookup(t.rows, month, day) == Some(t.rows[i])
      && (forall x :: x in t.rows && !HasKey(x, month, day) ==> x in r.rows)
      && (forall x :: x in r.rows && !HasKey(x, month, day) ==> x in t.rows)
  {
    var row := t.rows[i].(caption := caption);
    var r := RecurringTable(t.rows[i := row], t.nextId);
    assert ValidRecurring(r) by {
      assert forall j :: 0 <= j < |t.rows| ==> r.rows[j].id == t.rows[j].id && SameKey(r.rows[j], t.rows[j]);
    }
    forall x | x in t.rows || x in r.rows
      ensures x in t.rows && x != t.rows[i] ==> x in r.rows
      ensures x in r.rows && x != row ==> x in t.rows
    {
      UpdateMembers(t.rows, i, row, x);
    }
    LookupUnique(r, month, day, i);
    LookupUnique(t, month, day, i);
  }

  /** Overwriting position `i` keeps every other element and adds only the new one. */
  lemma UpdateMembers<T>(s: seq<T>, i: int, v: T, x: T)
    requires 0 <= i < |s|
    ensures x in s && x != s[i] ==> x in s[i := v]
    ensures x in s[i := v] && x != v ==> x in s
  {
    if x in s && x != s[i] {
      var j :| 0 <= j < |s| && s[j] == x;
      assert s[i := v][j] == x;
    }
    if x in s[i := v] && x != v {
      var j :| 0 <= j < |s| && s[i := v][j] == x;
      assert s[j] == x;
    }
  }

  /** Upserting the same key twice keeps only the second caption and one row. */
  lemma UpsertTwice(t: RecurringTable, month: int, day: int, c1: Option<string>, c2: Option<string>)
    requires ValidRecurring(t)
    ensures var once := UpsertRecurring(t, month, day, c1);
      var twice := UpsertRecurring(once, month, day, c2);
      && |twice.rows| == |once.rows|
      && Lookup(twice.rows, month, day).value.caption == c2
      && Lookup(twice.rows, month, day).value.id == Lookup(once.rows, month, day).value.id
  {
  }

  /** `delete_recurring`: the row with that id goes, every other row stays in order. */
  function DeleteRecurring(t: RecurringTable, rid: int): (r: RecurringTable)
    requires ValidRecurring(t)
    ensures ValidRecurring(r)
    ensures r.nextId == t.nextId
    ensures forall x :: x in r.rows <==> x in t.rows && x.id != rid
  {
    RecurringTable(RemoveRecurring(t.rows, rid, t.nextId), t.nextId)
  }

  function RemoveRecurring(rows: seq<RecurringHoliday>, rid: int, bound: int): (r: seq<RecurringHoliday>)
    requires IdsBelow(rows, bound) && IdsIncreasing(rows) && KeysDistinct(rows)
    ensures IdsBelow(r, bound) && IdsIncreasing(r) && KeysDistinct(r)
    ensures forall x :: x in r <==> x in rows && x.id != rid
  {
    if |rows| == 0 then []
    else
      var last := rows[|rows| - 1];
      var front := rows[..|rows| - 1];
      SplitLast(rows, bound);
      var kept := RemoveRecurring(front, rid, last.id);
      if last.id == rid then
        WeakerBound(kept, last.id, bound);
        kept
      else
        AppendLast(kept, last, bound);
        kept + [last]
  }

  predicate IdsBelow(rows: seq<RecurringHoliday>, bound: int) {
    forall i :: 0 <= i < |rows| ==> 1 <= rows[i].id < bound
  }

  predicate IdsIncreasing(rows: seq<RecurringHoliday>) {
    forall i, j :: 0 <= i < j < |rows| ==> rows[i].id < rows[j].id
  }

  predicate KeysDistinct(rows: seq<RecurringHoliday>) {
    forall i, j :: 0 <= i < j < |rows| ==> !SameKey(rows[i], rows[j])
  }

  /** The rows before the last one keep the table's invariants, under the last id. */
  lemma SplitLast(rows: seq<RecurringHoliday>, bound: int)
    requires |rows| > 0 && IdsBelow(rows, bound) && IdsIncreasing(rows) && KeysDistinct(rows)
    ensures var front, last := rows[..|rows| - 1], rows[|rows| - 1];
      && IdsBelow(front, last.id) && IdsIncreasing(front) && KeysDistinct(front)
      && 1 <= last.id < bound
      && (forall x :: x in front ==> !SameKey(x, last))
      && (forall x :: x in rows <==> x in front || x == last)
  {
    var front, last := rows[..|rows| - 1], rows[|rows| - 1];
    assert rows == front + [last];
    forall x | x in front
      ensures !SameKey(x, last)
    {
      var k :| 0 <= k < |front| && front[k] == x;
      assert rows[k] == x;
    }
  }

  lemma WeakerBound(rows: seq<RecurringHoliday>, b1: int, b2: int)
    requires IdsBelow(rows, b1) && b1 <= b2
    ensures IdsBelow(rows, b2)
  {
  }

  /** A row with a new key and a larger id can go after rows that keep the invariants. */
  lemma AppendLast(kept: seq<RecurringHoliday>, last: RecurringHoliday, bound: int)
    requires IdsBelow(kept, last.id) && IdsIncreasing(kept) && KeysDistinct(kept)
    requires 1 <= last.id < bound
    requires forall x :: x in kept ==> !SameKey(x, last)
    ensures var r := kept + [last];
      && IdsBelow(r, bound) && IdsIncreasing(r) && KeysDistinct(r)
      && (forall x :: x in r <==> x in kept || x == last)
  {
    var r := kept + [last];
    assert forall i :: 0 <= i < |kept| ==> r[i] == kept[i];
    forall i, j | 0 <= i < j < |r|
      ensures !SameKey(r[i], r[j])
    {
      if j == |kept| {
        assert r[i] in kept;
      }
    }
  }
}

=== FILE: schemas.dfy ===
/** backend/schemas.py: the request bodies and the numeric bounds pydantic enforces
    on them before a handler runs (a violation is a 422 response). */
module Schemas {
  import opened Wrappers

  const MinutesPerDay: int := 24 * 60

  /** A field of a partial-update body: left out, sent as null, or sent with a value.
      pydantic's `model_dump(exclude_unset=True)` keeps the last two apart from the first. */
  datatype Field<T> = Unset | Null | Value(v: T)

  /** `DayPatch`. */
  datatype DayPatch = DayPatch(start: Field<string>, end: Field<string>, breakMinutes: Field<int>, notes: Field<string>)

  /** `SettingsPatch`; a null field and a missing one mean the same to its handler. */
  datatype SettingsPatch = SettingsPatch(soft: Option<int>, hard: Option<int>, workdays: Option<int>)

  /** `MinutesBody`: `minutes` between 0 and 24 * 60 inclusive. */
  function CheckMinutesBody(minutes: int): (r: Result<int>)
    ensures r.Ok? <==> 0 <= minutes <= 1440
    ensures r.Ok? ==> r.value == minutes
    ensures r.Err? ==> r.error == SchemaViolation
  {
    if 0 <= minutes <= MinutesPerDay then Ok(minutes) else Err(SchemaViolation)
  }

  /** `DayPatch`: only `break_minutes` is bounded, and only when it carries a value. */
  function CheckDayPatch(p: DayPatch): (r: Result<DayPatch>)
    ensures r.Ok? <==> (p.breakMinutes.Value? ==> 0 <= p.breakMinutes.v <= 1440)
    ensures r.Ok? ==> r.value == p
    ensures r.Err? ==> r.error == SchemaViolation
  {
    match p.breakMinutes
    case Value(b) => if 0 <= b <= MinutesPerDay then Ok(p) else Err(SchemaViolation)
    case _ => Ok(p)
  }

  /** An optional integer field with inclusive bounds. */
  predicate OptionalWithin(f: Option<int>, lo: int, hi: int) {
    f.Some? ==> lo <= f.value <= hi
  }

  /** `SettingsPatch`: daily soft and hard in 0 .. 24 * 60, workdays in 1 .. 7, each when given. */
  function CheckSettingsPatch(p: SettingsPatch): (r: Result<SettingsPatch>)
    ensures r.Ok? <==>
      && (p.soft.Some? ==> 0 <= p.soft.value <= 1440)
      && (p.hard.Some? ==> 0 <= p.hard.value <= 1440)
      && (p.workdays.Some? ==> 1 <= p.workdays.value <= 7)
    ensures r.Ok? ==> r.value == p
    ensures r.Err? ==> r.error == SchemaViolation
  {
    if OptionalWithin(p.soft, 0, MinutesPerDay) && OptionalWithin(p.hard, 0, MinutesPerDay)
       && OptionalWithin(p.workdays, 1, 7)
    then Ok(p)
    else Err(SchemaViolation)
  }
}

=== FILE: settings.dfy ===
/** backend/db.py: the settings table as a key/value map, `DEFAULT_SETTINGS`, the
    seeding in `init_db`, the default merge of `get_settings`, `upsert_settings`,
    and the validation and weekly derivation of `get_targets`. */
module Settings {
  import opened Wrappers
  import opened Digits

  /** The `settings` table: text keys to text values. */
  type SettingsStore = map<string, string>

  const SoftKey: string := "daily_soft_minutes"
  const HardKey: string := "daily_hard_minutes"
  const WorkdaysKey: string := "workdays_per_week"

  /** `DEFAULT_SETTINGS`. The workday count is the integer 5 in the source; the TEXT
      column stores it as "5", and int() reads both the same way. */
  const Defaults: SettingsStore := map[SoftKey := "360", HardKey := "480", WorkdaysKey := "5"]

  /** `get_settings`: every stored pair, plus each default whose key is not stored. */
  function GetSettings(stored: SettingsStore): (out: SettingsStore)
    ensures out.Keys == stored.Keys + Defaults.Keys
    ensures forall k :: k in stored ==> out[k] == stored[k]
    ensures forall k :: k in Defaults && k !in stored ==> out[k] == Defaults[k]
  {
    map k | k in stored.Keys + Defaults.Keys :: if k in stored then stored[k] else Defaults[k]
  }

  /** One `INSERT ... ON CONFLICT (key) DO NOTHING`. */
  function InsertIfAbsent(s: SettingsStore, k: string, v: string): (r: SettingsStore)
    ensures k in r && r.Keys == s.Keys + {k}
    ensures k in s ==> r == s
    ensures k !in s ==> r[k] == v
    ensures forall j :: j in s ==> r[j] == s[j]
  {
    if k in s then s else s[k := v]
  }

  /** The seeding loop of `init_db`, one insert per default. */
  function SeedDefaults(s: SettingsStore): (r: SettingsStore)
    ensures Defaults.Keys <= r.Keys
  {
    InsertIfAbsent(InsertIfAbsent(InsertIfAbsent(s, SoftKey, "360"), HardKey, "480"), WorkdaysKey, "5")
  }

  /** `upsert_settings`: each given key takes its new value, every other key keeps its own. */
  function UpsertSettings(s: SettingsStore, updates: SettingsStore): (r: SettingsStore)
    ensures r.Keys == s.Keys + updates.Keys
    ensures forall k :: k in updates ==> r[k] == updates[k]
    ensures forall k :: k in s && k !in updates ==> r[k] == s[k]
  {
    s + updates
  }

  /** The figures `get_targets` returns. */
  datatype Targets = Targets(dailySoft: int, dailyHard: int, workdays: int, weeklySoft: int, weeklyHard: int)

  /** A setting read through int(), after the default merge. */
  function SettingInt(stored: SettingsStore, key: string): Option<int>
    requires key in Defaults
  {
    ParseInt(GetSettings(stored)[key])
  }

  /** The three targets read as integers and in range, in the order `get_targets` checks them. */
  predicate TargetsReadable(stored: SettingsStore) {
    SettingInt(stored, SoftKey).Some? && SettingInt(stored, HardKey).Some? && SettingInt(stored, WorkdaysKey).Some?
  }

  predicate TargetsInRange(stored: SettingsStore)
    requires TargetsReadable(stored)
  {
    SettingInt(stored, SoftKey).value >= 0 && SettingInt(stored, HardKey).value >= 0
    && SettingInt(stored, WorkdaysKey).value > 0
  }

  /** `get_targets`. */
  function GetTargets(stored: SettingsStore): (r: Result<Targets>)
    ensures r == Err(SettingsNotInteger) <==> !TargetsReadable(stored)
    ensures r == Err(SettingsOutOfRange) <==> TargetsReadable(stored) && !TargetsInRange(stored)
    ensures r == Err(SoftAboveHard) <==>
      TargetsReadable(stored) && TargetsInRange(stored)
      && SettingInt(stored, SoftKey).value > SettingInt(stored, HardKey).value
    ensures r.Ok? ==>
      && r.value.dailySoft == SettingInt(stored, SoftKey).value
      && r.value.dailyHard == SettingInt(stored, HardKey).value
      && r.value.workdays == SettingInt(stored, WorkdaysKey).value
    ensures r.Ok? ==> ValidTargets(r.value)
  {
    var s := GetSettings(stored);
    match (ParseInt(s[SoftKey]), ParseInt(s[HardKey]), ParseInt(s[WorkdaysKey]))
    case (Some(soft), Some(hard), Some(workdays)) =>
      if soft < 0 || hard < 0 || workdays <= 0 then Err(SettingsOutOfRange)
      else if soft > hard then Err(SoftAboveHard)
      else
        WeeklyOrdered(soft, hard, workdays);
        Ok(Targets(soft, hard, workdays, soft * workdays, hard * workdays))
    case _ => Err(SettingsNotInteger)
  }

  /** What every successful `get_targets` result satisfies: non-negative daily targets
      with soft at most hard, a positive workday count, and weekly targets that are
      the daily ones times the workday count and keep the same order. */
  predicate ValidTargets(t: Targets) {
    && 0 <= t.dailySoft <= t.dailyHard
    && t.workdays > 0
    && t.weeklySoft == t.dailySoft * t.workdays
    && t.weeklyHard == t.dailyHard * t.workdays
    && 0 <= t.weeklySoft <= t.weeklyHard
  }

  lemma WeeklyOrdered(soft: int, hard: int, n: int)
    requires 0 <= soft <= hard && n >= 0
    ensures 0 <= soft * n <= hard * n
  {
  }

  /** Seeding the defaults in `init_db` yields what `get_settings` reads from the unseeded table. */
  lemma SeedIsMerge(s: SettingsStore)
    ensures SeedDefaults(s) == GetSettings(s)
  {
  }

  /** Merging the defaults twice is merging them once. */
  lemma GetSettingsIdempotent(s: SettingsStore)
    ensures GetSettings(GetSettings(s)) == GetSettings(s)
  {
  }

  /** A value written by `upsert_settings` is what `get_settings` reads back. */
  lemma UpsertThenRead(s: SettingsStore, updates: SettingsStore, k: string)
    requires k in updates
    ensures GetSettings(UpsertSettings(s, updates))[k] == updates[k]
  {
  }

  /** The defaults (360, 480, 5) pass `get_targets`: with none of the three keys stored,
      the targets are 6h soft, 8h hard, five workdays, 30h and 40h a week. */
  lemma DefaultsPass(s: SettingsStore)
    requires SoftKey !in s && HardKey !in s && WorkdaysKey !in s
    ensures GetTargets(s) == Ok(Targets(360, 480, 5, 1800, 2400))
  {
    var g := GetSettings(s);
    assert g[SoftKey] == "360" && g[HardKey] == "480" && g[WorkdaysKey] == "5";
    DefaultTextsRead();
  }

  lemma DefaultTextsRead()
    ensures ParseInt("360") == Some(360) && ParseInt("480") == Some(480) && ParseInt("5") == Some(5)
  {
    assert DecimalValue("360") == 360 by {
      assert "360"[..2] == "36" && "36"[..1] == "3";
    }
    assert DecimalValue("480") == 480 by {
      assert "480"[..2] == "48" && "48"[..1] == "4";
    }
  }
}

=== FILE: settings_router.dfy ===
/** backend/routers/settings_router.py: the GET view of the settings with the derived
    weekly targets, and the PATCH handler's merge, validation and update set. */
module SettingsRouter {
  import opened Wrappers
  import opened Digits
  import opened Settings
  import opened Schemas

  /** The body of `GET /api/settings`: the three settings and the derived weekly targets. */
  datatype SettingsView = SettingsView(soft: int, hard: int, workdays: int, weeklySoft: int, weeklyHard: int)

  /** A handler's effect on the settings table together with its reply. */
  datatype Outcome<T> = Outcome(store: SettingsStore, reply: Result<T>)

  /** `api_get_settings`. */
  function GetSettingsView(stored: SettingsStore): (r: Result<SettingsView>)
    ensures r.Ok? <==> GetTargets(stored).Ok?
    ensures r.Err? ==> r.error == GetTargets(stored).error
    ensures r.Ok? ==>
      && Some(r.value.soft) == SettingInt(stored, SoftKey)
      && Some(r.value.hard) == SettingInt(stored, HardKey)
      && Some(r.value.workdays) == SettingInt(stored, WorkdaysKey)
      && r.value.weeklySoft == GetTargets(stored).value.weeklySoft
      && r.value.weeklyHard == GetTargets(stored).value.weeklyHard
      && r.value.weeklySoft == r.value.soft * r.value.workdays
      && r.value.weeklyHard == r.value.hard * r.value.workdays
  {
    var t :- GetTargets(stored);
    Ok(SettingsView(t.dailySoft, t.dailyHard, t.workdays, t.weeklySoft, t.weeklyHard))
  }

  /** The soft or hard target a patch leaves in force: the body's value when given,
      otherwise the current setting read through int(). */
  function Effective(given: Option<int>, stored: SettingsStore, key: string): Option<int>
    requires key in Defaults
  {
    if given.Some? then given else SettingInt(stored, key)
  }

  /** `str(n)` for a setting's value; int() reads it back. */
  function SettingText(n: int): (s: string)
    ensures ParseInt(s) == Some(n)
  {
    IntRoundTrip(n);
    IntToString(n)
  }

  /** The `updates` dict: exactly the supplied fields, as decimal text. */
  function UpdateSet(body: SettingsPatch): (u: SettingsStore)
    ensures SoftKey in u <==> body.soft.Some?
    ensures HardKey in u <==> body.hard.Some?
    ensures WorkdaysKey in u <==> body.workdays.Some?
    ensures u.Keys <= Defaults.Keys
    ensures body.soft.Some? ==> ParseInt(u[SoftKey]) == body.soft
    ensures body.hard.Some? ==> ParseInt(u[HardKey]) == body.hard
    ensures body.workdays.Some? ==> ParseInt(u[WorkdaysKey]) == body.workdays
  {
    var u0: SettingsStore := map[];
    var u1 := if body.soft.Some? then u0[SoftKey := SettingText(body.soft.value)] else u0;
    var u2 := if body.hard.Some? then u1[HardKey := SettingText(body.hard.value)] else u1;
    var u3 := if body.workdays.Some? then u2[WorkdaysKey := SettingText(body.workdays.value)] else u2;
    u3
  }

  /** The checks of the PATCH handler before it writes: schema bounds, the effective
      soft and hard targets read as integers, and soft at most hard. On success, the
      update set to write. */
  function PatchPlan(stored: SettingsStore, body: SettingsPatch): (r: Result<SettingsStore>)
    ensures CheckSettingsPatch(body).Err? ==> r == Err(SchemaViolation)
    ensures CheckSettingsPatch(body).Ok?
            && (Effective(body.soft, stored, SoftKey).None? || Effective(body.hard, stored, HardKey).None?)
            ==> r == Err(SettingsNotInteger)
    ensures r.Ok? <==>
      && CheckSettingsPatch(body).Ok?
      && Effective(body.soft, stored, SoftKey).Some? && Effective(body.hard, stored, HardKey).Some?
      && Effective(body.soft, stored, SoftKey).value <= Effective(body.hard, stored, HardKey).value
    ensures r.Ok? ==> r.value == UpdateSet(body)
  {
    if CheckSettingsPatch(body).Err? then Err(SchemaViolation)
    else
      match (Effective(body.soft, stored, SoftKey), Effective(body.hard, stored, HardKey))
      case (Some(soft), Some(hard)) =>
        if soft > hard then Err(SoftAboveHard) else Ok(UpdateSet(body))
      case _ => Err(SettingsNotInteger)
  }

  /** The PATCH handler with its writes kept (the source leaves out the commit; see
      PatchSettingsAsWritten): a refused patch writes nothing; an accepted one writes
      exactly the supplied fields and replies with the GET view, in which each setting
      is the patch's effective value. */
  function PatchSettings(stored: SettingsStore, body: SettingsPatch): (o: Outcome<SettingsView>)
    ensures PatchPlan(stored, body).Err? ==> o == Outcome(stored, Err(PatchPlan(stored, body).error))
    ensures PatchPlan(stored, body).Ok? ==> o.store == UpsertSettings(stored, UpdateSet(body))
    ensures body == SettingsPatch(None, None, None) ==> o.store == stored
    ensures o.reply.Ok? ==>
      && Some(o.reply.value.soft) == Effective(body.soft, stored, SoftKey)
      && Some(o.reply.value.hard) == Effective(body.hard, stored, HardKey)
      && Some(o.reply.value.workdays) == Effective(body.workdays, stored, WorkdaysKey)
      && o.reply.value.soft <= o.reply.value.hard
    ensures PatchPlan(stored, body).Ok? ==> o.reply == GetSettingsView(o.store)
    ensures PatchPlan(stored, body).Ok? ==>
      (o.reply.Ok? <==>
        && Effective(body.workdays, stored, WorkdaysKey).Some?
        && Effective(body.soft, stored, SoftKey).value >= 0
        && Effective(body.workdays, stored, WorkdaysKey).value > 0)
  {
    match PatchPlan(stored, body)
    case Err(e) => Outcome(stored, Err(e))
    case Ok(updates) =>
      assert |updates| == 0 ==> UpsertSettings(stored, updates) == stored by {
        if |updates| == 0 {
          assert updates == map[];
        }
      }
      var written := if |updates| == 0 then stored else UpsertSettings(stored, updates);
      EffectiveAfterUpsert(stored, body);
      PatchedViewOk(stored, body);
      Outcome(written, GetSettingsView(written))
  }

  /** After an accepted patch is written, the GET view exists exactly when the effective
      workday count is an integer above 0 and the effective soft target is not negative
      (the plan has already checked soft <= hard). */
  lemma PatchedViewOk(stored: SettingsStore, body: SettingsPatch)
    requires PatchPlan(stored, body).Ok?
    ensures GetSettingsView(UpsertSettings(stored, UpdateSet(body))).Ok? <==>
      && Effective(body.workdays, stored, WorkdaysKey).Some?
      && Effective(body.soft, stored, SoftKey).value >= 0
      && Effective(body.workdays, stored, WorkdaysKey).value > 0
  {
    EffectiveAfterUpsert(stored, body);
  }

  /** After the update set is written, each setting reads back as the patch's effective value. */
  lemma EffectiveAfterUpsert(stored: SettingsStore, body: SettingsPatch)
    ensures SettingInt(UpsertSettings(stored, UpdateSet(body)), SoftKey) == Effective(body.soft, stored, SoftKey)
    ensures SettingInt(UpsertSettings(stored, UpdateSet(body)), HardKey) == Effective(body.hard, stored, HardKey)
    ensures SettingInt(UpsertSettings(stored, UpdateSet(body)), WorkdaysKey) == Effective(body.workdays, stored, WorkdaysKey)
  {
  }

  /** The PATCH handler as the source writes it: the upsert runs inside a transaction
      that is never committed, so closing the connection discards it, and the reply
      is the `api_get_settings` function rather than its result. It refuses the same
      patches, and leaves the table as it was whatever the body says. */
  function PatchSettingsAsWritten(stored: SettingsStore, body: SettingsPatch): (o: Outcome<()>)
    ensures o.store == stored
    ensures o.reply.Err? <==> PatchPlan(stored, body).Err?
    ensures o.reply.Err? ==> o.reply.error == PatchPlan(stored, body).error
  {
    match PatchPlan(stored, body)
    case Err(e) => Outcome(stored, Err(e))
    case Ok(_) => Outcome(stored, Ok(()))
  }

  /** Setting the soft target to 300 minutes on a table holding only the defaults: the
      handler as written accepts the patch, yet the next GET still reports 360, while
      the corrected handler stores and reports 300. */
  lemma PatchSettingsIsLost()
    ensures PatchSettingsAsWritten(map[], SettingsPatch(Some(300), None, None)).reply.Ok?
    ensures GetSettingsView(PatchSettingsAsWritten(map[], SettingsPatch(Some(300), None, None)).store)
            == Ok(SettingsView(360, 480, 5, 1800, 2400))
    ensures PatchSettings(map[], SettingsPatch(Some(300), None, None)).reply
            == Ok(SettingsView(300, 480, 5, 1500, 2400))
  {
    DefaultsPass(map[]);
    var body := SettingsPatch(Some(300), None, None);
    var after := UpsertSettings(map[], UpdateSet(body));
    EffectiveAfterUpsert(map[], body);
    assert SettingInt(map[], HardKey) == Some(480) && SettingInt(map[], WorkdaysKey) == Some(5);
    assert GetTargets(after) == Ok(Targets(300, 480, 5, 1500, 2400));
  }
}

=== FILE: sorting.dfy ===
/** Lexicographic order on integer sequences and insertion sort by such a key: the
    `ORDER BY` clauses of the source, with each row's sort key written as a sequence
    of integers (a text column becomes its character codes). */
module Sorting {

  /** `a` sorts no later than `b`: the first difference decides, and a proper prefix comes first. */
  predicate LexLe(a: seq<int>, b: seq<int>)
    decreases |a|
  {
    |a| == 0 || (|b| > 0 && (a[0] < b[0] || (a[0] == b[0] && LexLe(a[1..], b[1..]))))
  }

  lemma {:induction false} LexLeReflexive(a: seq<int>)
    ensures LexLe(a, a)
    decreases |a|
  {
    if |a| > 0 {
      LexLeReflexive(a[1..]);
    }
  }

  lemma {:induction false} LexLeTotal(a: seq<int>, b: seq<int>)
    ensures LexLe(a, b) || LexLe(b, a)
    decreases |a|
  {
    if |a| > 0 && |b| > 0 && a[0] == b[0] {
      LexLeTotal(a[1..], b[1..]);
    }
  }

  lemma {:induction false} LexLeTransitive(a: seq<int>, b: seq<int>, c: seq<int>)
    requires LexLe(a, b) && LexLe(b, c)
    ensures LexLe(a, c)
    decreases |a|
  {
    if |a| > 0 && a[0] == b[0] && b[0] == c[0] {
      LexLeTransitive(a[1..], b[1..], c[1..]);
    }
  }

  lemma {:induction false} LexLeAntisymmetric(a: seq<int>, b: seq<int>)
    requires LexLe(a, b) && LexLe(b, a)
    ensures a == b
    decreases |a|
  {
    if |a| > 0 {
      LexLeAntisymmetric(a[1..], b[1..]);
      assert a == [a[0]] + a[1..];
      assert b == [b[0]] + b[1..];
    }
  }

  /** Two sequences with equal-length heads compare by the heads first, then by the tails. */
  lemma {:induction false} LexLeAppend(p: seq<int>, q: seq<int>, p2: seq<int>, q2: seq<int>)
    requires |p| == |p2|
    ensures LexLe(p + q, p2 + q2) <==> (p != p2 && LexLe(p, p2)) || (p == p2 && LexLe(q, q2))
    decreases |p|
  {
    if |p| > 0 {
      assert (p + q)[0] == p[0] && (p2 + q2)[0] == p2[0];
      assert (p + q)[1..] == p[1..] + q;
      assert (p2 + q2)[1..] == p2[1..] + q2;
      LexLeAppend(p[1..], q, p2[1..], q2);
      assert p == [p[0]] + p[1..] && p2 == [p2[0]] + p2[1..];
      assert p == p2 <==> p[0] == p2[0] && p[1..] == p2[1..];
      assert LexLe(p + q, p2 + q2) == (p[0] < p2[0] || (p[0] == p2[0] && LexLe(p[1..] + q, p2[1..] + q2)));
      assert LexLe(p, p2) == (p[0] < p2[0] || (p[0] == p2[0] && LexLe(p[1..], p2[1..])));
    } else {
      assert p == p2 && p + q == q && p2 + q2 == q2;
    }
  }

  /** Non-decreasing keys from left to right. */
  predicate SortedBy<T>(s: seq<T>, key: T -> seq<int>) {
    forall i, j :: 0 <= i < j < |s| ==> LexLe(key(s[i]), key(s[j]))
  }

  /** Every element's key is at least `k`. */
  predicate AllAtLeast<T>(k: seq<int>, s: seq<T>, key: T -> seq<int>) {
    forall i :: 0 <= i < |s| ==> LexLe(k, key(s[i]))
  }

  /** `x` placed before the first element whose key is not below its own. */
  function Insert<T>(x: T, s: seq<T>, key: T -> seq<int>): (r: seq<T>)
    requires SortedBy(s, key)
    ensures SortedBy(r, key)
    ensures multiset(r) == multiset(s) + multiset{x}
    ensures forall k :: AllAtLeast(k, s, key) && LexLe(k, key(x)) ==> AllAtLeast(k, r, key)
    decreases |s|
  {
    if |s| == 0 then [x]
    else if LexLe(key(x), key(s[0])) then
      LeastFirst(key(x), s, key);
      [x] + s
    else
      SortedTail(s, key);
      var rest := Insert(x, s[1..], key);
      InsertStep(x, s, rest, key);
      [s[0]] + rest
  }

  /** The tail of a sorted sequence is sorted and no smaller than its head. */
  lemma SortedTail<T>(s: seq<T>, key: T -> seq<int>)
    requires SortedBy(s, key) && |s| > 0
    ensures SortedBy(s[1..], key) && AllAtLeast(key(s[0]), s[1..], key)
  {
    forall i | 0 <= i < |s| - 1
      ensures LexLe(key(s[0]), key(s[1..][i]))
    {
      assert s[1..][i] == s[i + 1];
    }
  }

  /** Putting the head back in front of the tail with `x` inserted. */
  lemma InsertStep<T>(x: T, s: seq<T>, rest: seq<T>, key: T -> seq<int>)
    requires |s| > 0 && SortedBy(s, key) && !LexLe(key(x), key(s[0]))
    requires SortedBy(rest, key) && multiset(rest) == multiset(s[1..]) + multiset{x}
    requires forall k :: AllAtLeast(k, s[1..], key) && LexLe(k, key(x)) ==> AllAtLeast(k, rest, key)
    ensures SortedBy([s[0]] + rest, key)
    ensures multiset([s[0]] + rest) == multiset(s) + multiset{x}
    ensures forall k :: AllAtLeast(k, s, key) && LexLe(k, key(x)) ==> AllAtLeast(k, [s[0]] + rest, key)
  {
    LexLeTotal(key(x), key(s[0]));
    assert AllAtLeast(key(s[0]), rest, key);
    PrependLeast(s[0], rest, key);
    assert s == [s[0]] + s[1..];
    forall k | AllAtLeast(k, s, key) && LexLe(k, key(x))
      ensures AllAtLeast(k, [s[0]] + rest, key)
    {
      assert AllAtLeast(k, s[1..], key) by {
        forall i | 0 <= i < |s| - 1
          ensures LexLe(k, key(s[1..][i]))
        {
          assert s[1..][i] == s[i + 1];
        }
      }
      var r := [s[0]] + rest;
      forall i | 0 <= i < |r|
        ensures LexLe(k, key(r[i]))
      {
        if i > 0 {
          assert r[i] == rest[i - 1];
        }
      }
    }
  }

  /** A first element whose key is no larger than any other keeps a sorted sequence sorted. */
  lemma PrependLeast<T>(y: T, rest: seq<T>, key: T -> seq<int>)
    requires SortedBy(rest, key) && AllAtLeast(key(y), rest, key)
    ensures SortedBy([y] + rest, key)
  {
    var r := [y] + rest;
    forall i, j | 0 <= i < j < |r|
      ensures LexLe(key(r[i]), key(r[j]))
    {
      assert r[j] == rest[j - 1];
      if i > 0 {
        assert r[i] == rest[i - 1];
      }
    }
  }

  /** A key no larger than the first key of a sorted sequence is no larger than any. */
  lemma LeastFirst<T>(k: seq<int>, s: seq<T>, key: T -> seq<int>)
    requires SortedBy(s, key) && |s| > 0 && LexLe(k, key(s[0]))
    ensures AllAtLeast(k, s, key)
  {
    forall i | 0 <= i < |s|
      ensures LexLe(k, key(s[i]))
    {
      if i > 0 {
        LexLeTransitive(k, key(s[0]), key(s[i]));
      }
    }
  }

  /** Insertion sort: the same elements, in non-decreasing key order. */
  function SortBy<T>(s: seq<T>, key: T -> seq<int>): (r: seq<T>)
    ensures SortedBy(r, key)
    ensures multiset(r) == multiset(s)
    ensures |r| == |s|
    decreases |s|
  {
    if |s| == 0 then []
    else
      var r := Insert(s[|s| - 1], SortBy(s[..|s| - 1], key), key);
      assert s == s[..|s| - 1] + [s[|s| - 1]];
      r
  }
}

=== FILE: text_order.dfy ===
/** SQLite's comparison of TEXT values (the BINARY collation: character by character,
    a proper prefix first), and why it agrees with date order on "YYYY-MM-DD" text.
    The range filters of the services compare dates as stored text. */
module TextOrder {
  import opened Digits
  import opened Dates
  import opened TimeUtils
  import opened Sorting

  /** The character codes of a text. */
  function Codes(s: string): (c: seq<int>)
    ensures |c| == |s|
    ensures forall i :: 0 <= i < |s| ==> c[i] == s[i] as int
  {
    seq(|s|, i requires 0 <= i < |s| => s[i] as int)
  }

  /** `a <= b` between two TEXT values. */
  predicate TextLe(a: string, b: string) {
    LexLe(Codes(a), Codes(b))
  }

  /** `a < b` between two TEXT values. */
  predicate TextLt(a: string, b: string) {
    TextLe(a, b) && a != b
  }

  lemma CodesAppend(a: string, b: string)
    ensures Codes(a + b) == Codes(a) + Codes(b)
  {
  }

  lemma CodesInjective(a: string, b: string)
    requires Codes(a) == Codes(b)
    ensures a == b
  {
    assert forall i :: 0 <= i < |a| ==> a[i] as int == b[i] as int;
  }

  /** A digit string's value read from the front: the first digit weighs 10^(n-1). */
  lemma {:induction false} DecimalValueFront(s: string)
    requires AllDigits(s) && |s| > 0
    ensures DecimalValue(s) == DigitValue(s[0]) * Pow10(|s| - 1) + DecimalValue(s[1..])
    decreases |s|
  {
    var n := |s|;
    if n > 1 {
      var init := s[..n - 1];
      DecimalValueFront(init);
      assert init[1..] == s[1..][..n - 2];
      assert init[0] == s[0];
      calc {
        DecimalValue(s);
        DecimalValue(init) * 10 + DigitValue(s[n - 1]);
        (DigitValue(s[0]) * Pow10(n - 2) + DecimalValue(init[1..])) * 10 + DigitValue(s[n - 1]);
        { MulAssoc(DigitValue(s[0]), Pow10(n - 2)); }
        DigitValue(s[0]) * Pow10(n - 1) + (DecimalValue(s[1..][..n - 2]) * 10 + DigitValue(s[1..][n - 2]));
      }
    } else {
      assert s[..0] == [];
    }
  }

  lemma MulAssoc(d: int, p: int)
    ensures d * p * 10 == d * (10 * p)
  {
  }

  /** Among digit strings of one length, text order is numeric order. */
  lemma {:induction false} DigitsOrder(a: string, b: string)
    requires AllDigits(a) && AllDigits(b) && |a| == |b|
    ensures TextLe(a, b) <==> DecimalValue(a) <= DecimalValue(b)
    decreases |a|
  {
    if |a| > 0 {
      var n := |a|;
      DecimalValueFront(a);
      DecimalValueFront(b);
      DecimalValueBound(a[1..]);
      DecimalValueBound(b[1..]);
      DigitsOrder(a[1..], b[1..]);
      assert Codes(a)[1..] == Codes(a[1..]) && Codes(b)[1..] == Codes(b[1..]);
      var p := Pow10(n - 1);
      var da := DigitValue(a[0]);
      var db := DigitValue(b[0]);
      if da < db {
        HeadDecides(da, db, p, DecimalValue(a[1..]), DecimalValue(b[1..]));
      } else if db < da {
        HeadDecides(db, da, p, DecimalValue(b[1..]), DecimalValue(a[1..]));
      }
    } else {
      assert a == [] && b == [];
    }
  }

  lemma HeadDecides(x: int, y: int, p: int, u: int, v: int)
    requires 0 <= x < y && 0 <= u < p && 0 <= v
    ensures x * p + u < y * p + v
  {
    assert (x + 1) * p <= y * p;
  }

  /** Two zero-padded numbers of one width: equal text exactly for equal numbers, and text
      order is numeric order. */
  lemma FixedWidthOrder(a: nat, b: nat, w: nat)
    requires a < Pow10(w) && b < Pow10(w)
    ensures Codes(FixedWidth(a, w)) == Codes(FixedWidth(b, w)) <==> a == b
    ensures TextLe(FixedWidth(a, w), FixedWidth(b, w)) <==> a <= b
  {
    FixedWidthRoundTrip(a, w);
    FixedWidthRoundTrip(b, w);
    DigitsOrder(FixedWidth(a, w), FixedWidth(b, w));
    if Codes(FixedWidth(a, w)) == Codes(FixedWidth(b, w)) {
      CodesInjective(FixedWidth(a, w), FixedWidth(b, w));
    }
  }

  lemma SeparatorFirst(x: seq<int>, y: seq<int>)
    ensures LexLe([45] + x, [45] + y) <==> LexLe(x, y)
  {
    assert ([45] + x)[1..] == x && ([45] + y)[1..] == y;
  }

  /** The codes of "YYYY-MM-DD" text, field by field. */
  lemma IsoTextCodes(y: nat, m: nat, d: nat)
    ensures Codes(IsoText(y, m, d))
      == Codes(FixedWidth(y, 4)) + ([45] + (Codes(FixedWidth(m, 2)) + ([45] + Codes(FixedWidth(d, 2)))))
  {
    DashedCodes(FixedWidth(y, 4), FixedWidth(m, 2), FixedWidth(d, 2));
  }

  /** The codes of three fields joined by '-'. */
  lemma DashedCodes(a: string, b: string, c: string)
    ensures Codes(a + "-" + b + "-" + c) == Codes(a) + ([45] + (Codes(b) + ([45] + Codes(c))))
  {
    assert Codes("-") == [45];
    var tail2 := "-" + c;
    CodesAppend("-", c);
    var mid := b + tail2;
    CodesAppend(b, tail2);
    var tail1 := "-" + mid;
    CodesAppend("-", mid);
    CodesAppend(a, tail1);
    assert a + "-" + b + "-" + c == a + tail1;
  }

  /** Text order of "YYYY-MM-DD" is lexicographic order of (year, month, day). */
  lemma IsoTextOrder(y: nat, m: nat, d: nat, y2: nat, m2: nat, d2: nat)
    requires y < 10000 && m < 100 && d < 100 && y2 < 10000 && m2 < 100 && d2 < 100
    ensures TextLe(IsoText(y, m, d), IsoText(y2, m2, d2)) <==>
      y < y2 || (y == y2 && (m < m2 || (m == m2 && d <= d2)))
  {
    assert Pow10(4) == 10000 && Pow10(2) == 100;
    var cy, cm, cd := Codes(FixedWidth(y, 4)), Codes(FixedWidth(m, 2)), Codes(FixedWidth(d, 2));
    var ey, em, ed := Codes(FixedWidth(y2, 4)), Codes(FixedWidth(m2, 2)), Codes(FixedWidth(d2, 2));
    IsoTextCodes(y, m, d);
    IsoTextCodes(y2, m2, d2);
    LexLeAppend(cy, [45] + (cm + ([45] + cd)), ey, [45] + (em + ([45] + ed)));
    SeparatorFirst(cm + ([45] + cd), em + ([45] + ed));
    LexLeAppend(cm, [45] + cd, em, [45] + ed);
    SeparatorFirst(cd, ed);
    FixedWidthOrder(y, y2, 4);
    FixedWidthOrder(m, m2, 2);
    FixedWidthOrder(d, d2, 2);
  }

  /** Comparing "YYYY-MM-DD" texts compares the dates: `iso(d) <= iso(e)` exactly when
      `d <= e`, so the services' text range filters select by date. */
  lemma IsoOrder(d: Date, e: Date)
    requires ValidDate(d) && ValidDate(e) && d.year <= 9999 && e.year <= 9999
    ensures TextLe(Iso(d), Iso(e)) <==> AtOrBefore(d, e)
  {
    IsoTextOrder(d.year, d.month, d.day, e.year, e.month, e.day);
  }

  /** `iso` is one-to-one on the dates it can print. */
  lemma IsoInjective(d: Date, e: Date)
    requires ValidDate(d) && ValidDate(e) && d.year <= 9999 && e.year <= 9999
    requires Iso(d) == Iso(e)
    ensures d == e
  {
    IsoRoundTrip(d);
    IsoRoundTrip(e);
  }
}

=== FILE: time_off.dfy ===
/** The `time_off` table and backend/services/timeoff_service.py: adding a range of
    days off, listing the ranges (optionally those overlapping a window), deleting
    one, and expanding the ranges that meet a window into a day-by-day map. The
    routes of backend/routers/timeoff_router.py are modelled on top. */
module TimeOff {
  import opened Wrappers
  import opened Digits
  import opened Dates
  import opened TimeUtils
  import opened Sorting
  import opened TextOrder

  /** A `time_off` row. `caption` is the nullable `label` column. */
  datatype TimeOffRow = TimeOffRow(id: int, startDate: string, endDate: string, kind: string, caption: Option<string>)

  /** The table: rows in rowid order, and the next AUTOINCREMENT id. */
  datatype TimeOffTable = TimeOffTable(rows: seq<TimeOffRow>, nextId: int)

  /** Ids are positive, strictly increasing in row order, and below the counter. */
  predicate ValidTable(t: TimeOffTable) {
    && t.nextId >= 1
    && (forall i :: 0 <= i < |t.rows| ==> 1 <= t.rows[i].id < t.nextId)
    && (forall i, j :: 0 <= i < j < |t.rows| ==> t.rows[i].id < t.rows[j].id)
  }

  const EmptyTable := TimeOffTable([], 1)

  /** Stored text that is exactly the "YYYY-MM-DD" spelling of the date it parses to. */
  predicate Canonical(text: string) {
    ParseDate(text).Ok? && Iso(ParseDate(text).value) == text
  }

  predicate CanonicalTable(t: TimeOffTable) {
    forall i :: 0 <= i < |t.rows| ==> Canonical(t.rows[i].startDate) && Canonical(t.rows[i].endDate)
  }

  /** The checks made before a row is inserted: both dates parse and the end is not earlier. */
  function CheckRange(startDate: string, endDate: string): (r: Result<(Date, Date)>)
    ensures r.Ok? <==> ParseDate(startDate).Ok? && ParseDate(endDate).Ok?
                       && AtOrBefore(ParseDate(startDate).value, ParseDate(endDate).value)
    ensures r.Ok? ==> r.value == (ParseDate(startDate).value, ParseDate(endDate).value)
    ensures r.Err? && ParseDate(startDate).Ok? && ParseDate(endDate).Ok? ==> r.error == EndBeforeStart
    ensures r.Err? && !(ParseDate(startDate).Ok? && ParseDate(endDate).Ok?) ==> r.error == InvalidDate
  {
    var s :- ParseDate(startDate);
    var e :- ParseDate(endDate);
    if Before(e, s) then Err(EndBeforeStart) else Ok((s, e))
  }

  /** `add_time_off` as written: after the checks the texts are inserted exactly as sent.
      Returns the new table and the new row's id. */
  function AddTimeOffAsWritten(t: TimeOffTable, startDate: string, endDate: string, kind: string, caption: Option<string>)
    : (r: (TimeOffTable, Result<int>))
    requires ValidTable(t)
    ensures ValidTable(r.0)
    ensures r.1.Ok? <==> CheckRange(startDate, endDate).Ok?
    ensures r.1.Err? ==> r.0 == t && r.1.error == CheckRange(startDate, endDate).error
    ensures r.1.Ok? ==>
      && r.1.value == t.nextId
      && r.0 == TimeOffTable(t.rows + [TimeOffRow(t.nextId, startDate, endDate, kind, caption)], t.nextId + 1)
  {
    match CheckRange(startDate, endDate)
    case Err(e) => (t, Err(e))
    case Ok(_) =>
      var row := TimeOffRow(t.nextId, startDate, endDate, kind, caption);
      AppendKeepsValid(t, row);
      (TimeOffTable(t.rows + [row], t.nextId + 1), Ok(t.nextId))
  }

  /** A row carrying the next id goes after the rest and moves the counter on. */
  lemma AppendKeepsValid(t: TimeOffTable, row: TimeOffRow)
    requires ValidTable(t) && row.id == t.nextId
    ensures ValidTable(TimeOffTable(t.rows + [row], t.nextId + 1))
  {
    var rows := t.rows + [row];
    assert forall i :: 0 <= i < |t.rows| ==> rows[i] == t.rows[i];
  }

  /** `add_time_off` corrected: the parsed dates are stored in their canonical spelling,
      so that the text comparisons of the queries below agree with date order. */
  function AddTimeOff(t: TimeOffTable, startDate: string, endDate: string, kind: string, caption: Option<string>)
    : (r: (TimeOffTable, Result<int>))
    requires ValidTable(t)
    ensures ValidTable(r.0)
    ensures CanonicalTable(t) ==> CanonicalTable(r.0)
    ensures r.1.Ok? <==> CheckRange(startDate, endDate).Ok?
    ensures r.1.Err? ==> r.0 == t && r.1.error == CheckRange(startDate, endDate).error
    ensures r.1.Ok? ==>
      && r.1.value == t.nextId
      && r.0.nextId == t.nextId + 1
      && |r.0.rows| == |t.rows| + 1
      && r.0.rows[..|t.rows|] == t.rows
      && var added := r.0.rows[|t.rows|];
         added.id == t.nextId && added.kind == kind && added.caption == caption
         && ParseDate(added.startDate) == ParseDate(startDate)
         && ParseDate(added.endDate) == ParseDate(endDate)
    ensures r.1.Ok? ==>
      r.0.rows == t.rows + [TimeOffRow(t.nextId, Iso(CheckRange(startDate, endDate).value.0),
                                       Iso(CheckRange(startDate, endDate).value.1), kind, caption)]
  {
    match CheckRange(startDate, endDate)
    case Err(e) => (t, Err(e))
    case Ok((s, e)) =>
      var row := TimeOffRow(t.nextId, Iso(s), Iso(e), kind, caption);
      IsoCanonical(s);
      IsoCanonical(e);
      AppendKeepsCanonical(t, row);
      AppendKeepsValid(t, row);
      var rows := t.rows + [row];
      assert rows[..|t.rows|] == t.rows;
      (TimeOffTable(rows, t.nextId + 1), Ok(t.nextId))
  }

  /** The canonical spelling of a date is canonical and parses back to it. */
  lemma IsoCanonical(d: Date)
    requires ValidDate(d) && d.year <= 9999
    ensures ParseDate(Iso(d)) == Ok(d)
    ensures Canonical(Iso(d))
  {
    IsoRoundTrip(d);
  }

  lemma AppendKeepsCanonical(t: TimeOffTable, row: TimeOffRow)
    requires CanonicalTable(t) ==> Canonical(row.startDate) && Canonical(row.endDate)
    ensures CanonicalTable(t) ==> CanonicalTable(TimeOffTable(t.rows + [row], t.nextId + 1))
  {
    if CanonicalTable(t) {
      var rows := t.rows + [row];
      forall i | 0 <= i < |rows|
        ensures Canonical(rows[i].startDate) && Canonical(rows[i].endDate)
      {
        if i < |t.rows| {
          assert rows[i] == t.rows[i];
        }
      }
    }
  }

  /** The overlap filter `NOT (end_date < from OR start_date > to)` on TEXT values. */
  predicate Selected(row: TimeOffRow, from: string, to: string) {
    !(TextLt(row.endDate, from) || TextLt(to, row.startDate))
  }

  /** Python truthiness of an optional query parameter. */
  predicate Given(p: Option<string>) {
    p.Some? && |p.value| > 0
  }

  /** The rows the overlap filter keeps, in table order. */
  function SelectRows(rows: seq<TimeOffRow>, from: string, to: string): (r: seq<TimeOffRow>)
    ensures |r| <= |rows|
    ensures forall x :: x in r <==> x in rows && Selected(x, from, to)
    ensures (forall i :: 0 <= i < |rows| ==> !Selected(rows[i], from, to)) ==> r == []
  {
    if |rows| == 0 then []
    else
      var last := rows[|rows| - 1];
      var front := rows[..|rows| - 1];
      assert rows == front + [last];
      SelectRows(front, from, to) + if Selected(last, from, to) then [last] else []
  }

  /** `ORDER BY start_date ASC, id ASC`: the character codes of the start text, then a
      separator below every code (a shorter text sorts first), then the id. */
  function RowKey(row: TimeOffRow): seq<int> {
    Codes(row.startDate) + [-1, row.id]
  }

  /** `list_time_off`: every row, or only those overlapping [from, to] when both are given,
      sorted by start text and then id. */
  function ListTimeOff(t: TimeOffTable, from: Option<string>, to: Option<string>): (r: seq<TimeOffRow>)
    ensures SortedBy(r, RowKey)
    ensures !(Given(from) && Given(to)) ==> multiset(r) == multiset(t.rows)
    ensures Given(from) && Given(to) ==>
      multiset(r) == multiset(SelectRows(t.rows, from.value, to.value))
    ensures forall x :: x in r <==> x in t.rows && (Given(from) && Given(to) ==> Selected(x, from.value, to.value))
  {
    var rows := if Given(from) && Given(to) then SelectRows(t.rows, from.value, to.value) else t.rows;
    var r := SortBy(rows, RowKey);
    assert forall x :: x in r <==> x in multiset(r);
    r
  }

  /** `delete_time_off`: the row with that id goes, every other row stays in order. */
  function DeleteTimeOff(t: TimeOffTable, tid: int): (r: TimeOffTable)
    requires ValidTable(t)
    ensures ValidTable(r)
    ensures r.nextId == t.nextId
    ensures forall x :: x in r.rows <==> x in t.rows && x.id != tid
    ensures CanonicalTable(t) ==> CanonicalTable(r)
  {
    var r := TimeOffTable(RemoveId(t.rows, tid, t.nextId), t.nextId);
    if CanonicalTable(t) then
      forall i | 0 <= i < |r.rows|
        ensures Canonical(r.rows[i].startDate) && Canonical(r.rows[i].endDate)
      {
        MemberCanonical(t, r.rows[i]);
      }
      r
    else r
  }

  predicate IdsBelow(rows: seq<TimeOffRow>, bound: int) {
    forall i :: 0 <= i < |rows| ==> 1 <= rows[i].id < bound
  }

  predicate IdsIncreasing(rows: seq<TimeOffRow>) {
    forall i, j :: 0 <= i < j < |rows| ==> rows[i].id < rows[j].id
  }

  function RemoveId(rows: seq<TimeOffRow>, tid: int, bound: int): (r: seq<TimeOffRow>)
    requires IdsBelow(rows, bound) && IdsIncreasing(rows)
    ensures IdsBelow(r, bound) && IdsIncreasing(r)
    ensures forall x :: x in r <==> x in rows && x.id != tid
  {
    if |rows| == 0 then []
    else
      var last := rows[|rows| - 1];
      var front := rows[..|rows| - 1];
      SplitLast(rows, bound);
      var kept := RemoveId(front, tid, last.id);
      if last.id == tid then
        assert IdsBelow(kept, bound);
        kept
      else
        AppendLast(kept, last, bound);
        kept + [last]
  }

  /** The rows before the last one keep increasing ids, all below the last id. */
  lemma SplitLast(rows: seq<TimeOffRow>, bound: int)
    requires |rows| > 0 && IdsBelow(rows, bound) && IdsIncreasing(rows)
    ensures var front, last := rows[..|rows| - 1], rows[|rows| - 1];
      && IdsBelow(front, last.id) && IdsIncreasing(front)
      && 1 <= last.id < bound
      && (forall x :: x in rows <==> x in front || x == last)
  {
    assert rows == rows[..|rows| - 1] + [rows[|rows| - 1]];
  }

  /** A row with a larger id can go after rows with increasing ids. */
  lemma AppendLast(kept: seq<TimeOffRow>, last: TimeOffRow, bound: int)
    requires IdsBelow(kept, last.id) && IdsIncreasing(kept)
    requires 1 <= last.id < bound
    ensures var r := kept + [last];
      && IdsBelow(r, bound) && IdsIncreasing(r)
      && (forall x :: x in r <==> x in kept || x == last)
  {
    var r := kept + [last];
    assert forall i :: 0 <= i < |kept| ==> r[i] == kept[i];
  }

  // ---------------------------------------------------------------- expansion

  /** Both stored texts of the row parse. */
  predicate RowParses(row: TimeOffRow) {
    ParseDate(row.startDate).Ok? && ParseDate(row.endDate).Ok?
  }

  /** By dates alone: `d` lies in the window [start, end] and in the row's range. */
  predicate DateCovers(row: TimeOffRow, start: Date, end: Date, d: Date) {
    && RowParses(row)
    && ValidDate(d)
    && AtOrBefore(start, d) && AtOrBefore(d, end)
    && AtOrBefore(ParseDate(row.startDate).value, d) && AtOrBefore(d, ParseDate(row.endDate).value)
  }

  /** A row the window query returned, with its two dates as `parse_date` reads them. */
  datatype Span = Span(row: TimeOffRow, first: Date, last: Date)

  /** The row's stored texts parse to exactly these dates. */
  predicate ParsedFrom(sp: Span) {
    ParseDate(sp.row.startDate) == Ok(sp.first) && ParseDate(sp.row.endDate) == Ok(sp.last)
  }

  lemma ParsedSpansValid(spans: seq<Span>)
    requires forall k :: 0 <= k < |spans| ==> ParsedFrom(spans[k])
    ensures forall k :: 0 <= k < |spans| ==> ValidDate(spans[k].first) && ValidDate(spans[k].last)
  {
    forall k | 0 <= k < |spans|
      ensures ValidDate(spans[k].first) && ValidDate(spans[k].last)
    {
      assert ParsedFrom(spans[k]);
    }
  }

  function SpanRows(spans: seq<Span>): (r: seq<TimeOffRow>)
    ensures |r| == |spans|
    ensures forall k :: 0 <= k < |spans| ==> r[k] == spans[k].row
  {
    seq(|spans|, k requires 0 <= k < |spans| => spans[k].row)
  }

  /** The two `parse_date` calls for one row. */
  function ParseRow(row: TimeOffRow): (r: Result<Span>)
    ensures r.Ok? <==> RowParses(row)
    ensures r.Err? ==> r.error == InvalidDate
    ensures r.Ok? ==> r.value.row == row && ParsedFrom(r.value)
  {
    var s :- ParseDate(row.startDate);
    var e :- ParseDate(row.endDate);
    Ok(Span(row, s, e))
  }

  /** `ParseRow` on the first `n` rows, in order; the first row that does not parse ends
      the call. */
  function ParseSpans(rows: seq<TimeOffRow>, n: nat): (r: Result<seq<Span>>)
    requires n <= |rows|
    ensures r.Ok? <==> forall i :: 0 <= i < n ==> RowParses(rows[i])
    ensures r.Err? ==> r.error == InvalidDate
    ensures r.Ok? ==> |r.value| == n
    ensures r.Ok? ==> forall k :: 0 <= k < n ==> r.value[k].row == rows[k] && ParsedFrom(r.value[k])
  {
    if n == 0 then Ok([])
    else
      match ParseSpans(rows, n - 1)
      case Err(e) => Err(e)
      case Ok(prev) =>
        match ParseRow(rows[n - 1])
        case Err(e) => Err(e)
        case Ok(sp) =>
          AppendSpan(rows, n, prev, sp);
          Ok(prev + [sp])
  }

  /** The spans of the first n - 1 rows, followed by the span of row n - 1. */
  lemma AppendSpan(rows: seq<TimeOffRow>, n: nat, prev: seq<Span>, sp: Span)
    requires 1 <= n <= |rows| && |prev| == n - 1
    requires forall k :: 0 <= k < n - 1 ==> prev[k].row == rows[k] && ParsedFrom(prev[k])
    requires sp.row == rows[n - 1] && ParsedFrom(sp)
    ensures |prev + [sp]| == n
    ensures forall k :: 0 <= k < n ==> (prev + [sp])[k].row == rows[k] && ParsedFrom((prev + [sp])[k])
  {
    assert forall k :: 0 <= k < n - 1 ==> (prev + [sp])[k] == prev[k];
  }

  /** The window query, then the parse of every row it returned. */
  function ParseSelected(rows: seq<TimeOffRow>, from: string, to: string): (r: Result<seq<Span>>)
    ensures r.Ok? <==> forall x :: x in rows && Selected(x, from, to) ==> RowParses(x)
    ensures r.Err? ==> r.error == InvalidDate
    ensures r.Ok? ==> SpanRows(r.value) == SelectRows(rows, from, to)
    ensures r.Ok? ==> forall k :: 0 <= k < |r.value| ==> ParsedFrom(r.value[k])
  {
    var sel := SelectRows(rows, from, to);
    SelectedParse(rows, from, to);
    var r := ParseSpans(sel, |sel|);
    if r.Ok? then
      SpanRowsOfParse(sel, r.value);
      r
    else r
  }

  /** Every selected row parses exactly when every row of the selection parses. */
  lemma SelectedParse(rows: seq<TimeOffRow>, from: string, to: string)
    ensures var sel := SelectRows(rows, from, to);
      (forall x :: x in rows && Selected(x, from, to) ==> RowParses(x))
      <==> (forall i :: 0 <= i < |sel| ==> RowParses(sel[i]))
  {
    var sel := SelectRows(rows, from, to);
    if forall i :: 0 <= i < |sel| ==> RowParses(sel[i]) {
      forall x | x in rows && Selected(x, from, to)
        ensures RowParses(x)
      {
        assert x in sel;
        var i :| 0 <= i < |sel| && sel[i] == x;
      }
    } else {
      var i :| 0 <= i < |sel| && !RowParses(sel[i]);
      assert sel[i] in sel;
      assert sel[i] in rows && Selected(sel[i], from, to);
    }
  }


  lemma SpanRowsOfParse(sel: seq<TimeOffRow>, spans: seq<Span>)
    requires |spans| == |sel| && forall k :: 0 <= k < |sel| ==> spans[k].row == sel[k]
    ensures SpanRows(spans) == sel
  {
  }

  /** `d` lies in the window [start, end] and in the span's range. */
  predicate SpanCovers(sp: Span, start: Date, end: Date, d: Date) {
    && ValidDate(d)
    && AtOrBefore(start, d) && AtOrBefore(d, end)
    && AtOrBefore(sp.first, d) && AtOrBefore(d, sp.last)
  }

  /** The index of the last of the first `n` spans that covers `d`, or -1. */
  function LastIndex(spans: seq<Span>, n: nat, start: Date, end: Date, d: Date): (k: int)
    requires n <= |spans|
    ensures -1 <= k < n
    ensures k >= 0 ==> SpanCovers(spans[k], start, end, d)
    ensures forall j :: k < j < n ==> !SpanCovers(spans[j], start, end, d)
  {
    if n == 0 then -1
    else if SpanCovers(spans[n - 1], start, end, d) then n - 1
    else LastIndex(spans, n - 1, start, end, d)
  }

  /** The last span, in table order, that covers `d`: the row whose write to `out[iso(d)]`
      happens last. */
  function LastCovering(spans: seq<Span>, start: Date, end: Date, d: Date): (r: Option<Span>)
    ensures r.None? <==> forall i :: 0 <= i < |spans| ==> !SpanCovers(spans[i], start, end, d)
    ensures r.Some? ==> exists i :: 0 <= i < |spans| && spans[i] == r.value && SpanCovers(spans[i], start, end, d)
                          && forall j :: i < j < |spans| ==> !SpanCovers(spans[j], start, end, d)
  {
    var k := LastIndex(spans, |spans|, start, end, d);
    if k < 0 then None else Some(spans[k])
  }

  function MaxDate(a: Date, b: Date): (r: Date)
    ensures r == a || r == b
    ensures forall d :: AtOrBefore(r, d) <==> AtOrBefore(a, d) && AtOrBefore(b, d)
  {
    if Before(a, b) then b else a
  }

  function MinDate(a: Date, b: Date): (r: Date)
    ensures r == a || r == b
    ensures forall d :: AtOrBefore(d, r) <==> AtOrBefore(d, a) && AtOrBefore(d, b)
  {
    if Before(a, b) then a else b
  }

  /** One row's contribution: every day of [lo, hi] mapped to the row. */
  function Spread(row: TimeOffRow, lo: Date, hi: Date): (m: map<Date, TimeOffRow>)
    requires ValidDate(lo) && ValidDate(hi)
    ensures forall d :: d in m <==> ValidDate(d) && AtOrBefore(lo, d) && AtOrBefore(d, hi)
    ensures forall d :: d in m ==> m[d] == row
  {
    DateRangeMembersAll(lo, hi);
    map d | d in DateRange(lo, hi) :: row
  }

  lemma DateRangeMembersAll(lo: Date, hi: Date)
    requires ValidDate(lo) && ValidDate(hi)
    ensures forall d :: d in DateRange(lo, hi) <==> ValidDate(d) && AtOrBefore(lo, d) && AtOrBefore(d, hi)
  {
    forall d {
      DateRangeMembers(lo, hi, d);
    }
  }

  /** The loop of `expand_time_off_days` over the first `n` spans: each writes every day
      of [max(first, start), min(last, end)], so a later row overwrites the days it
      shares with an earlier one. */
  function ExpandPrefix(spans: seq<Span>, n: nat, start: Date, end: Date): (m: map<Date, TimeOffRow>)
    requires n <= |spans|
    requires ValidDate(start) && ValidDate(end)
    requires forall k :: 0 <= k < |spans| ==> ValidDate(spans[k].first) && ValidDate(spans[k].last)
    ensures forall d :: d in m <==> LastIndex(spans, n, start, end, d) >= 0
    ensures forall d :: d in m ==> m[d] == spans[LastIndex(spans, n, start, end, d)].row
  {
    if n == 0 then map[]
    else
      var sp := spans[n - 1];
      var prev := ExpandPrefix(spans, n - 1, start, end);
      prev + Spread(sp.row, MaxDate(sp.first, start), MinDate(sp.last, end))
  }

  function ExpandSpans(spans: seq<Span>, start: Date, end: Date): (m: map<Date, TimeOffRow>)
    requires ValidDate(start) && ValidDate(end)
    requires forall k :: 0 <= k < |spans| ==> ValidDate(spans[k].first) && ValidDate(spans[k].last)
    ensures forall d :: d in m <==> LastCovering(spans, start, end, d).Some?
    ensures forall d :: d in m ==> m[d] == LastCovering(spans, start, end, d).value.row
  {
    ExpandPrefix(spans, |spans|, start, end)
  }

  /** Every day the expansion maps comes from a row the window query returned. */
  lemma ExpandedRowsSelected(rows: seq<TimeOffRow>, from: string, to: string, spans: seq<Span>, start: Date, end: Date)
    requires ValidDate(start) && ValidDate(end)
    requires forall k :: 0 <= k < |spans| ==> ValidDate(spans[k].first) && ValidDate(spans[k].last)
    requires SpanRows(spans) == SelectRows(rows, from, to)
    ensures forall d :: d in ExpandSpans(spans, start, end) ==>
      && ExpandSpans(spans, start, end)[d] in rows
      && Selected(ExpandSpans(spans, start, end)[d], from, to)
      && ValidDate(d) && AtOrBefore(start, d) && AtOrBefore(d, end)
  {
    var m := ExpandSpans(spans, start, end);
    forall d | d in m
      ensures m[d] in rows && Selected(m[d], from, to) && ValidDate(d) && AtOrBefore(start, d) && AtOrBefore(d, end)
    {
      var sp := LastCovering(spans, start, end, d).value;
      var i :| 0 <= i < |spans| && spans[i] == sp && SpanCovers(spans[i], start, end, d);
      assert SpanRows(spans)[i] == m[d];
    }
  }

  /** The expansion for a window whose query bounds are `from` and `to`. */
  function ExpandWindow(rows: seq<TimeOffRow>, from: string, to: string, start: Date, end: Date)
    : (r: Result<map<Date, TimeOffRow>>)
    requires ValidDate(start) && ValidDate(end)
    ensures r.Ok? <==> ParseSelected(rows, from, to).Ok?
    ensures r.Err? ==> r.error == InvalidDate
    ensures r.Ok? ==> forall d :: d in r.value ==>
      && ValidDate(d) && AtOrBefore(start, d) && AtOrBefore(d, end)
      && r.value[d] in rows && Selected(r.value[d], from, to)
    ensures r.Ok? ==>
      var spans := ParseSelected(rows, from, to).value;
      forall d :: (d in r.value <==> LastCovering(spans, start, end, d).Some?)
                  && (d in r.value ==> r.value[d] == LastCovering(spans, start, end, d).value.row)
  {
    var spans :- ParseSelected(rows, from, to);
    ParsedSpansValid(spans);
    ExpandedRowsSelected(rows, from, to, spans, start, end);
    Ok(ExpandSpans(spans, start, end))
  }

  /** `expand_time_off_days(start, end)`: the window query with the canonical spellings of
      `start` and `end`, then the day-by-day expansion. Keyed by date; the source keys
      by the date's canonical text, which names the same date (`IsoInjective`). */
  function ExpandTimeOffDays(t: TimeOffTable, start: Date, end: Date): (r: Result<map<Date, TimeOffRow>>)
    requires ValidDate(start) && ValidDate(end) && start.year <= 9999 && end.year <= 9999
    ensures r.Ok? <==> forall x :: x in t.rows && Selected(x, Iso(start), Iso(end)) ==> RowParses(x)
    ensures r.Err? ==> r.error == InvalidDate
    ensures r.Ok? ==> forall d :: d in r.value ==>
      && ValidDate(d) && AtOrBefore(start, d) && AtOrBefore(d, end)
      && r.value[d] in t.rows && Selected(r.value[d], Iso(start), Iso(end))
    ensures r.Ok? ==>
      var spans := ParseSelected(t.rows, Iso(start), Iso(end)).value;
      forall d :: (d in r.value <==> LastCovering(spans, start, end, d).Some?)
                  && (d in r.value ==> r.value[d] == LastCovering(spans, start, end, d).value.row)
  {
    ExpandWindow(t.rows, Iso(start), Iso(end), start, end)
  }

  // ---------------------------------------------------------------- properties

  /** With non-negative character codes, the separator makes a proper prefix sort first,
      and equal texts fall back to the id. */
  lemma {:induction false} KeyTieBreak(a: seq<int>, b: seq<int>, i: int, j: int)
    requires forall k :: 0 <= k < |a| ==> a[k] >= 0
    requires forall k :: 0 <= k < |b| ==> b[k] >= 0
    ensures LexLe(a + [-1, i], b + [-1, j]) <==> (a != b && LexLe(a, b)) || (a == b && i <= j)
    decreases |a|
  {
    var x, y := a + [-1, i], b + [-1, j];
    if |a| == 0 {
      assert x == [-1, i];
      if |b| == 0 {
        assert y == [-1, j];
        assert x[1..] == [i] && y[1..] == [j];
        assert LexLe([i], [j]) == (i < j || (i == j && LexLe([i][1..], [j][1..])));
        assert [i][1..] == [];
      } else {
        assert y[0] == b[0];
      }
    } else if |b| == 0 {
      assert y == [-1, j];
      assert x[0] == a[0];
    } else {
      assert x[0] == a[0] && y[0] == b[0];
      assert x[1..] == a[1..] + [-1, i] && y[1..] == b[1..] + [-1, j];
      KeyTieBreak(a[1..], b[1..], i, j);
      assert a == [a[0]] + a[1..] && b == [b[0]] + b[1..];
    }
  }

  /** The listing order: by start text, ties by id. */
  lemma RowKeyOrder(x: TimeOffRow, y: TimeOffRow)
    ensures LexLe(RowKey(x), RowKey(y)) <==>
      TextLt(x.startDate, y.startDate) || (x.startDate == y.startDate && x.id <= y.id)
  {
    KeyTieBreak(Codes(x.startDate), Codes(y.startDate), x.id, y.id);
    if Codes(x.startDate) == Codes(y.startDate) {
      CodesInjective(x.startDate, y.startDate);
    }
  }

  /** For a canonical table the listing is in start-date order, ties by id. */
  lemma ListedInDateOrder(t: TimeOffTable, from: Option<string>, to: Option<string>, i: int, j: int)
    requires CanonicalTable(t)
    requires 0 <= i < j < |ListTimeOff(t, from, to)|
    ensures var r := ListTimeOff(t, from, to);
      && ParseDate(r[i].startDate).Ok? && ParseDate(r[j].startDate).Ok?
      && (Before(ParseDate(r[i].startDate).value, ParseDate(r[j].startDate).value)
          || (r[i].startDate == r[j].startDate && r[i].id <= r[j].id))
  {
    var r := ListTimeOff(t, from, to);
    var x, y := r[i], r[j];
    assert x in t.rows && y in t.rows;
    MemberCanonical(t, x);
    MemberCanonical(t, y);
    assert LexLe(RowKey(x), RowKey(y));
    KeyOrderIsDateOrder(x, y);
  }

  lemma MemberCanonical(t: TimeOffTable, x: TimeOffRow)
    requires CanonicalTable(t) && x in t.rows
    ensures Canonical(x.startDate) && Canonical(x.endDate)
  {
    var p :| 0 <= p < |t.rows| && t.rows[p] == x;
  }

  /** Between rows with canonical start dates, sort-key order is start-date order, ties by id. */
  lemma KeyOrderIsDateOrder(x: TimeOffRow, y: TimeOffRow)
    requires Canonical(x.startDate) && Canonical(y.startDate)
    requires LexLe(RowKey(x), RowKey(y))
    ensures ParseDate(x.startDate).Ok? && ParseDate(y.startDate).Ok?
    ensures Before(ParseDate(x.startDate).value, ParseDate(y.startDate).value)
            || (x.startDate == y.startDate && x.id <= y.id)
  {
    RowKeyOrder(x, y);
    var a, b := ParseDate(x.startDate).value, ParseDate(y.startDate).value;
    if x.startDate != y.startDate {
      IsoOrder(a, b);
      assert AtOrBefore(a, b);
      assert a != b;
    }
  }

  /** For canonical texts the TEXT overlap filter is exactly date-range overlap. */
  lemma CanonicalSelection(row: TimeOffRow, start: Date, end: Date)
    requires Canonical(row.startDate) && Canonical(row.endDate)
    requires ValidDate(start) && ValidDate(end) && start.year <= 9999 && end.year <= 9999
    ensures Selected(row, Iso(start), Iso(end)) <==>
      AtOrBefore(start, ParseDate(row.endDate).value) && AtOrBefore(ParseDate(row.startDate).value, end)
  {
    var s, e := ParseDate(row.startDate).value, ParseDate(row.endDate).value;
    IsoOrder(e, start);
    IsoOrder(end, s);
    if Iso(e) == Iso(start) {
      IsoInjective(e, start);
    }
    if Iso(end) == Iso(s) {
      IsoInjective(end, s);
    }
  }

  /** For a canonical table the expansion never fails, and a date is mapped exactly when
      some row's date range and the window both hold it. */
  lemma CanonicalExpand(t: TimeOffTable, start: Date, end: Date)
    requires CanonicalTable(t)
    requires ValidDate(start) && ValidDate(end) && start.year <= 9999 && end.year <= 9999
    ensures ExpandTimeOffDays(t, start, end).Ok?
    ensures forall d :: d in ExpandTimeOffDays(t, start, end).value <==>
      exists i :: 0 <= i < |t.rows| && DateCovers(t.rows[i], start, end, d)
  {
    CanonicalExpandOk(t, start, end);
    forall d
      ensures d in ExpandTimeOffDays(t, start, end).value <==> SomeRowCovers(t, start, end, d)
    {
      MappedIffCovered(t, start, end, d);
    }
  }

  /** Some row of the table covers `d` inside the window. */
  predicate SomeRowCovers(t: TimeOffTable, start: Date, end: Date, d: Date) {
    exists i :: 0 <= i < |t.rows| && DateCovers(t.rows[i], start, end, d)
  }

  /** Every row of a canonical table parses, so its expansion never fails. */
  lemma CanonicalExpandOk(t: TimeOffTable, start: Date, end: Date)
    requires CanonicalTable(t)
    requires ValidDate(start) && ValidDate(end) && start.year <= 9999 && end.year <= 9999
    ensures ExpandTimeOffDays(t, start, end).Ok?
  {
    CanonicalParses(t, Iso(start), Iso(end));
  }

  /** One date of `CanonicalExpand`: mapped exactly when covered. */
  lemma MappedIffCovered(t: TimeOffTable, start: Date, end: Date, d: Date)
    requires CanonicalTable(t)
    requires ValidDate(start) && ValidDate(end) && start.year <= 9999 && end.year <= 9999
    requires ExpandTimeOffDays(t, start, end).Ok?
    ensures d in ExpandTimeOffDays(t, start, end).value <==> SomeRowCovers(t, start, end, d)
  {
    if d in ExpandTimeOffDays(t, start, end).value {
      MappedIsCovered(t, start, end, d);
    }
    if exists i :: 0 <= i < |t.rows| && DateCovers(t.rows[i], start, end, d) {
      var i :| 0 <= i < |t.rows| && DateCovers(t.rows[i], start, end, d);
      CoveredIsMapped(t, start, end, d, i);
    }
  }

  lemma CanonicalParses(t: TimeOffTable, from: string, to: string)
    requires CanonicalTable(t)
    ensures ParseSelected(t.rows, from, to).Ok?
  {
    forall x | x in t.rows && Selected(x, from, to)
      ensures RowParses(x)
    {
      var i :| 0 <= i < |t.rows| && t.rows[i] == x;
    }
  }

  /** A mapped date is covered, by dates, by the row it maps to. */
  lemma MappedIsCovered(t: TimeOffTable, start: Date, end: Date, d: Date)
    requires ValidDate(start) && ValidDate(end) && start.year <= 9999 && end.year <= 9999
    requires ExpandTimeOffDays(t, start, end).Ok? && d in ExpandTimeOffDays(t, start, end).value
    ensures exists i :: 0 <= i < |t.rows| && DateCovers(t.rows[i], start, end, d)
  {
    var spans := ParseSelected(t.rows, Iso(start), Iso(end)).value;
    var sp := LastCovering(spans, start, end, d).value;
    var k :| 0 <= k < |spans| && spans[k] == sp && SpanCovers(sp, start, end, d);
    assert SpanRows(spans)[k] == sp.row;
    assert sp.row in SelectRows(t.rows, Iso(start), Iso(end));
    var i :| 0 <= i < |t.rows| && t.rows[i] == sp.row;
    assert ParsedFrom(spans[k]);
    assert DateCovers(t.rows[i], start, end, d);
  }

  /** In a canonical table, a date some row covers is mapped. */
  lemma CoveredIsMapped(t: TimeOffTable, start: Date, end: Date, d: Date, i: int)
    requires CanonicalTable(t)
    requires ValidDate(start) && ValidDate(end) && start.year <= 9999 && end.year <= 9999
    requires 0 <= i < |t.rows| && DateCovers(t.rows[i], start, end, d)
    requires ExpandTimeOffDays(t, start, end).Ok?
    ensures d in ExpandTimeOffDays(t, start, end).value
  {
    var row := t.rows[i];
    CoveringRowSelected(row, start, end, d);
    var spans := ParseSelected(t.rows, Iso(start), Iso(end)).value;
    var k := SpanOf(t.rows, Iso(start), Iso(end), row);
    assert SpanCovers(spans[k], start, end, d);
  }

  lemma CoveringRowSelected(row: TimeOffRow, start: Date, end: Date, d: Date)
    requires Canonical(row.startDate) && Canonical(row.endDate)
    requires ValidDate(start) && ValidDate(end) && start.year <= 9999 && end.year <= 9999
    requires DateCovers(row, start, end, d)
    ensures Selected(row, Iso(start), Iso(end))
  {
    CanonicalSelection(row, start, end);
  }

  /** Where a selected row sits among the parsed spans. */
  lemma SpanOf(rows: seq<TimeOffRow>, from: string, to: string, row: TimeOffRow) returns (k: int)
    requires row in rows && Selected(row, from, to)
    requires ParseSelected(rows, from, to).Ok?
    ensures 0 <= k < |ParseSelected(rows, from, to).value|
    ensures ParseSelected(rows, from, to).value[k].row == row
    ensures ParsedFrom(ParseSelected(rows, from, to).value[k])
  {
    var sel := SelectRows(rows, from, to);
    var spans := ParseSelected(rows, from, to).value;
    assert row in sel;
    k :| 0 <= k < |sel| && sel[k] == row;
    assert SpanRows(spans)[k] == row;
  }

  /** As written, a range stored as "2024-3-1".."2024-3-5" (accepted: strptime reads
      one-digit months and days) is missed by the window query for 2024-03-04..2024-03-08,
      because "2024-3-1" > "2024-03-08" as text; March 4 and 5 are not reported off. */
  lemma RawTextMissesRange()
    ensures var (t, id) := AddTimeOffAsWritten(EmptyTable, "2024-3-1", "2024-3-5", "vacation", None);
      && id.Ok?
      && DateCovers(t.rows[0], Date(2024, 3, 4), Date(2024, 3, 8), Date(2024, 3, 4))
      && ExpandTimeOffDays(t, Date(2024, 3, 4), Date(2024, 3, 8)) == Ok(map[])
  {
    RawAdd();
    RawRowCovers();
    RawRowNotSelected();
    NothingSelected(TimeOffTable([RawRow], 2), Date(2024, 3, 4), Date(2024, 3, 8));
  }

  const RawRow := TimeOffRow(1, "2024-3-1", "2024-3-5", "vacation", None)

  lemma RawAdd()
    ensures AddTimeOffAsWritten(EmptyTable, "2024-3-1", "2024-3-5", "vacation", None) == (TimeOffTable([RawRow], 2), Ok(1))
  {
    OneDigitFields();
    assert CheckRange("2024-3-1", "2024-3-5") == Ok((Date(2024, 3, 1), Date(2024, 3, 5)));
    assert EmptyTable.rows + [RawRow] == [RawRow];
  }

  lemma RawRowCovers()
    ensures DateCovers(RawRow, Date(2024, 3, 4), Date(2024, 3, 8), Date(2024, 3, 4))
  {
    OneDigitFields();
  }

  lemma RawRowNotSelected()
    ensures !Selected(RawRow, Iso(Date(2024, 3, 4)), Iso(Date(2024, 3, 8)))
  {
    IsoMarchEighth();
    TextLtAt("2024-03-08", "2024-3-1", 5);
  }

  lemma IsoMarchEighth()
    ensures Iso(Date(2024, 3, 8)) == "2024-03-08"
  {
    assert FixedWidth(2024, 4) == "2024";
    assert FixedWidth(3, 2) == "03";
    assert FixedWidth(8, 2) == "08";
  }

  /** A window no row is selected for maps nothing. */
  lemma NothingSelected(t: TimeOffTable, start: Date, end: Date)
    requires ValidDate(start) && ValidDate(end) && start.year <= 9999 && end.year <= 9999
    requires forall i :: 0 <= i < |t.rows| ==> !Selected(t.rows[i], Iso(start), Iso(end))
    ensures ExpandTimeOffDays(t, start, end) == Ok(map[])
  {
    assert SelectRows(t.rows, Iso(start), Iso(end)) == [];
    assert ParseSelected(t.rows, Iso(start), Iso(end)) == Ok([]);
    var r := ExpandTimeOffDays(t, start, end);
    assert forall d :: d !in r.value;
  }

  lemma OneDigitFields()
    ensures ParseDate("2024-3-1") == Ok(Date(2024, 3, 1))
    ensures ParseDate("2024-3-5") == Ok(Date(2024, 3, 5))
  {
    assert "2024-3-1"[..4] == "2024";
    assert "2024-3-1"[5..] == "3-1";
    assert "3-1"[..1] == "3" && "3-1"[2..] == "1";
    assert "2024-3-5"[..4] == "2024";
    assert "2024-3-5"[5..] == "3-5";
    assert "3-5"[..1] == "3" && "3-5"[2..] == "5";
    assert DecimalValue("2024") == 2024 by {
      assert "2024"[..3] == "202" && "202"[..2] == "20" && "20"[..1] == "2" && "2"[..0] == "";
    }
  }

  lemma IsoIsText(d: Date)
    requires ValidDate(d) && d.year <= 9999
    ensures Iso(d) == IsoText(d.year, d.month, d.day)
  {
  }

  /** Two texts that agree before index `k` and differ at `k`, the first being smaller there. */
  lemma TextLtAt(a: string, b: string, k: nat)
    requires k < |a| && k < |b| && a[..k] == b[..k] && a[k] < b[k]
    ensures TextLt(a, b)
  {
    var ca, cb := Codes(a), Codes(b);
    LexLeAppend(ca[..k], ca[k..], cb[..k], cb[k..]);
    assert ca[..k] == cb[..k];
    assert ca == ca[..k] + ca[k..] && cb == cb[..k] + cb[k..];
    assert ca[k..][0] < cb[k..][0];
  }

  /** Corrected, the same range is stored as "2024-03-01".."2024-03-05" and the window
      query finds it: March 4 and 5 are off, March 6 is not. */
  lemma CanonicalTextKeepsRange()
    ensures var (t, id) := AddTimeOff(EmptyTable, "2024-3-1", "2024-3-5", "vacation", None);
      && id.Ok?
      && ExpandTimeOffDays(t, Date(2024, 3, 4), Date(2024, 3, 8)).Ok?
      && Date(2024, 3, 4) in ExpandTimeOffDays(t, Date(2024, 3, 4), Date(2024, 3, 8)).value
      && Date(2024, 3, 5) in ExpandTimeOffDays(t, Date(2024, 3, 4), Date(2024, 3, 8)).value
      && Date(2024, 3, 6) !in ExpandTimeOffDays(t, Date(2024, 3, 4), Date(2024, 3, 8)).value
  {
    CanonicalAddRow();
    MarchFourthFifthMapped();
    MarchSixthUncovered();
  }

  lemma MarchFourthFifthMapped()
    ensures ExpandTimeOffDays(TimeOffTable([CanonRow], 2), Date(2024, 3, 4), Date(2024, 3, 8)).Ok?
    ensures Date(2024, 3, 4) in ExpandTimeOffDays(TimeOffTable([CanonRow], 2), Date(2024, 3, 4), Date(2024, 3, 8)).value
    ensures Date(2024, 3, 5) in ExpandTimeOffDays(TimeOffTable([CanonRow], 2), Date(2024, 3, 4), Date(2024, 3, 8)).value
  {
    CanonRowMapsMarch(2024, 3, 4);
    CanonRowMapsMarch(2024, 3, 5);
  }

  /** The example row, with year and month as variables: a table holding only the
      canonical range y-m-01..y-m-05 maps day `k` of the window y-m-04..y-m-08. */
  lemma CanonRowMapsMarch(y: int, m: int, k: int)
    requires y == 2024 && m == 3 && 4 <= k <= 5
    ensures var t := TimeOffTable([TimeOffRow(1, Iso(Date(y, m, 1)), Iso(Date(y, m, 5)), "vacation", None)], 2);
      && ExpandTimeOffDays(t, Date(y, m, 4), Date(y, m, 8)).Ok?
      && Date(y, m, k) in ExpandTimeOffDays(t, Date(y, m, 4), Date(y, m, 8)).value
  {
    IsoCanonical(Date(y, m, 1));
    IsoCanonical(Date(y, m, 5));
    SingleRowMaps(TimeOffRow(1, Iso(Date(y, m, 1)), Iso(Date(y, m, 5)), "vacation", None),
                  Date(y, m, 4), Date(y, m, 8), Date(y, m, k));
  }

  /** A table of one canonical row maps every date of the window that the row covers. */
  lemma SingleRowMaps(row: TimeOffRow, start: Date, end: Date, d: Date)
    requires Canonical(row.startDate) && Canonical(row.endDate)
    requires ValidDate(start) && ValidDate(end) && start.year <= 9999 && end.year <= 9999
    requires DateCovers(row, start, end, d)
    ensures ExpandTimeOffDays(TimeOffTable([row], 2), start, end).Ok?
    ensures d in ExpandTimeOffDays(TimeOffTable([row], 2), start, end).value
  {
    var t := TimeOffTable([row], 2);
    assert CanonicalTable(t);
    CanonicalParses(t, Iso(start), Iso(end));
    CoveredIsMapped(t, start, end, d, 0);
  }

  lemma MarchSixthUncovered()
    ensures ExpandTimeOffDays(TimeOffTable([CanonRow], 2), Date(2024, 3, 4), Date(2024, 3, 8)).Ok? ==>
      Date(2024, 3, 6) !in ExpandTimeOffDays(TimeOffTable([CanonRow], 2), Date(2024, 3, 4), Date(2024, 3, 8)).value
  {
    var t := TimeOffTable([CanonRow], 2);
    var start, end := Date(2024, 3, 4), Date(2024, 3, 8);
    CanonRowMissesSixth();
    if ExpandTimeOffDays(t, start, end).Ok? && Date(2024, 3, 6) in ExpandTimeOffDays(t, start, end).value {
      MappedIsCovered(t, start, end, Date(2024, 3, 6));
    }
  }

  lemma CanonRowMissesSixth()
    ensures !DateCovers(CanonRow, Date(2024, 3, 4), Date(2024, 3, 8), Date(2024, 3, 6))
  {
    CanonRowDates();
  }

  const CanonRow := TimeOffRow(1, Iso(Date(2024, 3, 1)), Iso(Date(2024, 3, 5)), "vacation", None)

  lemma CanonicalAddRow()
    ensures AddTimeOff(EmptyTable, "2024-3-1", "2024-3-5", "vacation", None) == (TimeOffTable([CanonRow], 2), Ok(1))
  {
    OneDigitFields();
    assert CheckRange("2024-3-1", "2024-3-5") == Ok((Date(2024, 3, 1), Date(2024, 3, 5)));
  }

  lemma CanonRowDates()
    ensures ParseDate(CanonRow.startDate) == Ok(Date(2024, 3, 1))
    ensures ParseDate(CanonRow.endDate) == Ok(Date(2024, 3, 5))
    ensures CanonicalTable(TimeOffTable([CanonRow], 2))
  {
    IsoCanonical(Date(2024, 3, 1));
    IsoCanonical(Date(2024, 3, 5));
  }

  // ---------------------------------------------------------------- routes

  /** GET /api/time-off: a given bound must parse; then the listing. */
  function GetTimeOff(t: TimeOffTable, from: Option<string>, to: Option<string>): (r: Result<seq<TimeOffRow>>)
    ensures r.Err? <==> (Given(from) && ParseDate(from.value).Err?) || (Given(to) && ParseDate(to.value).Err?)
    ensures r.Err? ==> r.error == InvalidDate
    ensures r.Ok? ==> r.value == ListTimeOff(t, from, to)
  {
    if Given(from) && ParseDate(from.value).Err? then Err(InvalidDate)
    else if Given(to) && ParseDate(to.value).Err? then Err(InvalidDate)
    else Ok(ListTimeOff(t, from, to))
  }

  /** POST /api/time-off: the same range checks as the service, the insert, then the full
      listing. Uses the corrected insert. */
  function CreateTimeOff(t: TimeOffTable, startDate: string, endDate: string, kind: string, caption: Option<string>)
    : (r: (TimeOffTable, Result<seq<TimeOffRow>>))
    requires ValidTable(t)
    ensures ValidTable(r.0)
    ensures r.1.Err? <==> CheckRange(startDate, endDate).Err?
    ensures r.1.Err? ==> r.0 == t && r.1.error == CheckRange(startDate, endDate).error
    ensures r.1.Ok? ==>
      var row := TimeOffRow(t.nextId, Iso(CheckRange(startDate, endDate).value.0),
                            Iso(CheckRange(startDate, endDate).value.1), kind, caption);
      && r.0 == TimeOffTable(t.rows + [row], t.nextId + 1)
      && multiset(r.1.value) == multiset(t.rows) + multiset{row}
      && SortedBy(r.1.value, RowKey)
  {
    match CheckRange(startDate, endDate)
    case Err(e) => (t, Err(e))
    case Ok(_) =>
      var t2 := AddTimeOff(t, startDate, endDate, kind, caption).0;
      var listed := ListTimeOff(t2, None, None);
      assert multiset(t2.rows) == multiset(t.rows) + multiset{t2.rows[|t.rows|]};
      (t2, Ok(listed))
  }

  /** DELETE /api/time-off/{id}: the delete, then the full listing. */
  function RemoveTimeOff(t: TimeOffTable, tid: int): (r: (TimeOffTable, seq<TimeOffRow>))
    requires ValidTable(t)
    ensures ValidTable(r.0)
    ensures forall x :: x in r.1 <==> x in t.rows && x.id != tid
    ensures SortedBy(r.1, RowKey)
  {
    var t2 := DeleteTimeOff(t, tid);
    (t2, ListTimeOff(t2, None, None))
  }
}

=== FILE: time_utils.dfy ===
/** backend/time_utils.py: `parse_date` and `validate_hhmm` (Python's `strptime`
    with "%Y-%m-%d" and "%H:%M"), `iso`, `now_hhmm`'s text, `dt_for` and
    `week_range_for`. Instants are whole seconds counted from 0001-01-01 00:00. */
module TimeUtils {
  import opened Wrappers
  import opened Digits
  import opened Dates

  /** A time of day as minutes after midnight. */
  type MinuteOfDay = m: int | 0 <= m < 1440

  /** The `%m` field of strptime: `1[0-2] | 0[1-9] | [1-9]`. */
  function MonthField(t: string): (r: Option<int>)
    ensures r.Some? ==> 1 <= r.value <= 12
  {
    if |t| == 2 && t[0] == '1' && '0' <= t[1] <= '2' then Some(10 + DigitValue(t[1]))
    else if |t| == 2 && t[0] == '0' && '1' <= t[1] <= '9' then Some(DigitValue(t[1]))
    else if |t| == 1 && '1' <= t[0] <= '9' then Some(DigitValue(t[0]))
    else None
  }

  /** The `%d` field of strptime: `3[01] | [12]\d | 0[1-9] | [1-9] | ' '[1-9]`. */
  function DayField(t: string): (r: Option<int>)
    ensures r.Some? ==> 1 <= r.value <= 31
  {
    if |t| == 2 && t[0] == '3' && '0' <= t[1] <= '1' then Some(30 + DigitValue(t[1]))
    else if |t| == 2 && '1' <= t[0] <= '2' && IsDigit(t[1]) then Some(10 * DigitValue(t[0]) + DigitValue(t[1]))
    else if |t| == 2 && (t[0] == '0' || t[0] == ' ') && '1' <= t[1] <= '9' then Some(DigitValue(t[1]))
    else if |t| == 1 && '1' <= t[0] <= '9' then Some(DigitValue(t[0]))
    else None
  }

  /** The `%H` field of strptime: `2[0-3] | [0-1]\d | \d`. */
  function HourField(t: string): (r: Option<int>)
    ensures r.Some? ==> 0 <= r.value <= 23
  {
    if |t| == 2 && t[0] == '2' && '0' <= t[1] <= '3' then Some(20 + DigitValue(t[1]))
    else if |t| == 2 && '0' <= t[0] <= '1' && IsDigit(t[1]) then Some(10 * DigitValue(t[0]) + DigitValue(t[1]))
    else if |t| == 1 && IsDigit(t[0]) then Some(DigitValue(t[0]))
    else None
  }

  /** The `%M` field of strptime: `[0-5]\d | \d`. */
  function MinuteField(t: string): (r: Option<int>)
    ensures r.Some? ==> 0 <= r.value <= 59
  {
    if |t| == 2 && '0' <= t[0] <= '5' && IsDigit(t[1]) then Some(10 * DigitValue(t[0]) + DigitValue(t[1]))
    else if |t| == 1 && IsDigit(t[0]) then Some(DigitValue(t[0]))
    else None
  }

  /** Where a one- or two-character field that starts at `s[0]` ends: the index of the
      separator `sep` right after it, or 0 when there is none. The field forms contain
      no separator, so the field is exactly the text before the first one. */
  function FieldEnd(s: string, sep: char): (k: nat)
    ensures k == 0 || (k <= 2 && k < |s| && s[k] == sep)
  {
    if |s| >= 2 && s[1] == sep then 1 else if |s| >= 3 && s[2] == sep then 2 else 0
  }

  /** `parse_date`: strptime(s, "%Y-%m-%d"); a four-digit year, then the month and day
      fields above, the whole text consumed, and a date that exists. */
  function ParseDate(s: string): (r: Result<Date>)
    ensures r.Ok? ==> ValidDate(r.value) && r.value.year <= 9999
    ensures r.Err? ==> r.error == InvalidDate
  {
    if |s| < 5 || !AllDigits(s[..4]) || s[4] != '-' then Err(InvalidDate)
    else
      var rest := s[5..];
      var k := FieldEnd(rest, '-');
      if k == 0 then Err(InvalidDate)
      else
        match (MonthField(rest[..k]), DayField(rest[k + 1..]))
        case (Some(m), Some(dd)) =>
          DecimalValueBound(s[..4]);
          var d := Date(DecimalValue(s[..4]), m, dd);
          if ValidDate(d) then Ok(d) else Err(InvalidDate)
        case _ => Err(InvalidDate)
  }

  /** `validate_hhmm` and the parse inside `dt_for`: strptime(s, "%H:%M") as minutes after midnight. */
  function ParseHHMM(s: string): (r: Result<MinuteOfDay>)
    ensures r.Err? ==> r.error == InvalidTime
  {
    var k := FieldEnd(s, ':');
    if k == 0 then Err(InvalidTime)
    else
      match (HourField(s[..k]), MinuteField(s[k + 1..]))
      case (Some(h), Some(m)) => Ok(h * 60 + m)
      case _ => Err(InvalidTime)
  }

  /** Zero-padded "YYYY-MM-DD" text of a year, month and day (`%Y-%m-%d`, `isoformat`). */
  function IsoText(y: nat, m: nat, d: nat): (s: string)
    ensures |s| == 10
  {
    FixedWidth(y, 4) + "-" + FixedWidth(m, 2) + "-" + FixedWidth(d, 2)
  }

  /** `iso(d)`: d.strftime("%Y-%m-%d"). */
  function Iso(d: Date): (s: string)
    requires ValidDate(d) && d.year <= 9999
    ensures |s| == 10
  {
    IsoText(d.year, d.month, d.day)
  }

  /** The spelling of `iso(d)`: four, two and two decimal digits, separated by dashes,
      whose values are the year, the month and the day. */
  lemma IsoSpelling(d: Date)
    requires ValidDate(d) && d.year <= 9999
    ensures var s := Iso(d);
      && |s| == 10 && s[4] == '-' && s[7] == '-'
      && AllDigits(s[..4]) && AllDigits(s[5..7]) && AllDigits(s[8..])
      && DecimalValue(s[..4]) == d.year && DecimalValue(s[5..7]) == d.month && DecimalValue(s[8..]) == d.day
  {
    var y, m, dd := FixedWidth(d.year, 4), FixedWidth(d.month, 2), FixedWidth(d.day, 2);
    DashJoin(y, m, dd);
    assert Pow10(4) == 10000 && Pow10(2) == 100;
    FixedWidthRoundTrip(d.year, 4);
    FixedWidthRoundTrip(d.month, 2);
    FixedWidthRoundTrip(d.day, 2);
  }

  /** The parts of a `YYYY-MM-DD` join sit at fixed positions. */
  lemma DashJoin(y: string, m: string, dd: string)
    requires |y| == 4 && |m| == 2 && |dd| == 2
    ensures var s := y + "-" + m + "-" + dd;
      && |s| == 10 && s[..4] == y && s[4] == '-' && s[5..7] == m && s[7] == '-' && s[8..] == dd
  {
    var s := y + "-" + m + "-" + dd;
    assert s[..4] == y;
    assert s[5..7] == m;
    assert s[8..] == dd;
  }

  /** `now_hhmm`'s text for a time of day: strftime("%H:%M"). */
  function FormatHHMM(t: MinuteOfDay): (s: string)
    ensures |s| == 5 && s[2] == ':' && AllDigits(s[..2]) && AllDigits(s[3..])
    ensures DecimalValue(s[..2]) * 60 + DecimalValue(s[3..]) == t && DecimalValue(s[3..]) < 60
  {
    var s := FixedWidth(t / 60, 2) + ":" + FixedWidth(t % 60, 2);
    assert s[..2] == FixedWidth(t / 60, 2) && s[3..] == FixedWidth(t % 60, 2);
    assert Pow10(2) == 100;
    FixedWidthRoundTrip(t / 60, 2);
    FixedWidthRoundTrip(t % 60, 2);
    s
  }

  /** The instant of second `secondOfDay` of day `d`. */
  function InstantOf(d: Date, secondOfDay: int): (r: int)
    requires ValidDate(d)
    ensures 0 <= secondOfDay < 86400 ==> r / 86400 == Ordinal(d) - 1 && r % 86400 == secondOfDay
  {
    (Ordinal(d) - 1) * 86400 + secondOfDay
  }

  /** `dt_for(day, hhmm)`: validates the text, then gives that time on that day. */
  function DtFor(day: Date, hhmm: string): (r: Result<int>)
    requires ValidDate(day)
    ensures r.Ok? <==> ParseHHMM(hhmm).Ok?
    ensures r.Ok? ==> r.value == InstantOf(day, 0) + 60 * ParseHHMM(hhmm).value
    ensures r.Ok? ==> InstantOf(day, 0) <= r.value < InstantOf(day, 86400)
  {
    var t :- ParseHHMM(hhmm);
    Ok(InstantOf(day, t * 60))
  }

  /** The Monday on or before `d`: `d - timedelta(days=d.weekday())`. */
  function MondayOf(d: Date): (monday: Date)
    requires ValidDate(d)
    ensures ValidDate(monday) && Weekday(monday) == 0
    ensures Ordinal(monday) <= Ordinal(d) <= Ordinal(monday) + 6
  {
    var w := Weekday(d);
    MondayNotBeforeDayOne(Ordinal(d));
    var monday := AddDays(d, -w);
    WeekdayShift(d, monday, -w);
    ShiftCancels(w);
    monday
  }

  /** `week_range_for(d)`: the Monday on or before `d` and the Friday four days after it. */
  function WeekRangeFor(d: Date): (r: (Date, Date))
    requires ValidDate(d)
    ensures ValidDate(r.0) && ValidDate(r.1)
    ensures Weekday(r.0) == 0 && Weekday(r.1) == 4
    ensures Ordinal(r.1) == Ordinal(r.0) + 4
    ensures Ordinal(r.0) <= Ordinal(d) <= Ordinal(r.0) + 6
  {
    var monday := MondayOf(d);
    var friday := AddDays(monday, 4);
    FourAfterMonday(monday, friday);
    (monday, friday)
  }

  // ---------------------------------------------------------------------------
  // Properties of the parsers and of the week range

  /** Day 1 (0001-01-01) is a Monday, so no week starts before it. */
  lemma MondayNotBeforeDayOne(o: int)
    requires o >= 1
    ensures o - (o + 6) % 7 >= 1
  {
  }

  lemma FourAfterMonday(monday: Date, friday: Date)
    requires ValidDate(monday) && ValidDate(friday)
    requires Weekday(monday) == 0 && Ordinal(friday) == Ordinal(monday) + 4
    ensures Weekday(friday) == 4
  {
    WeekdayShift(monday, friday, 4);
  }

  lemma ShiftCancels(w: int)
    requires 0 <= w < 7
    ensures (w + -w) % 7 == 0
  {
  }

  lemma TwoDigits(n: nat)
    requires n < 100
    ensures FixedWidth(n, 2) == [DigitChar(n / 10), DigitChar(n % 10)]
  {
  }

  lemma FourDigitYear(y: nat)
    requires y < 10000
    ensures AllDigits(FixedWidth(y, 4)) && DecimalValue(FixedWidth(y, 4)) == y
  {
    assert Pow10(4) == 10000;
    FixedWidthRoundTrip(y, 4);
  }

  /** The month field reads a zero-padded month back exactly when it is 1..12. */
  lemma MonthFieldOfTwoDigits(m: nat)
    requires m < 100
    ensures MonthField(FixedWidth(m, 2)) == if 1 <= m <= 12 then Some(m) else None
  {
    TwoDigits(m);
  }

  /** The day field reads a zero-padded day back exactly when it is 1..31. */
  lemma DayFieldOfTwoDigits(d: nat)
    requires d < 100
    ensures DayField(FixedWidth(d, 2)) == if 1 <= d <= 31 then Some(d) else None
  {
    TwoDigits(d);
  }

  /** On zero-padded "YYYY-MM-DD" text, `parse_date` succeeds exactly on dates that exist,
      and then yields that date. */
  lemma ParseIsoText(y: nat, m: nat, d: nat)
    requires y < 10000 && m < 100 && d < 100
    ensures ParseDate(IsoText(y, m, d)) == if ValidDate(Date(y, m, d)) then Ok(Date(y, m, d)) else Err(InvalidDate)
  {
    var s := IsoText(y, m, d);
    assert s[..4] == FixedWidth(y, 4);
    FourDigitYear(y);
    var rest := s[5..];
    assert rest == FixedWidth(m, 2) + "-" + FixedWidth(d, 2);
    TwoDigits(m);
    assert FieldEnd(rest, '-') == 2;
    assert rest[..2] == FixedWidth(m, 2);
    assert rest[3..] == FixedWidth(d, 2);
    MonthFieldOfTwoDigits(m);
    DayFieldOfTwoDigits(d);
  }

  /** `parse_date(iso(d)) == d`. */
  lemma IsoRoundTrip(d: Date)
    requires ValidDate(d) && d.year <= 9999
    ensures ParseDate(Iso(d)) == Ok(d)
  {
    ParseIsoText(d.year, d.month, d.day);
  }

  /** February 29 parses exactly in leap years. */
  lemma LeapDayParses(y: nat)
    requires 1 <= y <= 9999
    ensures ParseDate(IsoText(y, 2, 29)).Ok? <==> IsLeapYear(y)
  {
    ParseIsoText(y, 2, 29);
  }

  /** The hour field reads a zero-padded hour back exactly when it is 0..23. */
  lemma HourFieldOfTwoDigits(h: nat)
    requires h < 100
    ensures HourField(FixedWidth(h, 2)) == if h <= 23 then Some(h) else None
  {
    TwoDigits(h);
  }

  /** The minute field reads a zero-padded minute back exactly when it is 0..59. */
  lemma MinuteFieldOfTwoDigits(m: nat)
    requires m < 100
    ensures MinuteField(FixedWidth(m, 2)) == if m <= 59 then Some(m) else None
  {
    TwoDigits(m);
  }

  /** On zero-padded "HH:MM" text, `validate_hhmm` accepts exactly hours 0..23 and
      minutes 0..59, and the time is HH * 60 + MM minutes after midnight. */
  lemma ParseClockText(h: nat, m: nat)
    requires h < 100 && m < 100
    ensures ParseHHMM(FixedWidth(h, 2) + ":" + FixedWidth(m, 2)).Ok? <==> h <= 23 && m <= 59
    ensures h <= 23 && m <= 59 ==> ParseHHMM(FixedWidth(h, 2) + ":" + FixedWidth(m, 2)).value == h * 60 + m
  {
    var s := FixedWidth(h, 2) + ":" + FixedWidth(m, 2);
    TwoDigits(h);
    assert FieldEnd(s, ':') == 2;
    assert s[..2] == FixedWidth(h, 2);
    assert s[3..] == FixedWidth(m, 2);
    HourFieldOfTwoDigits(h);
    MinuteFieldOfTwoDigits(m);
  }

  /** Reading back `now_hhmm`'s text gives the same time of day. */
  lemma ClockRoundTrip(t: MinuteOfDay)
    ensures ParseHHMM(FormatHHMM(t)) == Ok(t)
  {
    ParseClockText(t / 60, t % 60);
  }
}

=== FILE: tracker_view.dfy ===
/** frontend/src/components/TimeTrackerView.jsx (and the identical `Progress` in
    frontend/src/App.jsx): the progress bar figures, the status line under it, the
    enabled state of the four buttons and the day's status label. */
module TrackerView {
  import opened Wrappers
  import opened DayService
  import opened FrontendTime

  /** `Math.round(num / den)` for a positive `den`: the nearest integer, halves rounded up.
      The source divides floating point numbers; this is the exact rational result. */
  function RoundDiv(num: int, den: int): (r: int)
    requires den > 0
    ensures 2 * r * den - den <= 2 * num < 2 * r * den + den
  {
    var q := (2 * num + den) / (2 * den);
    var rem := (2 * num + den) % (2 * den);
    assert 2 * num + den == q * (2 * den) + rem && 0 <= rem < 2 * den;
    q
  }

  /** `pct` (and, applied to `soft`, `softPct`): the share of `hard` in whole percent,
      capped at 100, and 0 when there is no positive hard target. */
  function Percent(value: int, hard: int): (pct: int)
    ensures hard <= 0 ==> pct == 0
    ensures hard > 0 && value >= 0 ==> 0 <= pct <= 100
    ensures hard > 0 && value >= hard ==> pct == 100
    ensures hard > 0 && pct < 100 ==> 2 * pct * hard - hard <= 200 * value < 2 * pct * hard + hard
    ensures hard > 0 && 0 <= value <= hard ==> pct == RoundDiv(100 * value, hard)
  {
    if hard > 0 then
      var r := RoundDiv(100 * value, hard);
      RoundDivAtLeast(0, 100 * value, hard);
      RoundDivAtLeast(100, 100 * value, hard);
      RoundDivAtMost(100, 100 * value, hard);
      if r < 100 then r else 100
    else 0
  }

  /** Rounding a quotient that is at least `k` gives at least `k`. */
  lemma RoundDivAtLeast(k: int, num: int, den: int)
    requires den > 0
    ensures num >= k * den ==> RoundDiv(num, den) >= k
  {
    var r := RoundDiv(num, den);
    if num >= k * den && r < k {
      MulMonotone(r + 1, k, den);
    }
  }

  /** `a <= b` scales by a positive factor. */
  lemma MulMonotone(a: int, b: int, c: int)
    requires a <= b && c > 0
    ensures a * c <= b * c
  {
    var d := b - a;
    assert b * c == a * c + d * c;
  }

  /** Rounding keeps the order of the numerators. */
  lemma RoundDivMonotone(n1: int, n2: int, den: int)
    requires den > 0 && n1 <= n2
    ensures RoundDiv(n1, den) <= RoundDiv(n2, den)
  {
    var r1, r2 := RoundDiv(n1, den), RoundDiv(n2, den);
    if r1 > r2 {
      MulMonotone(r2 + 1, r1, den);
    }
  }

  /** More minutes never shorten the bar. */
  lemma PercentMonotone(v1: int, v2: int, hard: int)
    requires v1 <= v2
    ensures Percent(v1, hard) <= Percent(v2, hard)
  {
    if hard > 0 {
      RoundDivMonotone(100 * v1, 100 * v2, hard);
    }
  }

  /** With 0 <= soft <= hard the soft marker sits on the bar without being capped. */
  lemma SoftMarkerUncapped(soft: int, hard: int)
    requires 0 <= soft <= hard && hard > 0
    ensures Percent(soft, hard) == RoundDiv(100 * soft, hard)
  {
    MulMonotone(soft, hard, 100);
    RoundDivAtMost(100, 100 * soft, hard);
  }

  /** Rounding a quotient that is at most `k` gives at most `k`. */
  lemma RoundDivAtMost(k: int, num: int, den: int)
    requires den > 0
    ensures num <= k * den ==> RoundDiv(num, den) <= k
  {
    var r := RoundDiv(num, den);
    if num <= k * den && r > k {
      MulMonotone(k + 1, r, den);
    }
  }

  /** The status line: over the hard target, over the soft one, or short of the soft one. */
  datatype ProgressStatus =
    | OverHardBy(over: int)
    | OverSoftBy(over: int, hardLeft: int)
    | SoftRemaining(left: int)

  /** `statusText`'s branch and the amounts it prints. */
  function Status(value: int, soft: int, hard: int): (st: ProgressStatus)
    ensures st.OverHardBy? <==> value > hard
    ensures st.OverSoftBy? <==> soft < value <= hard
    ensures st.SoftRemaining? <==> value <= soft && value <= hard
    ensures st.OverHardBy? ==> st.over > 0 && st.over + hard == value
    ensures st.OverSoftBy? ==> st.over > 0 && st.hardLeft >= 0 && st.over + soft == value && st.hardLeft + value == hard
    ensures st.SoftRemaining? ==> st.left >= 0 && st.left + value == soft
  {
    if value > hard then OverHardBy(value - hard)
    else if value > soft then OverSoftBy(value - soft, hard - value)
    else SoftRemaining(soft - value)
  }

  /** The frontend's status line and the backend's `status` block classify a day alike
      and show the same amounts. */
  lemma StatusAgreesWithBackend(net: int, soft: int, hard: int)
    ensures var st, f := Status(net, soft, hard), Classify(net, soft, hard);
      && (st.OverHardBy? <==> f.daily == OverHard)
      && (st.OverSoftBy? <==> f.daily == BetweenSoftAndHard)
      && (st.SoftRemaining? <==> f.daily == UnderSoft)
      && (st.OverHardBy? ==> st.over == f.overHardBy)
      && (st.OverSoftBy? ==> st.over == f.overSoftBy && st.hardLeft == f.hardRemaining)
      && (st.SoftRemaining? ==> st.left == f.softRemaining)
  {
  }

  /** `statusText`. */
  function StatusText(st: ProgressStatus): (s: string)
    ensures st.OverHardBy? ==> s == "Over HARD by " + MinutesToHHMM(st.over)
    ensures st.OverSoftBy? ==>
      s == "Over soft by " + MinutesToHHMM(st.over) + " • Hard remaining " + MinutesToHHMM(st.hardLeft)
    ensures st.SoftRemaining? ==> s == "Soft remaining " + MinutesToHHMM(st.left)
  {
    match st
    case OverHardBy(over) => "Over HARD by " + MinutesToHHMM(over)
    case OverSoftBy(over, left) => "Over soft by " + MinutesToHHMM(over) + " • Hard remaining " + MinutesToHHMM(left)
    case SoftRemaining(left) => "Soft remaining " + MinutesToHHMM(left)
  }

  /** The fields of the `day` object the view reads; `None` is null or missing. */
  datatype DayJson = DayJson(
    startTime: Option<string>, endTime: Option<string>, breakMinutes: Option<int>,
    breakRunning: Option<bool>, netMinutes: Option<int>, dailySoft: Option<int>, dailyHard: Option<int>)

  /** `!!day?.start_time`. */
  predicate Started(day: Option<DayJson>) {
    day.Some? && Present(day.value.startTime)
  }

  /** `!!day?.end_time`. */
  predicate Ended(day: Option<DayJson>) {
    day.Some? && Present(day.value.endTime)
  }

  /** `!!day?.break_running`. */
  predicate OnBreak(day: Option<DayJson>) {
    day.Some? && day.value.breakRunning == Some(true)
  }

  /** The four buttons' `disabled` attributes. */
  datatype Buttons = Buttons(startNow: bool, endNow: bool, startBreak: bool, endBreak: bool)

  function ButtonsDisabled(day: Option<DayJson>): (b: Buttons)
    ensures b.startNow <==> Started(day)
    ensures b.endNow <==> !Started(day)
    ensures !b.startBreak <==> Started(day) && !Ended(day) && !OnBreak(day)
    ensures !b.endBreak <==> OnBreak(day)
  {
    Buttons(Started(day), !Started(day), !Started(day) || Ended(day) || OnBreak(day), !OnBreak(day))
  }

  /** Exactly one of "Start now" and "End now" is enabled, and never both break buttons. */
  lemma ButtonsExclusive(day: Option<DayJson>)
    ensures ButtonsDisabled(day).startNow != ButtonsDisabled(day).endNow
    ensures ButtonsDisabled(day).startBreak || ButtonsDisabled(day).endBreak
    ensures !ButtonsDisabled(day).startBreak ==> ButtonsDisabled(day).startNow && !ButtonsDisabled(day).endNow
  {
  }

  /** The status label under the date picker: the start part, " • ", and the end part. */
  function DayLabel(d: DayJson): (s: string)
    ensures |s| == |StartPart(d)| + 3 + |EndPart(d)|
    ensures s[..|StartPart(d)|] == StartPart(d) && s[|s| - |EndPart(d)|..] == EndPart(d)
    ensures s[|StartPart(d)|..|StartPart(d)| + 3] == " • "
  {
    StartPart(d) + " • " + EndPart(d)
  }

  function StartPart(d: DayJson): (s: string)
    ensures |s| >= 7 && s[0] == (if Present(d.startTime) then 'S' else 'N')
    ensures Present(d.startTime) ==> s == "Start " + d.startTime.value
    ensures !Present(d.startTime) ==> s == "Not started"
  {
    if Present(d.startTime) then "Start " + d.startTime.value else "Not started"
  }

  function EndPart(d: DayJson): (s: string)
    ensures |s| >= 1
    ensures Present(d.endTime) ==> s == "End " + d.endTime.value
    ensures !Present(d.endTime) ==> (s == "On break…" <==> d.breakRunning == Some(true))
    ensures !Present(d.endTime) && d.breakRunning != Some(true) ==> s == "Running…"
  {
    if Present(d.endTime) then "End " + d.endTime.value
    else if d.breakRunning == Some(true) then "On break…"
    else "Running…"
  }

  /** The label opens with "Not started" exactly when there is no start time, and ends in
      the end time when there is one, otherwise in "On break…" while a break runs and in
      "Running…" when none does. */
  lemma LabelParts(d: DayJson)
    ensures DayLabel(d)[..11] == "Not started" <==> !Present(d.startTime)
    ensures Present(d.startTime) ==>
      DayLabel(d)[..6 + |d.startTime.value| + 3] == "Start " + d.startTime.value + " • "
    ensures !Present(d.endTime) && d.breakRunning != Some(true) ==>
      DayLabel(d)[|DayLabel(d)| - 8..] == "Running…"
    ensures !Present(d.endTime) && d.breakRunning == Some(true) ==>
      DayLabel(d)[|DayLabel(d)| - 9..] == "On break…"
    ensures Present(d.endTime) ==> DayLabel(d)[|DayLabel(d)| - |d.endTime.value| - 4..] == "End " + d.endTime.value
  {
    var a, b := StartPart(d), EndPart(d);
    var s := DayLabel(d);
    if Present(d.startTime) {
      assert s[..11][0] == 'S';
    } else {
      assert s[..11] == a;
    }
    assert s[|s| - |b|..] == b;
  }
}

=== FILE: week.dfy ===
/** backend/services/week_service.py: the Monday-to-Friday window of a date, the
    off-day map of that window, the five day summaries, the weekly targets scaled by the
    number of working days, and the per-day pace over the working days left. `today`
    and `now` are parameters. */
module Week {
  import opened Wrappers
  import opened Digits
  import opened Dates
  import opened TimeUtils
  import opened Settings
  import opened DayService
  import opened TimeOff
  import opened Recurring
  import opened OffDays

  /** `_week_bounds`: the Monday on or before the parsed date, and the Friday after it. */
  function WeekBounds(dayText: string): (r: Result<(Date, Date)>)
    ensures r.Ok? <==> ParseDate(dayText).Ok?
    ensures r.Err? ==> r.error == InvalidDate
    ensures r.Ok? ==> r.value == WeekRangeFor(ParseDate(dayText).value)
    ensures r.Ok? ==>
      var (monday, friday) := r.value;
      var anchor := ParseDate(dayText).value;
      && Printable(monday) && Printable(friday)
      && Weekday(monday) == 0 && Weekday(friday) == 4
      && Ordinal(friday) == Ordinal(monday) + 4
      && Ordinal(monday) <= Ordinal(anchor) <= Ordinal(monday) + 6
  {
    var anchor :- ParseDate(dayText);
    FridayPrintable(anchor);
    Ok(WeekRangeFor(anchor))
  }

  /** 9999-12-31, the last date Python can represent, is a Friday. */
  lemma LastDateIsFriday()
    ensures ValidDate(Date(9999, 12, 31)) && Ordinal(Date(9999, 12, 31)) == 3652059
    ensures Weekday(Date(9999, 12, 31)) == 4
  {
    DaysBeforeYearClosedForm(9999);
    assert GregorianDays(9998) == 3651694;
  }

  /** The week of a representable date ends on a representable Friday. */
  lemma FridayPrintable(anchor: Date)
    requires Printable(anchor)
    ensures Printable(WeekRangeFor(anchor).0) && Printable(WeekRangeFor(anchor).1)
  {
    var (monday, friday) := WeekRangeFor(anchor);
    var last := Date(9999, 12, 31);
    LastDateIsFriday();
    NotAfter(anchor, last);
    LastMondayBound(Ordinal(monday));
    if friday.year > 9999 {
      OrdinalOrder(last, friday);
    }
    if monday.year > 9999 {
      OrdinalOrder(last, monday);
    }
  }

  /** A date in year 9999 or earlier has an ordinal no greater than that of 9999-12-31. */
  lemma NotAfter(d: Date, last: Date)
    requires Printable(d) && last == Date(9999, 12, 31) && ValidDate(last)
    ensures Ordinal(d) <= Ordinal(last)
  {
    OrdinalOrder(d, last);
    assert d == last || Before(d, last);
  }

  /** The last Monday with a Friday on or before ordinal 3652059 is 3652055. */
  lemma LastMondayBound(o: int)
    requires (o + 6) % 7 == 0 && o <= 3652059
    ensures o + 4 <= 3652059
  {
  }

  /** `_ceil_div`: the quotient rounded up for a positive divisor, `a` itself otherwise. */
  function CeilDiv(a: int, b: int): (q: int)
    ensures b <= 0 ==> q == a
    ensures b > 0 ==> q * b >= a && (q - 1) * b < a
  {
    if b <= 0 then a
    else
      var q := (a + b - 1) / b;
      var rem := (a + b - 1) % b;
      assert a + b - 1 == q * b + rem && 0 <= rem < b;
      assert (q - 1) * b == q * b - b;
      q
  }

  /** `_ceil_div(a, b)` with a non-negative `a` and a positive `b` is the least `q` with q·b ≥ a. */
  lemma CeilDivLeast(a: int, b: int, q: int)
    requires a >= 0 && b > 0 && q * b >= a
    ensures CeilDiv(a, b) <= q
    ensures CeilDiv(a, b) >= 0
  {
    var c := CeilDiv(a, b);
    if c > q {
      assert (c - 1) * b >= q * b by {
        assert c - 1 >= q;
        MulMonotone(q, c - 1, b);
      }
    }
    if c < 0 {
      assert c * b < 0 by {
        MulMonotone(c, -1, b);
      }
    }
  }

  lemma MulMonotone(x: int, y: int, b: int)
    requires x <= y && b > 0
    ensures x * b <= y * b
  {
  }

  /** What `compute_week` returns. */
  datatype WeekView = WeekView(
    weekStart: Date, weekEnd: Date,
    dailySoft: int, dailyHard: int,
    workingDays: int, weeklySoft: int, weeklyHard: int,
    weekNet: int, days: seq<DayEntry>,
    remainingWorkdays: int, hardRemaining: int, softRemaining: int,
    paceHard: Option<int>, paceSoft: Option<int>)

  /** Days without an off entry. */
  function CountWorking(days: seq<DayEntry>): (n: int)
    ensures 0 <= n <= |days|
  {
    if |days| == 0 then 0 else CountWorking(days[..|days| - 1]) + if days[|days| - 1].isOff then 0 else 1
  }

  /** Days without an off entry that are `today` or later. */
  function CountRemaining(days: seq<DayEntry>, today: Date): (n: int)
    ensures 0 <= n <= CountWorking(days)
  {
    if |days| == 0 then 0
    else
      var last := days[|days| - 1];
      CountRemaining(days[..|days| - 1], today) + if AtOrBefore(today, last.date) && !last.isOff then 1 else 0
  }

  /** The sum of the days' net minutes, off days included. */
  function SumNet(days: seq<DayEntry>): (n: int)
    ensures (forall i :: 0 <= i < |days| ==> days[i].summary.net >= 0) ==> n >= 0
    ensures (forall i :: 0 <= i < |days| ==> days[i].summary.net == 0) ==> n == 0
  {
    if |days| == 0 then 0 else SumNet(days[..|days| - 1]) + days[|days| - 1].summary.net
  }

  /** A stored setting read with int(). */
  function ReadTarget(stored: SettingsStore, key: string): (r: Result<int>)
    requires key in Defaults
    ensures r.Ok? <==> SettingInt(stored, key).Some?
    ensures r.Ok? ==> r.value == SettingInt(stored, key).value
    ensures r.Err? ==> r.error == SettingsNotInteger
  {
    match SettingInt(stored, key)
    case Some(n) => Ok(n)
    case None => Err(SettingsNotInteger)
  }

  /** The pace figures for the minutes left and the working days left. */
  function Pace(remainingMinutes: int, remainingDays: int): (p: Option<int>)
    ensures p.None? <==> remainingDays <= 0
    ensures p.Some? && remainingMinutes >= 0 ==>
      && p.value >= 0
      && p.value * remainingDays >= remainingMinutes
      && (p.value - 1) * remainingDays < remainingMinutes
  {
    if remainingDays > 0 then Some(CeilDiv(remainingMinutes, remainingDays)) else None
  }

  /** The shape of a week view: a representable Monday-to-Friday window and its five
      dates in order, each on its weekday. */
  predicate WindowShape(w: WeekView) {
    && Printable(w.weekStart) && Printable(w.weekEnd)
    && Weekday(w.weekStart) == 0 && Ordinal(w.weekEnd) == Ordinal(w.weekStart) + 4
    && |w.days| == 5
    && forall i :: 0 <= i < 5 ==>
         && Printable(w.days[i].date)
         && Ordinal(w.days[i].date) == Ordinal(w.weekStart) + i
         && Weekday(w.days[i].date) == i
  }

  /** Every day's off entry is the personal range the expansion maps it to, otherwise
      the recurring holiday on its month and day. */
  predicate OffEntriesMatch(rec: RecurringTable, timeoff: TimeOffTable, w: WeekView)
    requires WindowShape(w)
  {
    && ExpandTimeOffDays(timeoff, w.weekStart, w.weekEnd).Ok?
    && forall i :: 0 <= i < 5 ==>
         w.days[i].isOff == w.days[i].off.Some? &&
         w.days[i].off == OffFor(ExpandTimeOffDays(timeoff, w.weekStart, w.weekEnd).value,
                                 WeekHoliday(rec.rows, w.days[i].date), w.days[i].date)
  }

  /** Every day's summary is that of its stored row, or of an empty row where allowed. */
  predicate SummariesMatch(policy: RowPolicy, stored: SettingsStore, store: DayStore, now: int, w: WeekView)
    requires WindowShape(w)
  {
    forall i :: 0 <= i < 5 ==> StoredOrEmpty(policy, stored, store, w.days[i].date, w.days[i].summary, now)
  }

  /** The weekly figures: working days are the days without an off entry, the weekly
      targets are the daily ones times that count, the net is the sum over all five
      days, the remainders never go below zero, and the pace spreads each remainder
      over the working days from `today` on, rounded up. */
  predicate FiguresMatch(today: Date, w: WeekView) {
    && w.workingDays == CountWorking(w.days)
    && w.weekNet == SumNet(w.days)
    && w.weeklySoft == w.dailySoft * w.workingDays && w.weeklyHard == w.dailyHard * w.workingDays
    && 0 <= w.weeklySoft <= w.weeklyHard
    && w.remainingWorkdays == CountRemaining(w.days, today)
    && w.hardRemaining == Max0(w.weeklyHard - w.weekNet)
    && w.softRemaining == Max0(w.weeklySoft - w.weekNet)
    && w.paceHard == Pace(w.hardRemaining, w.remainingWorkdays)
    && w.paceSoft == Pace(w.softRemaining, w.remainingWorkdays)
  }

  /** `compute_week`, with the treatment of dates without a stored row as a parameter.
      The recurring table's month/day keys are unique (its UNIQUE constraint), so the
      first row with a key is the one `rec_lookup` keeps. */
  function ComputeWeekWith(policy: RowPolicy, stored: SettingsStore, store: DayStore, rec: RecurringTable,
                           timeoff: TimeOffTable, dayText: string, today: Date, now: int): (r: Result<WeekView>)
    ensures ParseDate(dayText).Err? ==> r == Err(InvalidDate)
    ensures ParseDate(dayText).Ok? && (SettingInt(stored, SoftKey).None? || SettingInt(stored, HardKey).None?) ==>
      r == Err(SettingsNotInteger)
    ensures r.Ok? ==> ParseDate(dayText).Ok? && GetTargets(stored).Ok?
    ensures r.Ok? <==>
      && WeekBounds(dayText).Ok?
      && SettingInt(stored, SoftKey).Some? && SettingInt(stored, HardKey).Some?
      && var (monday, friday) := WeekBounds(dayText).value;
         && ExpandTimeOffDays(timeoff, monday, friday).Ok?
         && WindowSummarises(policy, stored, store, WeekDates(monday, friday), now)
    ensures r.Ok? ==> (r.value.weekStart, r.value.weekEnd) == WeekBounds(dayText).value
    ensures r.Ok? ==>
      && r.value.dailySoft == GetTargets(stored).value.dailySoft
      && r.value.dailyHard == GetTargets(stored).value.dailyHard
    ensures r.Ok? ==> WindowShape(r.value)
    ensures r.Ok? ==> OffEntriesMatch(rec, timeoff, r.value)
    ensures r.Ok? ==> SummariesMatch(policy, stored, store, now, r.value)
    ensures r.Ok? ==> FiguresMatch(today, r.value)
  {
    var bounds :- WeekBounds(dayText);
    var (monday, friday) := bounds;
    var soft :- ReadTarget(stored, SoftKey);
    var hard :- ReadTarget(stored, HardKey);
    var personal :- ExpandTimeOffDays(timeoff, monday, friday);
    WeekFromRows(policy, stored, store, rec, timeoff, dayText, soft, hard, today, now)
  }

  /** The summary loop and assembly of `compute_week`, once the date, both targets and
      the week's time off have been read. */
  function WeekFromRows(policy: RowPolicy, stored: SettingsStore, store: DayStore, rec: RecurringTable,
                        timeoff: TimeOffTable, dayText: string, soft: int, hard: int, today: Date, now: int)
    : (r: Result<WeekView>)
    requires WeekBounds(dayText).Ok?
    requires ReadTarget(stored, SoftKey) == Ok(soft) && ReadTarget(stored, HardKey) == Ok(hard)
    requires ExpandTimeOffDays(timeoff, WeekBounds(dayText).value.0, WeekBounds(dayText).value.1).Ok?
    ensures r.Ok? ==> GetTargets(stored).Ok?
    ensures r.Ok? <==>
      var (monday, friday) := WeekBounds(dayText).value;
      WindowSummarises(policy, stored, store, WeekDates(monday, friday), now)
    ensures r.Ok? ==> (r.value.weekStart, r.value.weekEnd) == WeekBounds(dayText).value
    ensures r.Ok? ==>
      && r.value.dailySoft == GetTargets(stored).value.dailySoft
      && r.value.dailyHard == GetTargets(stored).value.dailyHard
    ensures r.Ok? ==> WindowShape(r.value) && OffEntriesMatch(rec, timeoff, r.value)
    ensures r.Ok? ==> SummariesMatch(policy, stored, store, now, r.value) && FiguresMatch(today, r.value)
  {
    var (monday, friday) := WeekBounds(dayText).value;
    var dates := WeekDates(monday, friday);
    SummariesOkIff(policy, stored, store, monday, friday, dates, now);
    match Summaries(policy, stored, FetchDayRows(store, monday, friday), dates, now)
    case Err(e) => Err(e)
    case Ok(summaries) =>
      SummariesOfWindow(policy, stored, store, monday, friday, dates, summaries, now);
      Ok(AssembleWeek(policy, stored, store, rec, timeoff, monday, friday, summaries, soft, hard, today, now))
  }

  /** The week view from the summaries of the window's dates and the daily targets. */
  function AssembleWeek(policy: RowPolicy, stored: SettingsStore, store: DayStore, rec: RecurringTable,
                        timeoff: TimeOffTable, monday: Date, friday: Date, summaries: seq<DaySummary>,
                        soft: int, hard: int, today: Date, now: int): (w: WeekView)
    requires Printable(monday) && Printable(friday) && Ordinal(friday) == Ordinal(monday) + 4 && Weekday(monday) == 0
    requires 0 <= soft <= hard && ExpandTimeOffDays(timeoff, monday, friday).Ok?
    requires |summaries| == 5
    requires forall i :: 0 <= i < 5 ==>
      StoredOrEmpty(policy, stored, store, WeekDates(monday, friday)[i], summaries[i], now)
    ensures w.weekStart == monday && w.weekEnd == friday && w.dailySoft == soft && w.dailyHard == hard
    ensures WindowShape(w) && OffEntriesMatch(rec, timeoff, w)
    ensures SummariesMatch(policy, stored, store, now, w) && FiguresMatch(today, w)
  {
    var dates := WeekDates(monday, friday);
    var personal := ExpandTimeOffDays(timeoff, monday, friday).value;
    var days := AssembleDays(policy, stored, store, dates, summaries, personal, d => WeekHoliday(rec.rows, d), now);
    Totals(days, soft, hard, today, monday, friday)
  }

  /** The weekly figures from the day entries and the daily targets. */
  function Totals(days: seq<DayEntry>, soft: int, hard: int, today: Date, monday: Date, friday: Date)
    : (w: WeekView)
    requires 0 <= soft <= hard
    ensures w.days == days && w.weekStart == monday && w.weekEnd == friday
    ensures w.dailySoft == soft && w.dailyHard == hard
    ensures FiguresMatch(today, w)
  {
    var working := CountWorking(days);
    var net := SumNet(days);
    WeeklyOrdered(soft, hard, working);
    var weeklySoft, weeklyHard := soft * working, hard * working;
    var remaining := CountRemaining(days, today);
    var hardLeft, softLeft := Max0(weeklyHard - net), Max0(weeklySoft - net);
    WeekView(monday, friday, soft, hard, working, weeklySoft, weeklyHard, net, days,
             remaining, hardLeft, softLeft, Pace(hardLeft, remaining), Pace(softLeft, remaining))
  }

  /** `compute_week` corrected: a date without a stored row reads as an empty day. */
  function ComputeWeek(stored: SettingsStore, store: DayStore, rec: RecurringTable, timeoff: TimeOffTable,
                       dayText: string, today: Date, now: int): (r: Result<WeekView>)
    ensures r.Ok? ==> forall i :: 0 <= i < |r.value.days| ==>
      Printable(r.value.days[i].date) && StoredOrEmpty(MissingIsEmpty, stored, store, r.value.days[i].date, r.value.days[i].summary, now)
  {
    ComputeWeekWith(MissingIsEmpty, stored, store, rec, timeoff, dayText, today, now)
  }

  /** `compute_week` as written: `row_map.get` gives `None` for a date without a stored row. */
  function ComputeWeekAsWritten(stored: SettingsStore, store: DayStore, rec: RecurringTable, timeoff: TimeOffTable,
                                dayText: string, today: Date, now: int): (r: Result<WeekView>)
    ensures r.Ok? ==> forall i :: 0 <= i < |r.value.days| ==>
      Printable(r.value.days[i].date) && Iso(r.value.days[i].date) in store
  {
    var r := ComputeWeekWith(AsWritten, stored, store, rec, timeoff, dayText, today, now);
    if r.Ok? then AsWrittenHasRows(r.value, stored, store, now); r else r
  }

  /** Summaries built as written only exist for dates with a stored row. */
  lemma AsWrittenHasRows(w: WeekView, stored: SettingsStore, store: DayStore, now: int)
    requires WindowShape(w) && SummariesMatch(AsWritten, stored, store, now, w)
    ensures forall i :: 0 <= i < |w.days| ==> Printable(w.days[i].date) && Iso(w.days[i].date) in store
  {
    forall i | 0 <= i < |w.days|
      ensures Iso(w.days[i].date) in store
    {
      assert StoredOrEmpty(AsWritten, stored, store, w.days[i].date, w.days[i].summary, now);
    }
  }

  /** As written, a week whose Monday has no stored row fails once the settings, the date
      and the time-off rows are fine: the summary of Monday reads a field of `None`. */
  lemma MissingMondayFailsAsWritten(stored: SettingsStore, store: DayStore, rec: RecurringTable,
                                    timeoff: TimeOffTable, dayText: string, today: Date, now: int)
    requires GetTargets(stored).Ok? && ParseDate(dayText).Ok?
    requires ExpandTimeOffDays(timeoff, WeekBounds(dayText).value.0, WeekBounds(dayText).value.1).Ok?
    requires Iso(WeekBounds(dayText).value.0) !in store
    ensures ComputeWeekAsWritten(stored, store, rec, timeoff, dayText, today, now) == Err(MissingDayRow)
  {
    var (monday, friday) := WeekBounds(dayText).value;
    var dates := WeekDates(monday, friday);
    assert dates[0] == monday by {
      OrdinalOrder(dates[0], monday);
    }
    FirstMissingFails(stored, store, monday, friday, dates, now);
  }

  /** Corrected, a week without any stored row succeeds under the same conditions, with
      every day at zero net minutes. */
  lemma EmptyStoreWeekCorrected(stored: SettingsStore, rec: RecurringTable, timeoff: TimeOffTable,
                                dayText: string, today: Date, now: int)
    requires GetTargets(stored).Ok? && ParseDate(dayText).Ok?
    requires ExpandTimeOffDays(timeoff, WeekBounds(dayText).value.0, WeekBounds(dayText).value.1).Ok?
    ensures ComputeWeek(stored, map[], rec, timeoff, dayText, today, now).Ok?
    ensures var w := ComputeWeek(stored, map[], rec, timeoff, dayText, today, now).value;
      w.weekNet == 0 && forall i :: 0 <= i < |w.days| ==> w.days[i].summary.net == 0
  {
    EmptyStoreWeekOk(stored, rec, timeoff, dayText, today, now);
    EmptyStoreNetZero(ComputeWeek(stored, map[], rec, timeoff, dayText, today, now).value, stored, now);
  }

  lemma EmptyStoreWeekOk(stored: SettingsStore, rec: RecurringTable, timeoff: TimeOffTable,
                         dayText: string, today: Date, now: int)
    requires GetTargets(stored).Ok? && ParseDate(dayText).Ok?
    requires ExpandTimeOffDays(timeoff, WeekBounds(dayText).value.0, WeekBounds(dayText).value.1).Ok?
    ensures ComputeWeekWith(MissingIsEmpty, stored, map[], rec, timeoff, dayText, today, now).Ok?
  {
    var (monday, friday) := WeekBounds(dayText).value;
    EmptyRowsSummarise(stored, monday, friday, WeekDates(monday, friday), now);
  }

  /** A week view whose summaries come from empty rows has zero net minutes throughout. */
  lemma EmptyStoreNetZero(w: WeekView, stored: SettingsStore, now: int)
    requires WindowShape(w) && SummariesMatch(MissingIsEmpty, stored, map[], now, w)
    ensures w.weekNet == SumNet(w.days) ==> w.weekNet == 0
    ensures forall i :: 0 <= i < |w.days| ==> w.days[i].summary.net == 0
  {
    forall i | 0 <= i < |w.days|
      ensures w.days[i].summary.net == 0
    {
      assert StoredOrEmpty(MissingIsEmpty, stored, map[], w.days[i].date, w.days[i].summary, now);
    }
    ZeroNetSum(w.days);
  }

  lemma {:induction false} ZeroNetSum(days: seq<DayEntry>)
    requires forall i :: 0 <= i < |days| ==> days[i].summary.net == 0
    ensures SumNet(days) == 0
    decreases |days|
  {
    if |days| > 0 {
      ZeroNetSum(days[..|days| - 1]);
    }
  }

  /** The five dates Monday..Friday. */
  function WeekDates(monday: Date, friday: Date): (dates: seq<Date>)
    requires Printable(monday) && Printable(friday) && Ordinal(friday) == Ordinal(monday) + 4 && Weekday(monday) == 0
    ensures |dates| == 5
    ensures forall i :: 0 <= i < 5 ==> Printable(dates[i]) && Ordinal(dates[i]) == Ordinal(monday) + i
    ensures forall i :: 0 <= i < 5 ==> AtOrBefore(monday, dates[i]) && AtOrBefore(dates[i], friday)
    ensures forall i :: 0 <= i < 5 ==> ValidDate(dates[i]) && Weekday(dates[i]) == i
  {
    WeekDatesFacts(monday, friday);
    DateRange(monday, friday)
  }

  lemma WeekDatesFacts(monday: Date, friday: Date)
    requires Printable(monday) && Printable(friday) && Ordinal(friday) == Ordinal(monday) + 4 && Weekday(monday) == 0
    ensures |DateRange(monday, friday)| == 5
    ensures forall i :: 0 <= i < 5 ==>
      var d := DateRange(monday, friday)[i];
      Printable(d) && Ordinal(d) == Ordinal(monday) + i && AtOrBefore(monday, d) && AtOrBefore(d, friday) && Weekday(d) == i
  {
    var dates := DateRange(monday, friday);
    forall i | 0 <= i < 5
      ensures Printable(dates[i]) && AtOrBefore(monday, dates[i]) && AtOrBefore(dates[i], friday) && Weekday(dates[i]) == i
    {
      DayOfWeek(monday, friday, dates[i], i);
    }
  }

  /** The date `i` days after a Monday, up to its Friday, lies in the week and is weekday `i`. */
  lemma DayOfWeek(monday: Date, friday: Date, d: Date, i: int)
    requires Printable(monday) && Printable(friday) && Ordinal(friday) == Ordinal(monday) + 4 && Weekday(monday) == 0
    requires 0 <= i < 5 && ValidDate(d) && Ordinal(d) == Ordinal(monday) + i
    ensures Printable(d) && AtOrBefore(monday, d) && AtOrBefore(d, friday) && Weekday(d) == i
  {
    WeekdayShift(monday, d, i);
    OrdinalOrder(monday, d);
    OrdinalOrder(d, friday);
  }
}

=== FILE: wrappers.dfy ===
/** Option and Result types shared by the whole model, and the error kinds the
    backend raises (each one is an HTTP error or an uncaught Python exception). */
module Wrappers {

  datatype Option<+T> = None | Some(value: T) {

    /** The value when present, the default otherwise (`x ?? default`). */
    function GetOr(default: T): T {
      match this
      case Some(v) => v
      case None => default
    }
  }

  /** Why a backend call failed. The HTTP status the source uses is in the comment. */
  datatype Error =
    | InvalidDate          // 400: parse_date rejects the text
    | InvalidTime          // 400: validate_hhmm rejects the text
    | EndBeforeStart       // 400: an end time earlier than the start time
    | NotStarted           // 400: the day has no start time (or, as written, no end time)
    | SettingsNotInteger   // 500: a stored setting is not an integer
    | SettingsOutOfRange   // 500: a negative target or a non-positive workday count
    | SoftAboveHard        // 400: daily soft target above daily hard target
    | SchemaViolation      // 422: a request body outside its declared bounds
    | MissingStartTime     // 500: a time helper handed an absent start time (TypeError)
    | NullBreakMinutes     // 500: an explicit null written to the NOT NULL break column
    | MissingDayRow        // 500: a summary computed from an absent row (TypeError)
    | YearOutOfRange       // 400: a calendar year outside 1900..2100

  datatype Result<+T> = Ok(value: T) | Err(error: Error) {

    predicate IsFailure() {
      Err?
    }

    function PropagateFailure<U>(): Result<U>
      requires Err?
    {
      Err(error)
    }

    function Extract(): T
      requires Ok?
    {
      value
    }
  }
}
